=== FILE: README.md ===
# JobConnect core, modelled in Dafny

JobConnect is a job board with a social feed. This project models the business rules of its services and the state logic of its web client, and proves properties of them.

Server side:
- **Feed service.** Posts, comments and the like toggle. The post view carries the like and comment counts and the viewer's "liked" flag.
- **Job service.** Jobs, companies and applications:
  - job creation, with the company resolved by id or by name (auto-created when unknown);
  - null-skipping partial updates, closing, and deletion;
  - filter dispatch;
  - one application per (job, candidate).
- **Profile service.** One profile per user. Single-field setters store the value even when it is null; `updateProfile` skips null fields.
- **Auth controller.** The decision tables of signup, OTP sending and resending, OTP verification and login.

Client side:
- The Redux stores for feed, jobs and session. Each is a class whose methods are the reducers.
- The profile set-up wizard and the profile page, with the skills text they write and read back.
- The job board's filter and bookmark toggle.
- The external suggestion lookups.
- The account menu's initials.

Module layout:
- One module per source file.
- `Common`: `Option`, `Result`, null-skipping `Patch`, JavaScript truthiness of an optional string, and the subsequence relation.
- `Text`: the JavaScript string operations the client uses (`trim`, ASCII case mapping, `includes`, `split`, `join`).
- `JobTables`: the shared job-service tables.

Tables are maps from id to record. An operation that changes tables is a method on a class that owns them. Its contract states the whole new state, including that the other tables are unchanged. The rules behind it are stated on pure functions and proved as lemmas: toggles, invariants, round trips and null-skipping.

What the outside world supplies is passed in as parameters:
- the outcome of an HTTP call (`None` or `Err` for a failure, an `ok` flag for a handler's request);
- bcrypt's comparison result and hash;
- the random OTP draw, as a number below 900000;
- the clock;
- the mail outcome;
- a fresh `Date.now()` id;
- `JSON.parse`, as a function parameter or as the already parsed list.

## Model

| member | source | states |
|---|---|---|
| FeedService.ToggleLike | services/feed-service/src/main/java/com/jobconnect/feed/service/FeedServiceImpl.java:82-91 | the toggled (post, user) pair is liked afterwards exactly when it was not before |
| FeedService.ToggleLikeFlips | services/feed-service/src/main/java/com/jobconnect/feed/service/FeedServiceImpl.java:82-91 | after `likePost(post, user)` that pair is liked exactly when it was not before; every other (post, user) pair keeps its like or its absence |
| FeedService.ToggleLikeKeepsUnique | services/feed-service/src/main/java/com/jobconnect/feed/service/FeedServiceImpl.java:82-91 | the toggle keeps at most one like row per (post, user), the unique constraint of the like table |
| FeedService.ToggleLikeTwice | services/feed-service/src/main/java/com/jobconnect/feed/service/FeedServiceImpl.java:83-90 | toggling the same pair twice restores the table exactly when the pair was not liked, and in every case restores which pairs are liked |
| FeedService.ToggleLikeCount | services/feed-service/src/main/java/com/jobconnect/feed/service/FeedServiceImpl.java:82-91 | the toggle moves the like count of the toggled post by exactly one, down when the pair was liked and up otherwise; other posts' counts are unchanged |
| FeedService.PostViewOf | services/feed-service/src/main/java/com/jobconnect/feed/service/FeedServiceImpl.java:59-78 | the view copies the post id, content, image and creation time and carries the post's user id; the name is the author's, or "Unknown User" with no author row; headline and avatar are the profile's, or null when the author or its profile is missing; the counts are the numbers of like and comment rows of the post; isLiked holds exactly when the viewer has a like row for it |
| FeedService.ToggleLikeView | services/feed-service/src/main/java/com/jobconnect/feed/service/FeedServiceImpl.java:59-91 | after a toggle the toggling user's isLiked flips, the likes count moves by one, and the comment count, the author and other viewers' flags are unchanged |
| FeedService.CommentViewOf | services/feed-service/src/main/java/com/jobconnect/feed/service/FeedServiceImpl.java:138-151 | a comment view falls back to the name "User" and a null avatar when the comment's user is missing, and copies the comment's id, post, user and content |
| FeedService.UserPostsReportOwnLike | services/feed-service/src/main/java/com/jobconnect/feed/service/FeedServiceImpl.java:39-43 | in a user's own post list the isLiked flag reports the author's own like |
| FeedService.FeedServiceImpl.constructor | services/feed-service/src/main/java/com/jobconnect/feed/service/FeedServiceImpl.java:25-27 | the service starts with empty post, comment and like tables |
| FeedService.FeedServiceImpl.LikePost | services/feed-service/src/main/java/com/jobconnect/feed/service/FeedServiceImpl.java:82-91 | the like table becomes the toggle of the old one, the pair's liked state flips and no other table changes |
| FeedService.FeedServiceImpl.CreatePost | services/feed-service/src/main/java/com/jobconnect/feed/service/FeedServiceImpl.java:47-57 | exactly one post is added under a fresh id, with the caller as author and the request's content and image; the returned view shows that author id, content and image |
| FeedService.FeedServiceImpl.AddComment | services/feed-service/src/main/java/com/jobconnect/feed/service/FeedServiceImpl.java:95-129 | exactly one comment is added under a fresh id, the post's comment count grows by one, and the returned view is that comment's view with no loaded user |
| FeedService.FeedServiceImpl.GetFeed | services/feed-service/src/main/java/com/jobconnect/feed/service/FeedServiceImpl.java:30-36 | the feed holds exactly the posts whose author row exists, each its post view for the caller with the author resolved through the user table |
| FeedService.FeedServiceImpl.GetUserPosts | services/feed-service/src/main/java/com/jobconnect/feed/service/FeedServiceImpl.java:39-43 | exactly the user's posts, each its post view with the user as viewer |
| FeedService.FeedServiceImpl.GetComments | services/feed-service/src/main/java/com/jobconnect/feed/service/FeedServiceImpl.java:132-136 | exactly the comments of the post, each its comment view with the commenter resolved through the user table |
| JobTables.NewPosting | services/job-service/src/main/java/com/jobconnect/job/service/JobServiceImpl.java:57-69 | a created job is ACTIVE, its isRemote is false unless the request says true, and each of the other eleven fields is the request's |
| JobTables.UpdatePostingLaws | services/job-service/src/main/java/com/jobconnect/job/service/JobServiceImpl.java:108-133 | an all-null update keeps the job, repeating an update changes nothing more, and two updates in a row equal one update whose non-null fields are the later ones where given |
| JobTables.UpdatePosting | services/job-service/src/main/java/com/jobconnect/job/service/JobServiceImpl.java:108-133 | each of the thirteen posting fields is the request's value when that is non-null and the old value otherwise |
| JobTables.UpdateCompanyLaws | services/job-service/src/main/java/com/jobconnect/job/service/CompanyServiceImpl.java:62-68 | an all-null company update keeps the company, repeating one changes nothing more, and a full request overwrites every field |
| JobTables.UpdateCompany | services/job-service/src/main/java/com/jobconnect/job/service/CompanyServiceImpl.java:62-68 | each of the seven company fields is the request's value when that is non-null and the old value otherwise |
| JobTables.JobResponseOf | services/job-service/src/main/java/com/jobconnect/job/service/JobServiceImpl.java:206-235 | the response copies the job's id, recruiter, company id and posting; company name and logo are the company row's when it exists and null when it is absent |
| JobTables.JobResponseFollowsCompany | services/job-service/src/main/java/com/jobconnect/job/service/JobServiceImpl.java:227-232 | after a company rename, the responses of its jobs show the new name, not the name stored in the job |
| JobTables.ApplicationResponseOf | services/job-service/src/main/java/com/jobconnect/job/service/ApplicationServiceImpl.java:92-112 | the response copies the application's ids, status, resume and cover letter; jobTitle is the job's title when the job exists and null otherwise; candidate name and email are the fixed placeholders |
| JobTables.JobStore.constructor | services/job-service/src/main/java/com/jobconnect/job/entities/Job.java:104 | the job store starts with empty job, company and application tables |
| JobService.ResolveCompany | services/job-service/src/main/java/com/jobconnect/job/service/JobServiceImpl.java:36-55 | an explicit company id must exist, else "Company not found"; else a non-empty name selects the one company of that name, auto-creates exactly one when there is none, and fails when several share it; else the call fails with "Company ID or Company Name is required" |
| JobService.OnlyFirstFilterApplies | services/job-service/src/main/java/com/jobconnect/job/service/JobServiceImpl.java:79-89 | only the first non-null filter among status, location, employment type and experience level decides, and with none every job is admitted |
| JobService.CloseLaws | services/job-service/src/main/java/com/jobconnect/job/service/JobServiceImpl.java:165-171 | closing gives status CLOSED and is idempotent, and a later update can still set any status |
| JobService.FilterOf | services/job-service/src/main/java/com/jobconnect/job/service/JobServiceImpl.java:79-89 | the filter is the first non-null parameter in the order status, location, employment type, experience level, carrying that parameter's value; with none the listing is unfiltered |
| JobService.Admits | services/job-service/src/main/java/com/jobconnect/job/service/JobServiceImpl.java:79-89 | a status filter admits exactly the jobs whose status is the enum constant of that name (the corrected query); the other filters admit only jobs that have the column; no filter admits every job |
| JobService.MatchesKeyword | services/job-service/src/main/java/com/jobconnect/job/service/JobServiceImpl.java:156-162 | the empty keyword finds every job with a title or a description; a title or description that contains the keyword as written is found |
| JobService.Closed | services/job-service/src/main/java/com/jobconnect/job/service/JobServiceImpl.java:165-171 | closing is the update that sets only the status, to CLOSED; nothing but the posting changes |
| JobService.JobServiceImpl.constructor | services/job-service/src/main/java/com/jobconnect/job/service/JobServiceImpl.java:29 | the service works on the given job store |
| JobService.JobServiceImpl.CreateJob | services/job-service/src/main/java/com/jobconnect/job/service/JobServiceImpl.java:32-73 | on a failed company resolution nothing is stored; otherwise exactly one job is stored under a fresh id with the caller as recruiter and the resolved company, plus the auto-created company if any |
| JobService.JobServiceImpl.GetAllJobs | services/job-service/src/main/java/com/jobconnect/job/service/JobServiceImpl.java:76-94 | exactly the jobs the selected filter admits, each as its response, with the status query as intended |
| JobService.JobServiceImpl.GetAllJobsAsWritten | services/job-service/src/main/java/com/jobconnect/job/service/JobServiceImpl.java:79-80 | as written, a status parameter makes the listing fail, because findByStatus passes a String for the enum-typed status attribute; without one it is the corrected listing |
| JobService.JobServiceImpl.StatusFilterFailsAsWritten | services/job-service/src/main/java/com/jobconnect/job/repository/JobRepository.java:14 | filtering by the status a stored job has fails as written, while the corrected listing contains that job |
| JobService.JobServiceImpl.GetJobById | services/job-service/src/main/java/com/jobconnect/job/service/JobServiceImpl.java:97-101 | not-found exactly when the id is absent; otherwise the job's full response, its company's name and logo looked up as for every listing |
| JobService.JobServiceImpl.UpdateJob | services/job-service/src/main/java/com/jobconnect/job/service/JobServiceImpl.java:104-137 | an unknown id fails and changes nothing; otherwise only that job changes, to its null-skipping update |
| JobService.JobServiceImpl.DeleteJob | services/job-service/src/main/java/com/jobconnect/job/service/JobServiceImpl.java:140-145 | an unknown id fails and changes nothing; otherwise that job and its applications are removed, and nothing else |
| JobService.JobServiceImpl.GetJobsByRecruiter | services/job-service/src/main/java/com/jobconnect/job/service/JobServiceImpl.java:148-153 | exactly the jobs with that recruiter id, each its job response |
| JobService.JobServiceImpl.SearchJobs | services/job-service/src/main/java/com/jobconnect/job/service/JobServiceImpl.java:156-162 | exactly the jobs whose title or description contains the keyword, ignoring case, each its job response |
| JobService.JobServiceImpl.CloseJob | services/job-service/src/main/java/com/jobconnect/job/service/JobServiceImpl.java:165-171 | an unknown id fails and changes nothing; otherwise only that job changes, to status CLOSED |
| ApplicationService.AddKeepsOnePerPair | services/job-service/src/main/java/com/jobconnect/job/service/ApplicationServiceImpl.java:29-47 | adding an application for a (job, candidate) pair that has none keeps at most one application per pair |
| ApplicationService.StatusAndRemovalKeepOnePerPair | services/job-service/src/main/java/com/jobconnect/job/service/ApplicationServiceImpl.java:74-89 | changing a status or removing rows keeps at most one application per pair |
| ApplicationService.ApplicationServiceImpl.constructor | services/job-service/src/main/java/com/jobconnect/job/service/ApplicationServiceImpl.java:24-26 | the service works on the given job store |
| ApplicationService.ApplicationServiceImpl.ApplyForJob | services/job-service/src/main/java/com/jobconnect/job/service/ApplicationServiceImpl.java:29-47 | a second application for the same (job, candidate) fails and changes nothing; otherwise exactly one PENDING application with the request's fields is added; the one-per-pair invariant is kept |
| ApplicationService.ApplicationServiceImpl.GetApplicationsByJob | services/job-service/src/main/java/com/jobconnect/job/service/ApplicationServiceImpl.java:50-56 | exactly the applications with that job id, each its application response |
| ApplicationService.ApplicationServiceImpl.GetApplicationsByCandidate | services/job-service/src/main/java/com/jobconnect/job/service/ApplicationServiceImpl.java:59-64 | exactly the applications with that candidate id, each its application response |
| ApplicationService.ApplicationServiceImpl.GetApplicationById | services/job-service/src/main/java/com/jobconnect/job/service/ApplicationServiceImpl.java:67-71 | not-found exactly when the id is absent; otherwise the application's full response: its fields, its job's title and the candidate placeholders |
| ApplicationService.ApplicationServiceImpl.UpdateApplicationStatus | services/job-service/src/main/java/com/jobconnect/job/service/ApplicationServiceImpl.java:74-81 | an unknown id fails; otherwise the status becomes the requested one, with no transition check, and nothing else changes |
| ApplicationService.ApplicationServiceImpl.WithdrawApplication | services/job-service/src/main/java/com/jobconnect/job/service/ApplicationServiceImpl.java:84-89 | an unknown id fails; otherwise only that application is removed |
| CompanyService.DeletedCompanyLeavesJobsNameless | services/job-service/src/main/java/com/jobconnect/job/service/CompanyServiceImpl.java:75-80 | after a company is deleted the jobs that still reference it report no company name or logo |
| CompanyService.CompanyServiceImpl.constructor | services/job-service/src/main/java/com/jobconnect/job/service/CompanyServiceImpl.java:22-24 | the service works on the given job store |
| CompanyService.CompanyServiceImpl.CreateCompany | services/job-service/src/main/java/com/jobconnect/job/service/CompanyServiceImpl.java:28-40 | exactly one company is added under a fresh id, with the request's seven fields |
| CompanyService.CompanyServiceImpl.GetAllCompanies | services/job-service/src/main/java/com/jobconnect/job/service/CompanyServiceImpl.java:43-48 | one response per company |
| CompanyService.CompanyServiceImpl.GetCompanyById | services/job-service/src/main/java/com/jobconnect/job/service/CompanyServiceImpl.java:51-55 | not-found exactly when the id is absent; otherwise that company's response |
| CompanyService.CompanyServiceImpl.UpdateCompany | services/job-service/src/main/java/com/jobconnect/job/service/CompanyServiceImpl.java:58-72 | an unknown id fails; otherwise only that company changes, to its null-skipping update |
| CompanyService.CompanyServiceImpl.DeleteCompany | services/job-service/src/main/java/com/jobconnect/job/service/CompanyServiceImpl.java:75-80 | an unknown id fails; otherwise only that company is removed, and the jobs that reference it stay |
| CompanyService.CompanyServiceImpl.GetJobsByCompany | services/job-service/src/main/java/com/jobconnect/job/service/CompanyServiceImpl.java:83-88 | exactly the jobs with that company id, each its job response, so with the company's name and logo, null when the company is absent |
| ProfileService.WithField | services/profile-service/src/main/java/com/jobconnect/profile/service/ProfileServiceImpl.java:43-154 | a single-field setter keeps the profile's user |
| ProfileService.WithFieldChangesOnlyThatField | services/profile-service/src/main/java/com/jobconnect/profile/service/ProfileServiceImpl.java:43-154 | a single-field setter changes exactly its field, to the DTO value even when that is null |
| ProfileService.PatchProfile | services/profile-service/src/main/java/com/jobconnect/profile/service/ProfileServiceImpl.java:116-136 | updateProfile keeps a field whose request value is null, stores the others, and never changes skills or the owner |
| ProfileService.PatchProfileIsSetterSequence | services/profile-service/src/main/java/com/jobconnect/profile/service/ProfileServiceImpl.java:116-136 | updateProfile equals calling the single setter of each non-null field in turn |
| ProfileService.IntendedSearchIsIntersection | services/profile-service/src/main/java/com/jobconnect/profile/service/ProfileServiceImpl.java:166-180 | the intended search with both parameters admits exactly the profiles both single-parameter searches admit |
| ProfileService.SearchAdmits | services/profile-service/src/main/java/com/jobconnect/profile/service/ProfileServiceImpl.java:166-180 | every profile the search finds is one the intended search finds, and with at most one parameter the two searches agree |
| ProfileService.SearchBothIsNotIntersection | services/profile-service/src/main/java/com/jobconnect/profile/service/ProfileServiceImpl.java:166-169 | as written, a profile whose skills contain the query and whose location matches is missed by the search with both parameters |
| ProfileService.ProfileServiceImpl.constructor | services/profile-service/src/main/java/com/jobconnect/profile/service/ProfileServiceImpl.java:29 | the service starts with an empty profile table |
| ProfileService.ProfileServiceImpl.AddProfile | services/profile-service/src/main/java/com/jobconnect/profile/service/ProfileServiceImpl.java:32-41 | a user who already has a profile is refused and nothing changes; otherwise the profile is stored under a fresh id; one profile per user is kept |
| ProfileService.ProfileServiceImpl.UpdateField | services/profile-service/src/main/java/com/jobconnect/profile/service/ProfileServiceImpl.java:43-154 | an unknown id fails with not-found; otherwise only that profile changes, by its one setter |
| ProfileService.ProfileServiceImpl.UpdateProfile | services/profile-service/src/main/java/com/jobconnect/profile/service/ProfileServiceImpl.java:116-136 | an unknown id fails with not-found; otherwise only that profile changes, to its null-skipping update |
| ProfileService.ProfileServiceImpl.GetProfile | services/profile-service/src/main/java/com/jobconnect/profile/service/ProfileServiceImpl.java:71-74 | not-found exactly when the id is absent; otherwise that profile |
| ProfileService.ProfileServiceImpl.GetProfileByUserId | services/profile-service/src/main/java/com/jobconnect/profile/service/ProfileServiceImpl.java:95-98 | not-found exactly when the user has no profile; otherwise the user's profile |
| ProfileService.ProfileServiceImpl.DeleteProfile | services/profile-service/src/main/java/com/jobconnect/profile/service/ProfileServiceImpl.java:157-163 | an unknown id fails; otherwise only that profile is removed |
| ProfileService.ProfileServiceImpl.SearchProfiles | services/profile-service/src/main/java/com/jobconnect/profile/service/ProfileServiceImpl.java:166-191 | exactly the profiles the dispatched query admits, the code's own query whenever at most one parameter is given, and with both the corrected intersection of the search finding; with neither parameter, every profile |
| AuthController.Decimal | services/auth-service/src/controller/authController.js:28 | `toString` of a number is a non-empty string of decimal digits |
| AuthController.DecimalRoundTrip | services/auth-service/src/controller/authController.js:28 | reading back the decimal text of a number gives the number |
| AuthController.OtpFromDraw | services/auth-service/src/controller/authController.js:28 | the code is six decimal digits, does not start with 0, and denotes 100000 plus the draw |
| AuthController.WithNewOtp | services/auth-service/src/controller/authController.js:30-37 | the user row gets a six-digit code, an expiry 15 minutes ahead and one more attempt, and keeps its other fields |
| AuthController.ResendReply | services/auth-service/src/controller/authController.js:125-142 | as written, any present email is answered 200 and a missing one 400 |
| AuthController.IntendedResendReply | services/auth-service/src/controller/authController.js:125-142 | the intended reply is 200 exactly when the email is present and the send succeeds, and 500 when the send fails |
| AuthController.ResendIgnoresFailure | services/auth-service/src/controller/authController.js:133-137 | the two replies agree except on a failed send: for an unknown email the code as written answers 200 where 500 is intended |
| AuthController.AuthStore.constructor | services/auth-service/src/controller/authController.js:30 | the user table starts empty |
| AuthController.AuthStore.SendOtp | services/auth-service/src/controller/authController.js:23-66 | a missing email throws before any change; an unknown email fails unchanged; otherwise the code, expiry and attempt count are stored first, then the call fails at 5 or more attempts or on a mail failure |
| AuthController.AuthStore.Signup | services/auth-service/src/controller/authController.js:69-123 | 400 for a missing field; 409 for a verified user; 429 at 5 or more attempts; otherwise an OTP is sent with 200 for an existing user or 201 for a new one created with 0 attempts, and 500 when sending throws |
| AuthController.AuthStore.ResendOtp | services/auth-service/src/controller/authController.js:125-142 | 400 without an email; otherwise the send's effect on the user row, and 200 exactly when the send succeeds, else 500 (the corrected reply of the resend finding) |
| AuthController.AuthStore.VerifyOtp | services/auth-service/src/controller/authController.js:144-178 | 400 for a missing field, 404 for an unknown user, 400 and no change for a wrong code; a matching code marks the user verified; expiry is never checked |
| AuthController.AuthStore.Login | services/auth-service/src/controller/authController.js:180-216 | 200 exactly for a known, verified user with the right password; 400 for a missing field or a wrong password; 404 for an unknown or unverified user |
| FeedSlice.Unseen | app/web/src/store/slices/feedSlice.js:133-134 | the kept posts are a subsequence of the incoming ones, in their order, with exactly the incoming posts whose id was not seen |
| FeedSlice.MergePage | app/web/src/store/slices/feedSlice.js:132-136 | a later page keeps the existing posts as a prefix in order and appends exactly the unseen returned posts, in their order; no returned post is lost: each is already held by id or appended |
| FeedSlice.FindPost | app/web/src/store/slices/feedSlice.js:155 | the index of the first post with that id, or none when no post has it |
| FeedSlice.ToggledLike | app/web/src/store/slices/feedSlice.js:156-164 | the flag flips; the count becomes max(0, count - 1) on an unlike and count + 1 on a like; the other fields are kept |
| FeedSlice.ToggledLikeTwice | app/web/src/store/slices/feedSlice.js:156-164 | on a post whose count includes its own like, two toggles restore it |
| FeedSlice.OptimisticLikeMatchesServer | app/web/src/store/slices/feedSlice.js:153-164 | a client post that mirrors the server's view stays a mirror after the client toggle and the server toggle |
| FeedSlice.PageAfterFetch | app/web/src/store/slices/feedSlice.js:129-140 | as written, the counter is 2 after page 0 and grows by 2 after each later page |
| FeedSlice.IntendedPageAfterFetch | app/web/src/store/slices/feedSlice.js:129-140 | the intended counter is the page to request next |
| FeedSlice.PageCounterSkipsAPage | app/web/src/store/slices/feedSlice.js:131-140 | after the first page the counter points at page 2, and after page n at one past the intended n + 1 |
| FeedSlice.FeedState.constructor | app/web/src/store/slices/feedSlice.js:102-109 | the initial feed state |
| FeedSlice.FeedState.ClearFeed | app/web/src/store/slices/feedSlice.js:111-115 | posts emptied, page 0, hasMore true; userPosts, loading and error kept |
| FeedSlice.FeedState.Pending | app/web/src/store/slices/feedSlice.js:120-123 | loading true and error null; lists and paging kept |
| FeedSlice.FeedState.Rejected | app/web/src/store/slices/feedSlice.js:142-145 | loading false and error the payload; lists and paging kept |
| FeedSlice.FeedState.FetchFeedFulfilled | app/web/src/store/slices/feedSlice.js:124-141 | page 0 replaces the posts; a later page merges; hasMore is not `last`; the counter becomes the next page to request (the corrected counter of the paging finding) |
| FeedSlice.FeedState.CreatePostFulfilled | app/web/src/store/slices/feedSlice.js:147-151 | the created post, when present, goes first; nothing else changes |
| FeedSlice.FeedState.LikePostFulfilled | app/web/src/store/slices/feedSlice.js:153-165 | the first post with that id is toggled, the others and userPosts are untouched |
| FeedSlice.FeedState.AddCommentFulfilled | app/web/src/store/slices/feedSlice.js:167-173 | the first post with that id gets one more comment, the others are untouched |
| FeedSlice.FeedState.FetchUserPostsFulfilled | app/web/src/store/slices/feedSlice.js:179-182 | userPosts is the returned content; the feed posts are kept |
| JobSlice.ApplyStatusMachine | app/web/src/store/slices/jobSlice.js:56-58 | only reset returns to idle, only a pending apply gives loading, and a settled apply gives succeeded or failed |
| JobSlice.JobState.constructor | app/web/src/store/slices/jobSlice.js:45-51 | the initial job state |
| JobSlice.JobState.ClearJobError | app/web/src/store/slices/jobSlice.js:53-55 | only the error is cleared |
| JobSlice.JobState.ResetApplicationStatus | app/web/src/store/slices/jobSlice.js:56-58 | only the application status changes, to idle |
| JobSlice.JobState.FetchJobsPending | app/web/src/store/slices/jobSlice.js:63-66 | loading true and error null |
| JobSlice.JobState.FetchJobsFulfilled | app/web/src/store/slices/jobSlice.js:67-70 | the payload replaces the jobs and loading ends |
| JobSlice.JobState.FetchJobsRejected | app/web/src/store/slices/jobSlice.js:71-74 | the error is stored and loading ends |
| JobSlice.JobState.FetchUserApplicationsFulfilled | app/web/src/store/slices/jobSlice.js:77-85 | the payload replaces the user's applications; pending and rejected change nothing |
| JobSlice.JobState.ApplyPending | app/web/src/store/slices/jobSlice.js:88-91 | status loading and error null |
| JobSlice.JobState.ApplyFulfilled | app/web/src/store/slices/jobSlice.js:92-96 | status succeeded and the application appended after the earlier ones |
| JobSlice.JobState.ApplyRejected | app/web/src/store/slices/jobSlice.js:97-100 | status failed and the error stored |
| AuthSlice.AuthState.constructor | app/web/src/store/slices/authSlice.js:60-66 | the initial session state |
| AuthSlice.AuthState.Logout | app/web/src/store/slices/authSlice.js:68-71 | user and authentication cleared; profile, loading and error kept |
| AuthSlice.AuthState.SetUser | app/web/src/store/slices/authSlice.js:72-75 | the user is the payload and the session is authenticated exactly when a user is given |
| AuthSlice.AuthState.ClearError | app/web/src/store/slices/authSlice.js:76-78 | only the error is cleared |
| AuthSlice.AuthState.Pending | app/web/src/store/slices/authSlice.js:82-85 | loading true and error null, the session kept |
| AuthSlice.AuthState.LoginFulfilled | app/web/src/store/slices/authSlice.js:86-92 | user and profile from the reply, authenticated, error null |
| AuthSlice.AuthState.LoginRejected | app/web/src/store/slices/authSlice.js:93-97 | the error stored and the session unauthenticated |
| AuthSlice.AuthState.SettledWithoutSession | app/web/src/store/slices/authSlice.js:104-107 | a fulfilled signup or resend clears loading and error and never authenticates |
| AuthSlice.AuthState.Rejected | app/web/src/store/slices/authSlice.js:108-111 | a rejected signup, verify or resend stores the error and keeps the session |
| AuthSlice.AuthState.VerifyOtpFulfilled | app/web/src/store/slices/authSlice.js:116-121 | the user from the reply, authenticated, error null |
| JobsPage.AppliedAfterPush | app/web/src/pages/jobs/Jobs.jsx:86-88 | after an application is pushed a job counts as applied exactly when it did before or is the new application's job |
| JobsPage.IsJobApplied | app/web/src/pages/jobs/Jobs.jsx:86-88 | a job is applied for exactly when some listed application is for it; with no applications none is |
| JobsPage.MatchesSearch | app/web/src/pages/jobs/Jobs.jsx:166-171 | an empty query matches every job that has a title, a company name or a skill; a title containing the query as written matches |
| JobsPage.ToggleSaved | app/web/src/pages/jobs/Jobs.jsx:90-96 | the id is saved afterwards exactly when it was not before; every other id keeps its state |
| JobsPage.ToggleSavedTwice | app/web/src/pages/jobs/Jobs.jsx:90-96 | toggling an unsaved id twice restores the list exactly; toggling any id twice restores which ids are saved |
| JobsPage.ParseSkills | app/web/src/pages/jobs/Jobs.jsx:107-116 | an array is kept, malformed text gives no skills, null gives none |
| JobsPage.FilterSkillsAgreesWithParse | app/web/src/pages/jobs/Jobs.jsx:160-164 | the filter's skills fail exactly on malformed text, and otherwise equal what parseSkills gives |
| JobsPage.FilteredJobs | app/web/src/pages/jobs/Jobs.jsx:160-179 | the result fails exactly when some job's skills text is malformed; otherwise it is the subsequence, in order, of exactly the jobs the three tests admit |
| JobsPage.LocationAndTypeFilters | app/web/src/pages/jobs/Jobs.jsx:172-176 | an empty location query and the type "all" accept every job, "remote" accepts exactly the remote jobs, any other type accepts none |
| JobsPage.EmptySearchKeepsNamedJobs | app/web/src/pages/jobs/Jobs.jsx:166-171 | an empty search keeps every job that has a title or a company name |
| SetProfile.ValidateStep | app/web/src/pages/auth/SetProfile.jsx:165-204 | a step validates exactly when step 0 has a non-blank headline and bio, step 1 a non-blank location, steps 2 to 4 a non-empty list, and any other step always; a blank headline is the message reported first |
| SetProfile.AddSkill | app/web/src/pages/auth/SetProfile.jsx:95-100 | the list is unchanged or gets the trimmed input appended, and it changes exactly when the trimmed input is non-blank and not yet listed |
| SetProfile.SkillEditsKeepClean | app/web/src/pages/auth/SetProfile.jsx:95-107 | adding and removing skills keep the list trimmed, non-empty-entried and free of repeats |
| SetProfile.RemoveKeepsClean | app/web/src/pages/auth/SetProfile.jsx:102-107 | removing every copy of a skill keeps the list clean |
| SetProfile.RemoveAt | app/web/src/pages/auth/SetProfile.jsx:126-131 | the entry at an in-range index is dropped and the others kept in order; an out-of-range index changes nothing |
| SetProfile.AddExperience | app/web/src/pages/auth/SetProfile.jsx:109-124 | the entry is appended exactly when its title and company are not blank, else the list is unchanged |
| SetProfile.AddEducation | app/web/src/pages/auth/SetProfile.jsx:133-148 | the entry is appended exactly when its degree and school are not blank, else the list is unchanged |
| SetProfile.ProfileWizard.constructor | app/web/src/pages/auth/SetProfile.jsx:40-76 | the wizard starts at step 0 with an empty form for the signed-in user |
| SetProfile.ProfileWizard.HandleNext | app/web/src/pages/auth/SetProfile.jsx:206-210 | the error is the step's validation message, and the step advances exactly when it validates |
| SetProfile.ProfileWizard.HandleBack | app/web/src/pages/auth/SetProfile.jsx:212-215 | one step back and no error |
| SetProfile.ProfileWizard.AddSkillFromInput | app/web/src/pages/auth/SetProfile.jsx:95-100 | the skills become AddSkill of the input, and the input is cleared only when a skill was added |
| SetProfile.ProfileWizard.RemoveSkill | app/web/src/pages/auth/SetProfile.jsx:102-107 | every entry equal to the argument goes, the rest keep their order |
| SetProfile.ProfileWizard.AddExperienceFromInput | app/web/src/pages/auth/SetProfile.jsx:109-124 | the list becomes AddExperience of the input, which is reset only on add |
| SetProfile.ProfileWizard.RemoveExperience | app/web/src/pages/auth/SetProfile.jsx:126-131 | the entry at the index is dropped |
| SetProfile.ProfileWizard.AddEducationFromInput | app/web/src/pages/auth/SetProfile.jsx:133-148 | the list becomes AddEducation of the input, which is reset only on add |
| SetProfile.ProfileWizard.RemoveEducation | app/web/src/pages/auth/SetProfile.jsx:150-155 | the entry at the index is dropped |
| SetProfile.ProfileWizard.HandleSubmit | app/web/src/pages/auth/SetProfile.jsx:217-257 | nothing is sent while loading; otherwise the form's payload is sent, with skills joined by ", ", and success or the error follows the reply |
| SetProfile.PayloadOf | app/web/src/pages/auth/SetProfile.jsx:222-232 | the posted body is the form with the skills joined by ", " |
| ProfilePage.ParseSkills | app/web/src/profile/ProfilePage.jsx:165 | a missing or empty skills text reads as no skills (every skill read back is storable: ParsedSkillsAreStorable) |
| ProfilePage.TrimAll | app/web/src/profile/ProfilePage.jsx:165 | each part trimmed, in place |
| ProfilePage.NonEmpty | app/web/src/profile/ProfilePage.jsx:165 | the empty parts dropped, the rest kept in order |
| ProfilePage.ParsedSkillsAreStorable | app/web/src/profile/ProfilePage.jsx:165 | every skill read back from the skills text is trimmed, non-empty and comma-free |
| ProfilePage.CommaJoinRoundTrip | app/web/src/profile/ProfilePage.jsx:323 | the ","-joined text the page writes parses back to the same list when every skill is trimmed, non-empty and comma-free |
| ProfilePage.WizardSkillsReadBack | app/web/src/profile/ProfilePage.jsx:165 | the ", "-joined text the set-up wizard writes parses back to the wizard's list when its skills are comma-free |
| ProfilePage.CommaInSkillSplits | app/web/src/profile/ProfilePage.jsx:165 | a skill holding a comma, such as "C,C++", is read back as two skills |
| ProfilePage.WithoutId | app/web/src/profile/ProfilePage.jsx:269 | the entries with that id dropped, every other entry kept in order |
| ProfilePage.ProfilePageState.LoadProfile | app/web/src/profile/ProfilePage.jsx:155-190 | the skills are the parse of the text, the lists the parsed JSON or empty, and each shown field the fetched value when truthy, else the previous one |
| ProfilePage.ProfilePageState.HandleAddSkill | app/web/src/profile/ProfilePage.jsx:318-333 | nothing for an empty or listed skill or no active profile id; otherwise the list plus the skill is sent, joined by ",", and kept when the call succeeds |
| ProfilePage.ProfilePageState.HandleDeleteSkill | app/web/src/profile/ProfilePage.jsx:335-346 | with an active id the list without every copy of the skill is sent and kept on success |
| ProfilePage.ProfilePageState.HandleAddExperience | app/web/src/profile/ProfilePage.jsx:243-265 | with an active id the new entry, under a fresh id, is sent ahead of the list and kept on success |
| ProfilePage.ProfilePageState.HandleDeleteExperience | app/web/src/profile/ProfilePage.jsx:267-279 | with an active id the list without the entries of that id is sent and kept on success |
| ProfilePage.ProfilePageState.HandleAddEducation | app/web/src/profile/ProfilePage.jsx:281-303 | as for experience, on the education list |
| ProfilePage.ProfilePageState.HandleDeleteEducation | app/web/src/profile/ProfilePage.jsx:305-316 | as for experience, on the education list |
| ProfilePage.ProfilePageState.HandleSaveProfile | app/web/src/profile/ProfilePage.jsx:201-222 | with an active id a headline or location update is sent only for a field that changed, a failed call stops the rest, and the shown profile takes the edits only when every call succeeds |
| ProfilePage.ProfilePageState.HandleSaveAbout | app/web/src/profile/ProfilePage.jsx:224-235 | with an active id the edited bio is sent and shown on success |
| ExternalApis.StrLeTotal | app/web/src/lib/externalApis.js:120 | the character-code order `sort` uses relates any two strings |
| ExternalApis.SortStrings | app/web/src/lib/externalApis.js:120 | `sort` returns a sorted list with the same entries and counts |
| ExternalApis.JobTitlesList | app/web/src/lib/externalApis.js:68-120 | the job-title list is sorted and holds exactly the 51 curated titles |
| ExternalApis.SearchTitles | app/web/src/lib/externalApis.js:122-125 | an empty query gives nothing; otherwise exactly the titles that contain the query, ignoring case, in list order |
| ExternalApis.TitlesMatching | app/web/src/lib/externalApis.js:124 | the titles kept are a subsequence of the list, each contains the query ignoring case, and every title of the list that does is kept |
| ExternalApis.SearchJobTitles | app/web/src/lib/externalApis.js:122-125 | an empty query gives nothing, and the titles found come in sorted order |
| ExternalApis.SearchUniversities | app/web/src/lib/externalApis.js:9-19 | nothing without a query or on a failed request; otherwise the names of the first 20 universities |
| ExternalApis.SearchCompanies | app/web/src/lib/externalApis.js:21-30 | nothing without a query or on a failed request; otherwise every suggestion |
| ExternalApis.DedupAfter | app/web/src/lib/externalApis.js:43 | the parts not yet seen, each once, a subsequence of the parts ordered by where each first occurs |
| ExternalApis.PresentParts | app/web/src/lib/externalApis.js:42 | `filter(Boolean)` on the fields: no part is empty |
| ExternalApis.PresentPartsMembers | app/web/src/lib/externalApis.js:42 | the parts are exactly the values of the present, non-empty fields |
| ExternalApis.PresentPartsAppend | app/web/src/lib/externalApis.js:42 | the filter keeps field order: filtering two lists one after the other gives the first list's parts, then the second's |
| ExternalApis.PresentPartsOfFour | app/web/src/lib/externalApis.js:42 | four fields give their present, non-empty values in field order, repeats included |
| ExternalApis.LocationLabelParts | app/web/src/lib/externalApis.js:40-44 | the label joins, by ", ", the non-empty fields among name, city, state and country, each once, ordered by its first occurrence in that field order |
| ExternalApis.LocationLabel | app/web/src/lib/externalApis.js:40-44 | the label is empty exactly when none of name, city, state and country is a non-empty string |
| ExternalApis.CityNamedLikePlace | app/web/src/lib/externalApis.js:42-43 | a city named like its place appears once: "Paris", "Paris", null, "France" gives "Paris, France" |
| ExternalApis.SearchLocations | app/web/src/lib/externalApis.js:35-49 | nothing for a query shorter than 3 characters or on a failed request; otherwise one label per returned feature |
| ExternalApis.SearchSkills | app/web/src/lib/externalApis.js:56-65 | nothing without a query or on a failed request; otherwise the names of the returned tags, in order |
| UserMenu.FirstLetters | app/web/src/components/auth/UserMenu.jsx:52-55 | one letter per non-empty word, starting with the first word's first letter |
| UserMenu.Prefix | app/web/src/components/auth/UserMenu.jsx:57 | `slice(0, n)`: the first n characters, or all when fewer |
| UserMenu.Initials | app/web/src/components/auth/UserMenu.jsx:50-63 | with a full name its words' first letters, upper-cased, cut to 2; else the email's first two characters, upper-cased; else "U" |
| UserMenu.InitialsStartWithFirstLetter | app/web/src/components/auth/UserMenu.jsx:50-58 | initials of a full name not starting with a space begin with its first letter, upper-cased |
| UserMenu.DemoUserInitials | app/web/src/components/auth/UserMenu.jsx:21-27 | the mock user "Demo User" is shown as "DU" |
| UserMenu.DisplayName | app/web/src/components/auth/UserMenu.jsx:65-67 | the full name, else the email, else "User"; never empty |
| Text.Trim | app/web/src/pages/auth/SetProfile.jsx:96 | `trim` leaves no white space at either end and adds no character |
| Text.TrimDropsOnlySpace | app/web/src/pages/auth/SetProfile.jsx:96 | `trim` keeps a contiguous piece of the string |
| Text.BlankIffAllSpace | app/web/src/pages/auth/SetProfile.jsx:168 | `!s.trim()` holds exactly when the string is only white space |
| Text.TrimIdempotent | app/web/src/pages/auth/SetProfile.jsx:96-97 | trimming twice is trimming once |
| Text.Includes | app/web/src/pages/jobs/Jobs.jsx:167 | `includes` holds exactly when the text occurs at some position |
| Text.Split | app/web/src/profile/ProfilePage.jsx:165 | `split` gives at least one part, none holding the separator |
| Text.JoinSplit | app/web/src/profile/ProfilePage.jsx:165 | joining the pieces of a split with its separator gives the text back, for every text |
| Text.SplitJoin | app/web/src/profile/ProfilePage.jsx:165 | splitting what `join` made gives the parts back when none holds the separator |
| Text.Join | app/web/src/pages/auth/SetProfile.jsx:229 | the joined text is as long as the parts together plus one separator between each pair of neighbours, and begins with the first part |
| Text.IncludesIgnoringCase | app/web/src/pages/jobs/Jobs.jsx:167 | the case-insensitive match holds whenever the case-sensitive one does, never for a needle longer than the text, and always for the empty needle |

## Left out

- SearchJobTitles: its own contract gives the empty-query case and the sorted order. That every title found contains the query is the contract of `SearchTitles`, which holds for every title list; restating it over the literal 51-title list exceeds the verifier's resource limit, because that list is evaluated in full.
- HTTP, routing and controllers: handlers take their request fields as parameters and return the reply status and message. Cookies and JWT creation are not modelled.
- Persistence: repositories are maps. Pagination, `createdAt` ordering, timestamps, lazy loading, foreign-key and NOT NULL constraints, and transactions are not modelled. Derived finder queries become filters over the map.
- Results are maps from id to response, not ordered lists. The order of `findAll` and of derived queries is not modelled.
- Concurrency: the like toggle's race against the unique constraint is not modelled. Every operation runs alone.
- bcrypt, `Math.random`, `Date.now`, nodemailer and the clock: their outcomes are parameters. The OTP draw is a natural number below 900000.
- JSON.parse and JSON.stringify: parsed text is a function parameter or the parsed value itself. The wizard's payload carries the experience and education lists for the JSON text they are stringified to.
- Unicode: `trim` uses the usual white-space characters, and `toLowerCase`/`toUpperCase` map ASCII letters only. Comparison of strings is by Unicode code point, which agrees with UTF-16 order for the curated titles.
- Unicode: strings are sequences of code points, while JavaScript's `length`, indexing and slicing count UTF-16 code units. The two differ only for characters outside the Basic Multilingual Plane, such as emoji.
- ExternalApis.SearchLocations: the 3-character threshold counts code points. A query such as an emoji followed by one letter has JavaScript length 3 and is sent, while the model returns [] for it.
- UserMenu.Initials: `n[0]`, `slice(0, 2)` and `substring(0, 2)` take whole code points in the model. For a word that starts outside the Basic Multilingual Plane, JavaScript takes a lone surrogate half.
- `getJobApplications` (JobServiceImpl.java lines 175-204): not modelled. It reads each application's candidate name and email from the users table through a lazily loaded association, and the job service's model holds no users table. `getApplicationsByJob` gives the same applications.
- `forgotPasswordController`: not modelled, because it never sends a reply.
- `dispatch(setUserProfile(...))` in the profile page handlers: not modelled, because `setUserProfile` is not defined in the session store.
- `formatDate`, `formatSalary` and `formatPostedTime`: not modelled (dates and floating point). Dates are plain strings in the entries.
- The company object an autocomplete can put in the experience form (`newExperience.company?.name`): not modelled. The company is always a string.
- `handleSaveProfile` and `handleSaveAbout` also close their dialogs: not modelled (React view state).
- ProfilePage.ProfilePageState.LoadProfile: the shown avatar and company, the latter taken from the current experience, are not modelled. The profile fields kept are headline, location, website and about.
- ProfilePage.ProfilePageState.LoadProfile: the duplicate second call of `loadProfile` (ProfilePage.jsx line 189) is not modelled. Both calls store the same data.
- The Redux thunks that call the services (`fetchFeed`, `applyForJob`, ...): only the reducers are modelled. Each thunk's settled outcome is a method call.
- React rendering, dialogs, navigation, alerts and the `useEffect` wiring: not modelled.
- AuthController.AuthStore.ResendOtp: in the code as written the send is not awaited, so a failing send is also an unhandled promise rejection. That is not modelled.
- FeedSlice.IntendedPageAfterFetch: its contract states the counter only for a fetch of the page the counter pointed at. For any other request it is one past the requested page.
- UserMenu.Initials: the user is a fixed mock in the source (UserMenu.jsx lines 21-27). The function takes the full name and email as parameters, and `DemoUserInitials` states the result for the mock.

## Findings

| source | as written | input that shows it | evidently intended | confidence | as-written member | corrected member |
|---|---|---|---|---|---|---|
| services/auth-service/src/controller/authController.js:133-137 | `if (!sendOtp(email))` tests the Promise, which is always truthy, so the 500 branch is dead and the reply is 200 even when sending throws | a resend for an email with no account: the send rejects, the reply is 200 "OTP sent successfully" | `await` the send and answer 500 when it fails | medium, not executed | AuthController.ResendIgnoresFailure (over AuthController.ResendReply) | AuthController.IntendedResendReply |
| services/profile-service/src/main/java/com/jobconnect/profile/service/ProfileServiceImpl.java:166-169 | with both parameters the search is `findBySkillsAndLocation`, an exact match on both columns, while each single-parameter search is a containment match | skills "Java" and location "NY" against a profile with skills "Java, React" and location "NY": not found, though the skills-only search finds it | the profiles both single-parameter searches admit | medium, not executed | ProfileService.SearchBothIsNotIntersection (over ProfileService.SearchAdmits) | ProfileService.IntendedSearchIsIntersection |
| app/web/src/store/slices/feedSlice.js:131-140 | the counter is set to 1 (page 0) or increased by 1, and then increased by 1 again | after the first page the counter is 2, so a caller paging by the counter skips page 1 | the counter is the next page to request, one more than the page just fetched | low, not executed; the current callers request page 0 only | FeedSlice.PageCounterSkipsAPage (over FeedSlice.PageAfterFetch) | FeedSlice.IntendedPageAfterFetch |
| services/job-service/src/main/java/com/jobconnect/job/service/JobServiceImpl.java:79-80 | `findByStatus` is declared with a String parameter (JobRepository.java line 14) while the `status` attribute holds the `JobStatus` enum, so the persistence layer refuses the argument and the status filter of `getAllJobs` ends in an error reply | `GET /api/jobs?status=ACTIVE` with an ACTIVE job stored: an error instead of that job | the jobs whose status is the constant of that name (a `JobStatus` parameter or a conversion before the call) | medium, not executed; depends on the persistence layer's parameter type check | JobService.JobServiceImpl.StatusFilterFailsAsWritten (over JobService.JobServiceImpl.GetAllJobsAsWritten) | JobService.JobServiceImpl.GetAllJobs |

In the model, the resend handler, the profile search and the feed's fetch reducer use the corrected definitions. The as-written members state the behaviour of the code itself.

Two things here are observations, not findings.
- Deleting a job removes its applications too. The job's application list cascades all operations, so the model follows the code (Job.java line 104).
- The login and OTP-verification replies carry no user. The session store therefore records an absent user as authenticated. `AuthSlice.AuthState.LoginFulfilled` takes the reply's user as an option.

=== FILE: application_service.dfy ===
/** `ApplicationServiceImpl`: applying for a job at most once, status
    overwrite, withdrawal and the per-job and per-candidate listings. */
module ApplicationService {
  import opened Common
  import opened JobTables

  /** `findByJobIdAndCandidateId(...).isPresent()`. */
  predicate HasApplied(applications: map<int, Application>, jobId: int, candidateId: int) {
    exists id :: id in applications && applications[id].jobId == jobId && applications[id].candidateId == candidateId
  }

  /** Adding an application for a pair that has none keeps the table at one
      application per (job, candidate), and afterwards the pair has applied. */
  lemma {:induction false} AddKeepsOnePerPair(applications: map<int, Application>, id: int, a: Application)
    requires OnePerJobAndCandidate(applications)
    requires id !in applications && !HasApplied(applications, a.jobId, a.candidateId)
    ensures OnePerJobAndCandidate(applications[id := a])
    ensures HasApplied(applications[id := a], a.jobId, a.candidateId)
  {
    var t := applications[id := a];
    forall x, y | x in t && y in t && t[x].jobId == t[y].jobId && t[x].candidateId == t[y].candidateId
      ensures x == y
    {
      if x == id && y != id {
        assert false;
      } else if y == id && x != id {
        assert false;
      }
    }
    assert t[id] == a;
  }

  /** Changing a row's status, or removing rows, keeps the table at one
      application per (job, candidate). */
  lemma StatusAndRemovalKeepOnePerPair(applications: map<int, Application>, id: int, s: ApplicationStatus, gone: set<int>)
    requires OnePerJobAndCandidate(applications) && id in applications
    ensures OnePerJobAndCandidate(applications[id := applications[id].(status := s)])
    ensures OnePerJobAndCandidate(applications - gone)
  {
  }

  class ApplicationServiceImpl {
    const store: JobStore

    constructor (store: JobStore)
      ensures this.store == store
    {
      this.store := store;
    }

    /** `applyForJob`: a second application for the same job by the same
      candidate fails and changes nothing; otherwise exactly one PENDING
      application with the request's fields is added. */
    method ApplyForJob(request: CreateApplicationRequest) returns (r: Result<ApplicationResponse, ServiceError>)
      requires store.Valid()
      modifies store
      ensures store.Valid()
      ensures old(HasApplied(store.applications, request.jobId, request.candidateId)) ==>
        r == Err(AlreadyApplied) && store.applications == old(store.applications)
      ensures !old(HasApplied(store.applications, request.jobId, request.candidateId)) ==>
        var a := Application(request.jobId, request.candidateId, request.resumeUrl, request.coverLetter, PENDING);
        && old(store.nextApplicationId) !in old(store.applications)
        && store.applications == old(store.applications)[old(store.nextApplicationId) := a]
        && r == Ok(ApplicationResponseOf(old(store.nextApplicationId), a, store.jobs))
      ensures HasApplied(store.applications, request.jobId, request.candidateId)
      ensures store.jobs == old(store.jobs) && store.companies == old(store.companies)
    {
      if exists id :: id in store.applications && store.applications[id].jobId == request.jobId
                      && store.applications[id].candidateId == request.candidateId {
        return Err(AlreadyApplied);
      }
      var a := Application(request.jobId, request.candidateId, request.resumeUrl, request.coverLetter, PENDING);
      var id := store.nextApplicationId;
      AddKeepsOnePerPair(store.applications, id, a);
      store.applications := store.applications[id := a];
      store.nextApplicationId := store.nextApplicationId + 1;
      r := Ok(ApplicationResponseOf(id, a, store.jobs));
    }

    /** `getApplicationsByJob`. */
    function GetApplicationsByJob(jobId: int): (r: map<int, ApplicationResponse>)
      reads store
      ensures forall id :: id in r <==> id in store.applications && store.applications[id].jobId == jobId
      ensures forall id :: id in r ==> r[id].jobId == jobId && r[id].candidateId == store.applications[id].candidateId
      ensures forall id :: id in r ==> r[id] == ApplicationResponseOf(id, store.applications[id], store.jobs)
    {
      map id | id in store.applications && store.applications[id].jobId == jobId
             :: ApplicationResponseOf(id, store.applications[id], store.jobs)
    }

    /** `getApplicationsByCandidate`. */
    function GetApplicationsByCandidate(candidateId: int): (r: map<int, ApplicationResponse>)
      reads store
      ensures forall id :: id in r <==> id in store.applications && store.applications[id].candidateId == candidateId
      ensures forall id :: id in r ==> r[id].candidateId == candidateId && r[id].jobId == store.applications[id].jobId
      ensures forall id :: id in r ==> r[id] == ApplicationResponseOf(id, store.applications[id], store.jobs)
    {
      map id | id in store.applications && store.applications[id].candidateId == candidateId
             :: ApplicationResponseOf(id, store.applications[id], store.jobs)
    }

    /** `getApplicationById`. */
    function GetApplicationById(applicationId: int): (r: Result<ApplicationResponse, ServiceError>)
      reads store
      ensures r.Err? <==> applicationId !in store.applications
      ensures r.Err? ==> r.error == NotFound("Application", applicationId)
      ensures r.Ok? ==> r.value.applicationId == applicationId && r.value.status == store.applications[applicationId].status
      ensures r.Ok? ==> r.value == ApplicationResponseOf(applicationId, store.applications[applicationId], store.jobs)
    {
      if applicationId in store.applications
      then Ok(ApplicationResponseOf(applicationId, store.applications[applicationId], store.jobs))
      else Err(NotFound("Application", applicationId))
    }

    /** `updateApplicationStatus`: any requested status overwrites the old one;
      there is no transition rule. */
    method UpdateApplicationStatus(applicationId: int, status: ApplicationStatus)
      returns (r: Result<ApplicationResponse, ServiceError>)
      requires store.Valid()
      modifies store
      ensures store.Valid()
      ensures applicationId !in old(store.applications) ==>
        r == Err(NotFound("Application", applicationId)) && store.applications == old(store.applications)
      ensures applicationId in old(store.applications) ==>
        && store.applications == old(store.applications)[applicationId := old(store.applications)[applicationId].(status := status)]
        && r.Ok? && r.value.status == status
      ensures store.jobs == old(store.jobs) && store.companies == old(store.companies)
    {
      if applicationId !in store.applications {
        return Err(NotFound("Application", applicationId));
      }
      StatusAndRemovalKeepOnePerPair(store.applications, applicationId, status, {});
      var a := store.applications[applicationId].(status := status);
      store.applications := store.applications[applicationId := a];
      r := Ok(ApplicationResponseOf(applicationId, a, store.jobs));
    }

    /** `withdrawApplication`: an unknown id fails; otherwise only that
      application is removed. */
    method WithdrawApplication(applicationId: int) returns (r: Result<(), ServiceError>)
      requires store.Valid()
      modifies store
      ensures store.Valid()
      ensures applicationId !in old(store.applications) ==>
        r == Err(NotFound("Application", applicationId)) && store.applications == old(store.applications)
      ensures applicationId in old(store.applications) ==>
        r == Ok(()) && store.applications == old(store.applications) - {applicationId}
      ensures store.jobs == old(store.jobs) && store.companies == old(store.companies)
    {
      if applicationId !in store.applications {
        return Err(NotFound("Application", applicationId));
      }
      StatusAndRemovalKeepOnePerPair(store.applications, applicationId, store.applications[applicationId].status, {applicationId});
      store.applications := store.applications - {applicationId};
      r := Ok(());
    }
  }
}

=== FILE: auth_controller.dfy ===
/** The account-verification controller of the auth service: one-time
    passcodes with an attempt counter, and the signup, resend, verify and
    login decision tables. Hashing, tokens, mail delivery, the clock and the
    random draw are parameters. */
module AuthController {
  import opened Common

  /** A row of the `user` table, keyed by its unique email. */
  datatype UserRecord = UserRecord(
    id: int, name: string, hashPassword: string, otp: Option<string>,
    otpExpiresAt: Option<int>, otpAttempts: int, isVerified: bool)

  /** The HTTP status and `msg` of a reply (and the `userId` signup returns). */
  datatype Reply = Reply(status: int, msg: string, userId: Option<int>)

  /** The errors `sendOtp` throws. */
  datatype SendError = EmailRequired | NoSuchUser | TooManyAttempts | MailFailed

  /** Fifteen minutes, in milliseconds. */
  const OTP_TTL_MS: int := 15 * 60 * 1000
  const MAX_OTP_ATTEMPTS: int := 5

  function DigitChar(d: nat): char
    requires d < 10
  {
    "0123456789"[d]
  }

  /** `n.toString()` for a natural number. */
  function Decimal(n: nat): (s: string)
    ensures |s| >= 1
    ensures forall i :: 0 <= i < |s| ==> '0' <= s[i] <= '9'
    decreases n
  {
    if n < 10 then [DigitChar(n)] else Decimal(n / 10) + [DigitChar(n % 10)]
  }

  /** The number a string of decimal digits denotes. */
  function DecimalValue(s: string): nat
    requires forall i :: 0 <= i < |s| ==> '0' <= s[i] <= '9'
  {
    if s == [] then 0 else DecimalValue(s[..|s| - 1]) * 10 + ((s[|s| - 1] as int) - ('0' as int))
  }

  /** Reading back the decimal text of a number gives the number. */
  lemma {:induction false} DecimalRoundTrip(n: nat)
    ensures DecimalValue(Decimal(n)) == n
    decreases n
  {
    var s := Decimal(n);
    if n >= 10 {
      DecimalRoundTrip(n / 10);
      assert s[..|s| - 1] == Decimal(n / 10);
    }
  }

  /** A number from 10^k up to 10^(k+1) - 1 has k + 1 digits. */
  lemma {:induction false} DecimalLength(n: nat, k: nat)
    requires Pow10(k) <= n < 10 * Pow10(k)
    ensures |Decimal(n)| == k + 1
    decreases k
  {
    if k > 0 {
      DecimalLength(n / 10, k - 1);
    }
  }

  function Pow10(k: nat): (p: nat)
    ensures p >= 1
  {
    if k == 0 then 1 else 10 * Pow10(k - 1)
  }

  /** `Math.floor(100000 + Math.random() * 900000).toString()`, with the
      random draw as a parameter: a six-digit code from 100000 to 999999. */
  function OtpFromDraw(draw: nat): (otp: string)
    requires draw < 900000
    ensures |otp| == 6 && otp[0] != '0'
    ensures forall i :: 0 <= i < |otp| ==> '0' <= otp[i] <= '9'
    ensures DecimalValue(otp) == 100000 + draw
  {
    DecimalLength(100000 + draw, 5);
    DecimalRoundTrip(100000 + draw);
    var otp := Decimal(100000 + draw);
    assert otp[0] != '0' by {
      if otp[0] == '0' { LeadingZeroBound(otp); }
    }
    otp
  }

  /** A digit string that starts with 0 denotes less than 10^(length - 1). */
  lemma {:induction false} LeadingZeroBound(s: string)
    requires |s| >= 1 && s[0] == '0'
    requires forall i :: 0 <= i < |s| ==> '0' <= s[i] <= '9'
    ensures DecimalValue(s) < Pow10(|s| - 1)
  {
    if |s| > 1 {
      LeadingZeroBound(s[..|s| - 1]);
    }
  }

  /** The user row after `sendOtp`'s update: the new code, its expiry 15
      minutes after `now`, and one more attempt. */
  function WithNewOtp(u: UserRecord, draw: nat, now: int): (r: UserRecord)
    requires draw < 900000
    ensures r.otpAttempts == u.otpAttempts + 1
    ensures r.otpExpiresAt == Some(now + OTP_TTL_MS)
    ensures r.otp.Some? && |r.otp.value| == 6
    ensures r.id == u.id && r.isVerified == u.isVerified && r.hashPassword == u.hashPassword
  {
    u.(otp := Some(OtpFromDraw(draw)), otpExpiresAt := Some(now + OTP_TTL_MS), otpAttempts := u.otpAttempts + 1)
  }

  /** The reply of `resendOtpController` as written: `!sendOtp(email)` tests
      the promise object, which is always truthy, so any present email gets
      200 whatever the sending did. */
  function ResendReply(email: Option<string>, sent: Result<bool, SendError>): (r: Reply)
    ensures Truthy(email) ==> r.status == 200
    ensures !Truthy(email) ==> r.status == 400
  {
    if !Truthy(email) then Reply(400, "Email is required", None)
    else Reply(200, "OTP sent successfully", None)
  }

  /** The reply the resend handler evidently intends: the outcome of the
      awaited `sendOtp` decides between 200 and 500. */
  function IntendedResendReply(email: Option<string>, sent: Result<bool, SendError>): (r: Reply)
    ensures r.status == 200 <==> Truthy(email) && sent.Ok?
    ensures Truthy(email) && sent.Err? ==> r.status == 500
  {
    if !Truthy(email) then Reply(400, "Email is required", None)
    else if sent.Err? then Reply(500, "Could not send OTP", None)
    else Reply(200, "OTP sent successfully", None)
  }

  /** The two replies agree except when sending fails, where the code as
      written still answers 200: an unknown email is one such input. */
  lemma ResendIgnoresFailure(email: Option<string>, sent: Result<bool, SendError>)
    ensures sent.Ok? || !Truthy(email) ==> ResendReply(email, sent) == IntendedResendReply(email, sent)
    ensures ResendReply(Some("nobody@example.com"), Err(NoSuchUser)).status == 200
    ensures IntendedResendReply(Some("nobody@example.com"), Err(NoSuchUser)).status == 500
  {
  }

  class AuthStore {
    var users: map<string, UserRecord>
    var nextUserId: int

    ghost predicate Valid()
      reads this
    {
      forall e :: e in users ==> users[e].id < nextUserId && users[e].otpAttempts >= 0
    }

    constructor ()
      ensures Valid() && users == map[]
    {
      users := map[];
      nextUserId := 1;
    }

    /** `sendOtp`: a missing email throws before any change; an unknown email
      makes the update throw; otherwise the code, its expiry and the
      incremented attempt count are stored first, and then the call fails if
      the count has reached 5, or if the mail cannot be sent. */
    method SendOtp(email: Option<string>, draw: nat, now: int, mailSent: bool) returns (r: Result<bool, SendError>)
      requires Valid() && draw < 900000
      modifies this
      ensures Valid() && nextUserId == old(nextUserId)
      ensures !Truthy(email) ==> r == Err(EmailRequired) && users == old(users)
      ensures Truthy(email) && email.value !in old(users) ==> r == Err(NoSuchUser) && users == old(users)
      ensures Truthy(email) && email.value in old(users) ==>
        && users == old(users)[email.value := WithNewOtp(old(users)[email.value], draw, now)]
        && r == (if users[email.value].otpAttempts >= MAX_OTP_ATTEMPTS then Err(TooManyAttempts)
                 else if !mailSent then Err(MailFailed)
                 else Ok(true))
    {
      if !Truthy(email) {
        return Err(EmailRequired);
      }
      var e := email.value;
      if e !in users {
        return Err(NoSuchUser);
      }
      var user := WithNewOtp(users[e], draw, now);
      users := users[e := user];
      if user.otpAttempts >= MAX_OTP_ATTEMPTS {
        return Err(TooManyAttempts);
      }
      if !mailSent {
        return Err(MailFailed);
      }
      r := Ok(true);
    }

    /** `signupController`. `hashed` is bcrypt's hash of the password. */
    method Signup(name: Option<string>, email: Option<string>, password: Option<string>, hashed: string,
                  draw: nat, now: int, mailSent: bool) returns (reply: Reply)
      requires Valid() && draw < 900000
      modifies this
      ensures Valid()
      ensures !Truthy(name) || !Truthy(password) || !Truthy(email) ==>
        reply.status == 400 && users == old(users)
      ensures Truthy(name) && Truthy(password) && Truthy(email) && email.value in old(users) ==>
        var u := old(users)[email.value];
        && (u.isVerified ==> reply.status == 409 && users == old(users))
        && (!u.isVerified && u.otpAttempts >= MAX_OTP_ATTEMPTS ==> reply.status == 429 && users == old(users))
        && (!u.isVerified && u.otpAttempts < MAX_OTP_ATTEMPTS ==>
              && users == old(users)[email.value := WithNewOtp(u, draw, now)]
              && reply.status == (if u.otpAttempts + 1 < MAX_OTP_ATTEMPTS && mailSent then 200 else 500))
      ensures Truthy(name) && Truthy(password) && Truthy(email) && email.value !in old(users) ==>
        var u := UserRecord(old(nextUserId), name.value, hashed, None, None, 0, false);
        && users == old(users)[email.value := WithNewOtp(u, draw, now)]
        && reply.status == (if mailSent then 201 else 500)
    {
      if !Truthy(name) || !Truthy(password) || !Truthy(email) {
        return Reply(400, "Name, email, and password are required", None);
      }
      var e := email.value;
      if e in users {
        var u := users[e];
        if u.isVerified {
          return Reply(409, "User with this email already exists", None);
        }
        if u.otpAttempts >= MAX_OTP_ATTEMPTS {
          return Reply(429, "Maximum OTP resend attempts reached. Please try again later.", None);
        }
        var sent := SendOtp(email, draw, now, mailSent);
        if sent.Err? {
          return Reply(500, "Internal Server Error", None);
        }
        return Reply(200, "OTP resent successfully", Some(u.id));
      }
      var id := nextUserId;
      users := users[e := UserRecord(id, name.value, hashed, None, None, 0, false)];
      nextUserId := nextUserId + 1;
      var sent := SendOtp(email, draw, now, mailSent);
      if sent.Err? {
        return Reply(500, "Internal Server Error", None);
      }
      reply := Reply(201, "User created. OTP sent to your email.", Some(id));
    }

    /** `resendOtpController` as evidently intended: the send runs and its
      outcome decides the reply, 200 on success and 500 on failure. The code
      as written answers `ResendReply` instead (see `ResendIgnoresFailure`). */
    method ResendOtp(email: Option<string>, draw: nat, now: int, mailSent: bool) returns (reply: Reply)
      requires Valid() && draw < 900000
      modifies this
      ensures Valid()
      ensures !Truthy(email) ==> reply.status == 400 && users == old(users)
      ensures Truthy(email) && email.value in old(users) ==>
        && users == old(users)[email.value := WithNewOtp(old(users)[email.value], draw, now)]
        && reply.status == (if users[email.value].otpAttempts < MAX_OTP_ATTEMPTS && mailSent then 200 else 500)
      ensures Truthy(email) && email.value !in old(users) ==> reply.status == 500 && users == old(users)
    {
      if !Truthy(email) {
        return IntendedResendReply(email, Err(EmailRequired));
      }
      var sent := SendOtp(email, draw, now, mailSent);
      reply := IntendedResendReply(email, sent);
    }

    /** `verifyOtpController`: a matching code marks the user verified; the
      expiry time is never consulted. */
    method VerifyOtp(email: Option<string>, otp: Option<string>) returns (reply: Reply)
      requires Valid()
      modifies this
      ensures Valid()
      ensures !Truthy(email) || !Truthy(otp) ==> reply.status == 400 && users == old(users)
      ensures Truthy(email) && Truthy(otp) && email.value !in old(users) ==> reply.status == 404 && users == old(users)
      ensures Truthy(email) && Truthy(otp) && email.value in old(users) ==>
        if old(users)[email.value].otp == otp then
          reply.status == 200 && users == old(users)[email.value := old(users)[email.value].(isVerified := true)]
        else
          reply.status == 400 && users == old(users)
    {
      if !Truthy(email) || !Truthy(otp) {
        return Reply(400, "Email and OTP are required", None);
      }
      var e := email.value;
      if e !in users {
        return Reply(404, "User not found", None);
      }
      if users[e].otp != otp {
        return Reply(400, "Invalid OTP", None);
      }
      users := users[e := users[e].(isVerified := true)];
      reply := Reply(200, "Email verified successfully", None);
    }

    /** `loginController`. `passwordValid` is bcrypt's comparison of the
      password with the stored hash. */
    method Login(email: Option<string>, password: Option<string>, passwordValid: bool) returns (reply: Reply)
      ensures reply.status == 200 <==>
        Truthy(email) && Truthy(password) && email.value in users && users[email.value].isVerified && passwordValid
      ensures !Truthy(email) || !Truthy(password) ==> reply.status == 400
      ensures Truthy(email) && Truthy(password) ==>
        (reply.status == 404 <==> (email.value !in users || !users[email.value].isVerified))
      ensures (Truthy(email) && Truthy(password) && email.value in users && users[email.value].isVerified
               && !passwordValid) ==> reply.status == 400
    {
      if !Truthy(email) || !Truthy(password) {
        return Reply(400, "Email and Password are required", None);
      }
      var e := email.value;
      if e !in users {
        return Reply(404, "User not found", None);
      }
      if !users[e].isVerified {
        return Reply(404, "User is not verified", None);
      }
      if !passwordValid {
        return Reply(400, "Invalid Password", None);
      }
      reply := Reply(200, "User logged in successfully", None);
    }
  }
}

=== FILE: auth_slice.dfy ===
/** The client's session store: the signed-in user and profile, whether the
    session is authenticated, and the loading and error flags of the login,
    signup, OTP verification and OTP resend requests. */
module AuthSlice {
  import opened Common

  /** The user object the client keeps (the fields it reads). */
  datatype ClientUser = ClientUser(id: int, name: Option<string>, email: Option<string>)

  /** The profile object a login returns, kept as received. */
  datatype ClientProfile = ClientProfile(profileId: int, userId: int)

  class AuthState {
    var user: Option<ClientUser>
    var userProfile: Option<ClientProfile>
    var isAuthenticated: bool
    var loading: bool
    var error: Option<string>

    /** The initial state. */
    constructor ()
      ensures user.None? && userProfile.None? && !isAuthenticated && !loading && error.None?
    {
      user, userProfile, isAuthenticated, loading, error := None, None, false, false, None;
    }

    /** `logout`: the user and the authentication go; the profile, loading
      and error stay. */
    method Logout()
      modifies this
      ensures user.None? && !isAuthenticated
      ensures userProfile == old(userProfile) && loading == old(loading) && error == old(error)
    {
      user := None;
      isAuthenticated := false;
    }

    /** `setUser`: authenticated exactly when a user is given. */
    method SetUser(payload: Option<ClientUser>)
      modifies this
      ensures user == payload && (isAuthenticated <==> payload.Some?)
      ensures userProfile == old(userProfile) && loading == old(loading) && error == old(error)
    {
      user := payload;
      isAuthenticated := payload.Some?;
    }

    /** `clearError`. */
    method ClearError()
      modifies this
      ensures error.None?
      ensures user == old(user) && userProfile == old(userProfile)
      ensures isAuthenticated == old(isAuthenticated) && loading == old(loading)
    {
      error := None;
    }

    /** The pending case of every request: loading, no error. */
    method Pending()
      modifies this
      ensures loading && error.None?
      ensures user == old(user) && userProfile == old(userProfile) && isAuthenticated == old(isAuthenticated)
    {
      loading := true;
      error := None;
    }

    /** `loginUser.fulfilled`: the reply's user and profile, as received
      (absent when the reply carries none), and an authenticated session. */
    method LoginFulfilled(payloadUser: Option<ClientUser>, payloadProfile: Option<ClientProfile>)
      modifies this
      ensures !loading && user == payloadUser && userProfile == payloadProfile
      ensures isAuthenticated && error.None?
    {
      loading := false;
      user := payloadUser;
      userProfile := payloadProfile;
      isAuthenticated := true;
      error := None;
    }

    /** `loginUser.rejected`: the error and an unauthenticated session. */
    method LoginRejected(payload: Option<string>)
      modifies this
      ensures !loading && error == payload && !isAuthenticated
      ensures user == old(user) && userProfile == old(userProfile)
    {
      loading := false;
      error := payload;
      isAuthenticated := false;
    }

    /** `signupUser.fulfilled` and `resendOtp.fulfilled`: the request settled
      without error; the session is unchanged, so a signup never
      authenticates. */
    method SettledWithoutSession()
      modifies this
      ensures !loading && error.None?
      ensures user == old(user) && userProfile == old(userProfile) && isAuthenticated == old(isAuthenticated)
    {
      loading := false;
      error := None;
    }

    /** `signupUser.rejected`, `verifyOtp.rejected` and `resendOtp.rejected`:
      the error only; the session is unchanged. */
    method Rejected(payload: Option<string>)
      modifies this
      ensures !loading && error == payload
      ensures user == old(user) && userProfile == old(userProfile) && isAuthenticated == old(isAuthenticated)
    {
      loading := false;
      error := payload;
    }

    /** `verifyOtp.fulfilled`: the reply's user, as received, and an
      authenticated session. */
    method VerifyOtpFulfilled(payloadUser: Option<ClientUser>)
      modifies this
      ensures !loading && user == payloadUser && isAuthenticated && error.None?
      ensures userProfile == old(userProfile)
    {
      loading := false;
      user := payloadUser;
      isAuthenticated := true;
      error := None;
    }
  }
}

=== FILE: common.dfy ===
/** Value types shared by every part of the model: a nullable value, an
    outcome that is either a result or an error, and the null-skipping field
    overwrite that the partial-update endpoints use. */
module Common {

  /** A Java reference or a JavaScript value that may be null/undefined. */
  datatype Option<+T> = None | Some(value: T) {
    function GetOr(default: T): T {
      if Some? then value else default
    }
  }

  /** The outcome of a service call: a value, or the exception it throws. */
  datatype Result<+T, +E> = Ok(value: T) | Err(error: E)

  /** `if (update != null) entity.setField(update);` on a nullable field. */
  function Patch<T>(current: Option<T>, update: Option<T>): Option<T> {
    if update.Some? then update else current
  }

  /** JavaScript truthiness of a possibly missing string: neither
      null/undefined nor the empty string. */
  predicate Truthy(s: Option<string>) {
    s.Some? && s.value != ""
  }

  /** Keys of a table that are all below the next identity value. */
  ghost predicate KeysBelow<V>(table: map<int, V>, next: int) {
    forall id :: id in table ==> id < next
  }

  /** `a` is `b` with some elements dropped and the rest in their order. */
  predicate SubsequenceOf<T(==)>(a: seq<T>, b: seq<T>)
    decreases |b|
  {
    if a == [] then true
    else if b == [] then false
    else (a[0] == b[0] && SubsequenceOf(a[1..], b[1..])) || SubsequenceOf(a, b[1..])
  }

  /** `s.filter(y => y !== x)`: every occurrence of `x` dropped. */
  function RemoveAll<T(==,!new)>(s: seq<T>, x: T): (r: seq<T>)
    ensures x !in r
    ensures forall y :: y != x ==> (y in r <==> y in s)
    ensures SubsequenceOf(r, s)
    ensures x !in s ==> r == s
  {
    if s == [] then []
    else if s[0] == x then RemoveAll(s[1..], x)
    else [s[0]] + RemoveAll(s[1..], x)
  }

  /** Every element of a subsequence is an element of the whole. */
  lemma {:induction false} SubsequenceMembers<T>(a: seq<T>, b: seq<T>)
    requires SubsequenceOf(a, b)
    ensures forall x :: x in a ==> x in b
    decreases |b|
  {
    if a != [] {
      if a[0] == b[0] && SubsequenceOf(a[1..], b[1..]) {
        SubsequenceMembers(a[1..], b[1..]);
        assert forall x :: x in a ==> x == a[0] || x in a[1..];
      } else {
        SubsequenceMembers(a, b[1..]);
      }
    }
  }
}

=== FILE: company_service.dfy ===
/** `CompanyServiceImpl`: company creation, partial update, lookup,
    deletion and the jobs of a company. */
module CompanyService {
  import opened Common
  import opened JobTables

  /** After a company is deleted, the jobs that still reference it report no
      company name or logo: nothing else refers to the removed row. */
  lemma DeletedCompanyLeavesJobsNameless(jobId: int, job: Job, companies: map<int, Company>)
    ensures JobResponseOf(jobId, job, companies - {job.companyId}).companyName.None?
    ensures JobResponseOf(jobId, job, companies - {job.companyId}).companyLogoUrl.None?
  {
  }

  class CompanyServiceImpl {
    const store: JobStore

    constructor (store: JobStore)
      ensures this.store == store
    {
      this.store := store;
    }

    /** `createCompany`: a new company with the request's seven fields. */
    method CreateCompany(request: CompanyRequest) returns (r: CompanyResponse)
      requires store.Valid()
      modifies store
      ensures store.Valid()
      ensures old(store.nextCompanyId) !in old(store.companies)
      ensures store.companies == old(store.companies)[old(store.nextCompanyId) := NewCompany(request)]
      ensures r == CompanyResponse(old(store.nextCompanyId), NewCompany(request))
      ensures store.jobs == old(store.jobs) && store.applications == old(store.applications)
    {
      var id := store.nextCompanyId;
      store.companies := store.companies[id := NewCompany(request)];
      store.nextCompanyId := store.nextCompanyId + 1;
      r := CompanyResponse(id, NewCompany(request));
    }

    /** `getAllCompanies`. */
    function GetAllCompanies(): (r: map<int, CompanyResponse>)
      reads store
      ensures r.Keys == store.companies.Keys
      ensures forall id :: id in r ==> r[id] == CompanyResponse(id, store.companies[id])
    {
      map id | id in store.companies :: CompanyResponse(id, store.companies[id])
    }

    /** `getCompanyById`. */
    function GetCompanyById(companyId: int): (r: Result<CompanyResponse, ServiceError>)
      reads store
      ensures r.Err? <==> companyId !in store.companies
      ensures r.Err? ==> r.error == NotFound("Company", companyId)
      ensures r.Ok? ==> r.value == CompanyResponse(companyId, store.companies[companyId])
    {
      if companyId in store.companies then Ok(CompanyResponse(companyId, store.companies[companyId]))
      else Err(NotFound("Company", companyId))
    }

    /** `updateCompany`: overwrite the non-null fields of an existing company. */
    method UpdateCompany(companyId: int, request: CompanyRequest) returns (r: Result<CompanyResponse, ServiceError>)
      requires store.Valid()
      modifies store
      ensures store.Valid()
      ensures companyId !in old(store.companies) ==>
        r == Err(NotFound("Company", companyId)) && store.companies == old(store.companies)
      ensures companyId in old(store.companies) ==>
        var c := JobTables.UpdateCompany(old(store.companies)[companyId], request);
        store.companies == old(store.companies)[companyId := c] && r == Ok(CompanyResponse(companyId, c))
      ensures store.jobs == old(store.jobs) && store.applications == old(store.applications)
    {
      if companyId !in store.companies {
        return Err(NotFound("Company", companyId));
      }
      var c := JobTables.UpdateCompany(store.companies[companyId], request);
      store.companies := store.companies[companyId := c];
      r := Ok(CompanyResponse(companyId, c));
    }

    /** `deleteCompany`: an unknown id fails; otherwise only that company is
      removed, whether or not jobs still reference it. */
    method DeleteCompany(companyId: int) returns (r: Result<(), ServiceError>)
      requires store.Valid()
      modifies store
      ensures store.Valid()
      ensures companyId !in old(store.companies) ==>
        r == Err(NotFound("Company", companyId)) && store.companies == old(store.companies)
      ensures companyId in old(store.companies) ==>
        r == Ok(()) && store.companies == old(store.companies) - {companyId}
      ensures store.jobs == old(store.jobs) && store.applications == old(store.applications)
    {
      if companyId !in store.companies {
        return Err(NotFound("Company", companyId));
      }
      store.companies := store.companies - {companyId};
      r := Ok(());
    }

    /** `getJobsByCompany`: the responses of the jobs with that company id,
      whose company name and logo come from the company table. */
    function GetJobsByCompany(companyId: int): (r: map<int, JobResponse>)
      reads store
      ensures forall id :: id in r <==> id in store.jobs && store.jobs[id].companyId == companyId
      ensures forall id :: id in r ==>
                (r[id].companyId == companyId
                 && r[id].companyName == (if companyId in store.companies then store.companies[companyId].name else None))
      ensures forall id :: id in r ==> r[id] == JobResponseOf(id, store.jobs[id], store.companies)
    {
      map id | id in store.jobs && store.jobs[id].companyId == companyId
             :: JobResponseOf(id, store.jobs[id], store.companies)
    }
  }
}

=== FILE: external_apis.dfy ===
/** The client's suggestion sources: the sorted list of job titles and its
    search, and the university, company, location and skill lookups. A
    lookup's HTTP reply is a parameter: `None` when the request fails,
    otherwise the decoded records. */
module ExternalApis {
  import opened Common
  import opened Text

  /** Lexicographic order on strings by character code, as the default
      `Array.prototype.sort` compares them. */
  predicate StrLe(a: string, b: string) {
    if a == [] then true
    else if b == [] then false
    else if a[0] != b[0] then a[0] < b[0]
    else StrLe(a[1..], b[1..])
  }

  /** Any two strings are ordered one way or the other. */
  lemma {:induction false} StrLeTotal(a: string, b: string)
    ensures StrLe(a, b) || StrLe(b, a)
  {
    if a != [] && b != [] && a[0] == b[0] {
      StrLeTotal(a[1..], b[1..]);
    }
  }

  predicate SortedStrings(s: seq<string>) {
    forall i, j :: 0 <= i < j < |s| ==> StrLe(s[i], s[j])
  }

  /** `x` put in front of the first entry it does not exceed. */
  function Insert(x: string, s: seq<string>): (r: seq<string>)
    ensures multiset(r) == multiset(s) + multiset{x}
    ensures SortedStrings(s) ==> SortedStrings(r)
  {
    if s == [] then [x]
    else if StrLe(x, s[0]) then
      assert SortedStrings(s) ==> SortedStrings([x] + s) by {
        if SortedStrings(s) {
          BelowHeadBelowAll(x, s);
          SortedCons(x, s);
        }
      }
      [x] + s
    else
      StrLeTotal(x, s[0]);
      var rest := Insert(x, s[1..]);
      assert s == [s[0]] + s[1..];
      assert SortedStrings(s) ==> SortedStrings([s[0]] + rest) by {
        if SortedStrings(s) {
          SortedTail(s);
          BoundKeptByInsert(s[0], x, s[1..], rest);
          SortedCons(s[0], rest);
        }
      }
      [s[0]] + rest
  }

  /** The tail of a sorted list is sorted, and its head is below every entry
      of the tail. */
  lemma SortedTail(s: seq<string>)
    requires SortedStrings(s) && s != []
    ensures SortedStrings(s[1..])
    ensures forall k :: 0 <= k < |s| - 1 ==> StrLe(s[0], s[1..][k])
  {
    var t := s[1..];
    forall i, j | 0 <= i < j < |t|
      ensures StrLe(t[i], t[j])
    {
      assert t[i] == s[i + 1] && t[j] == s[j + 1];
    }
    forall k | 0 <= k < |t|
      ensures StrLe(s[0], t[k])
    {
      assert t[k] == s[k + 1];
    }
  }

  /** A value below the head of a sorted list is below all of it. */
  lemma BelowHeadBelowAll(x: string, s: seq<string>)
    requires SortedStrings(s) && s != [] && StrLe(x, s[0])
    ensures forall k :: 0 <= k < |s| ==> StrLe(x, s[k])
  {
    forall k | 0 < k < |s|
      ensures StrLe(x, s[k])
    {
      StrLeTransitive(x, s[0], s[k]);
    }
  }

  /** A value below every entry of a sorted list, put in front, keeps it sorted. */
  lemma SortedCons(x: string, s: seq<string>)
    requires SortedStrings(s) && forall k :: 0 <= k < |s| ==> StrLe(x, s[k])
    ensures SortedStrings([x] + s)
  {
    var r := [x] + s;
    forall i, j | 0 <= i < j < |r|
      ensures StrLe(r[i], r[j])
    {
      assert r[j] == s[j - 1];
      if i > 0 {
        assert r[i] == s[i - 1];
      }
    }
  }

  /** A lower bound of `s` and of `x` bounds every entry of a list with the
      entries of `s` and `x`. */
  lemma BoundKeptByInsert(y: string, x: string, s: seq<string>, rest: seq<string>)
    requires forall k :: 0 <= k < |s| ==> StrLe(y, s[k])
    requires StrLe(y, x) && multiset(rest) == multiset(s) + multiset{x}
    ensures forall k :: 0 <= k < |rest| ==> StrLe(y, rest[k])
  {
    forall k | 0 <= k < |rest|
      ensures StrLe(y, rest[k])
    {
      assert rest[k] in multiset(rest);
      if rest[k] != x {
        assert rest[k] in multiset(s);
        var m :| 0 <= m < |s| && s[m] == rest[k];
      }
    }
  }

  lemma {:induction false} StrLeTransitive(a: string, b: string, c: string)
    requires StrLe(a, b) && StrLe(b, c)
    ensures StrLe(a, c)
  {
    if a != [] && b != [] && c != [] && a[0] == b[0] && b[0] == c[0] {
      StrLeTransitive(a[1..], b[1..], c[1..]);
    }
  }

  /** `list.sort()`: sorted, and the same entries with the same counts. */
  function SortStrings(s: seq<string>): (r: seq<string>)
    ensures SortedStrings(r)
    ensures multiset(r) == multiset(s)
  {
    if s == [] then []
    else
      assert s == [s[0]] + s[1..];
      Insert(s[0], SortStrings(s[1..]))
  }

  /** The curated titles in the order they are written. */
  function CuratedJobTitles(): seq<string> {
    [
    "Software Engineer", "Senior Software Engineer", "Frontend Developer", "Backend Developer",
    "Full Stack Developer", "Product Manager", "Project Manager", "Data Scientist", "Data Analyst",
    "UX Designer", "UI Designer", "Product Designer", "DevOps Engineer", "System Administrator",
    "QA Engineer", "Mobile Developer", "Android Developer", "iOS Developer",
    "Machine Learning Engineer", "Cloud Architect", "Technical Lead", "Engineering Manager", "CTO",
    "VP of Engineering", "Web Developer", "Game Developer", "Embedded Systems Engineer",
    "Security Engineer", "Blockchain Developer", "Sales Representative", "Account Manager",
    "Marketing Manager", "Business Analyst", "HR Manager", "Recruiter", "Consultant", "Founder",
    "Co-Founder", "CEO", "CFO", "COO", "Intern", "Student", "Teacher", "Professor", "Researcher",
    "Writer", "Editor", "Graphic Designer", "Art Director", "Copywriter"]
  }

  /** `JOB_TITLES_LIST`: the curated titles, sorted. */
  function JobTitlesList(): (r: seq<string>)
    ensures SortedStrings(r) && multiset(r) == multiset(CuratedJobTitles())
  {
    SortStrings(CuratedJobTitles())
  }

  /** The titles that contain the query, ignoring case, in their order. */
  function TitlesMatching(titles: seq<string>, query: string): (r: seq<string>)
    ensures SubsequenceOf(r, titles)
    ensures forall i :: 0 <= i < |r| ==> IncludesIgnoringCase(r[i], query)
    ensures forall t :: t in titles && IncludesIgnoringCase(t, query) ==> t in r
  {
    if titles == [] then []
    else
      var rest := TitlesMatching(titles[1..], query);
      assert forall t :: t in titles ==> t == titles[0] || t in titles[1..];
      if IncludesIgnoringCase(titles[0], query) then [titles[0]] + rest else rest
  }

  /** `searchJobTitles` over a given title list: nothing for an empty
      query; otherwise exactly the titles that contain the query, ignoring
      case, in the list's order. */
  function SearchTitles(query: string, titles: seq<string>): (r: seq<string>)
    ensures query == "" ==> r == []
    ensures SubsequenceOf(r, titles)
    ensures forall i :: 0 <= i < |r| ==> IncludesIgnoringCase(r[i], query)
    ensures query != "" ==>
              forall t :: t in titles && IncludesIgnoringCase(t, query) ==> t in r
  {
    if query == "" then [] else TitlesMatching(titles, query)
  }

  /** `searchJobTitles`: `SearchTitles` over `JOB_TITLES_LIST`, so nothing
      for an empty query, and the titles found in sorted order. */
  function SearchJobTitles(query: string): (r: seq<string>)
    ensures query == "" ==> r == []
    ensures SortedStrings(r)
  {
    var r := SearchTitles(query, JobTitlesList());
    SubsequenceOfSorted(r, JobTitlesList());
    r
  }

  /** A subsequence of a sorted list is sorted. */
  lemma {:induction false} SubsequenceOfSorted(a: seq<string>, b: seq<string>)
    requires SubsequenceOf(a, b) && SortedStrings(b)
    ensures SortedStrings(a)
    decreases |b|
  {
    if a != [] && b != [] {
      assert SortedStrings(b[1..]) by {
        forall i, j | 0 <= i < j < |b| - 1 ensures StrLe(b[1..][i], b[1..][j]) {
          assert b[1..][i] == b[i + 1] && b[1..][j] == b[j + 1];
        }
      }
      if a[0] == b[0] && SubsequenceOf(a[1..], b[1..]) {
        SubsequenceOfSorted(a[1..], b[1..]);
        SubsequenceMembers(a[1..], b[1..]);
        forall i, j | 0 <= i < j < |a| ensures StrLe(a[i], a[j]) {
          if i == 0 {
            assert a[j] == a[1..][j - 1];
            assert a[j] in b[1..];
            var m :| 0 <= m < |b[1..]| && b[1..][m] == a[j];
            assert b[m + 1] == a[j];
          } else {
            assert a[i] == a[1..][i - 1] && a[j] == a[1..][j - 1];
          }
        }
      } else {
        SubsequenceOfSorted(a, b[1..]);
      }
    }
  }

  /** A university record of the HipoLabs reply. */
  datatype University = University(name: string)

  /** `searchUniversities`: nothing without a query or when the request
      fails; otherwise the names of the first 20 universities returned. */
  function SearchUniversities(query: string, reply: Option<seq<University>>): (r: seq<string>)
    ensures |r| <= 20
    ensures query == "" || reply.None? ==> r == []
    ensures query != "" && reply.Some? ==>
              |r| == (if |reply.value| < 20 then |reply.value| else 20)
              && forall i :: 0 <= i < |r| ==> r[i] == reply.value[i].name
  {
    if query == "" || reply.None? then []
    else
      var first := if |reply.value| < 20 then reply.value else reply.value[..20];
      seq(|first|, i requires 0 <= i < |first| => first[i].name)
  }

  /** A company suggestion of the Clearbit reply. */
  datatype Company = Company(name: string, logo: string, domain: string)

  /** `searchCompanies`: nothing without a query or when the request fails;
      otherwise every suggestion returned. */
  function SearchCompanies(query: string, reply: Option<seq<Company>>): (r: seq<Company>)
    ensures query == "" || reply.None? ==> r == []
    ensures query != "" && reply.Some? ==> r == reply.value
  {
    if query == "" || reply.None? then [] else reply.value
  }

  /** The index of the first occurrence of `x` in `s`. */
  function FirstIndex(s: seq<string>, x: string): (k: nat)
    requires x in s
    ensures k < |s| && s[k] == x && x !in s[..k]
  {
    if s[0] == x then 0 else 1 + FirstIndex(s[1..], x)
  }

  /** The entries not yet seen, each kept at its first occurrence:
      `[...new Set(parts)]` started with `seen` already in the set. */
  function DedupAfter(parts: seq<string>, seen: set<string>): (r: seq<string>)
    ensures forall i, j :: 0 <= i < j < |r| ==> r[i] != r[j]
    ensures forall x :: x in r <==> x in parts && x !in seen
    ensures SubsequenceOf(r, parts)
    ensures forall i, j :: 0 <= i < j < |r| ==> FirstIndex(parts, r[i]) < FirstIndex(parts, r[j])
  {
    if parts == [] then []
    else if parts[0] in seen then
      var rest := DedupAfter(parts[1..], seen);
      assert forall i :: 1 <= i < |parts| ==> parts[i] == parts[1..][i - 1];
      FirstIndexPastHead(parts, rest);
      rest
    else
      var rest := DedupAfter(parts[1..], seen + {parts[0]});
      assert forall i :: 1 <= i < |parts| ==> parts[i] == parts[1..][i - 1];
      FirstIndexPastHead(parts, rest);
      [parts[0]] + rest
  }

  /** Entries of the tail other than the head are first found one place
      later in the whole list. */
  lemma FirstIndexPastHead(parts: seq<string>, rest: seq<string>)
    requires parts != []
    requires forall x :: x in rest ==> x in parts[1..] && x != parts[0]
    ensures forall x :: x in rest ==> FirstIndex(parts, x) == FirstIndex(parts[1..], x) + 1
  {
  }

  /** The value of a field that is present and not empty, as a list of at
      most one entry. */
  function Part(field: Option<string>): (r: seq<string>)
    ensures |r| <= 1
    ensures r != [] <==> Truthy(field)
  {
    if Truthy(field) then [field.value] else []
  }

  /** The non-empty fields among name, city, state and country, in that
      order: `[p.name, p.city, p.state, p.country].filter(Boolean)`. */
  function PresentParts(fields: seq<Option<string>>): (r: seq<string>)
    ensures forall i :: 0 <= i < |r| ==> r[i] != ""
  {
    if fields == [] then []
    else if Truthy(fields[0]) then [fields[0].value] + PresentParts(fields[1..])
    else PresentParts(fields[1..])
  }

  /** The parts are exactly the values of the present, non-empty fields. */
  lemma {:induction false} PresentPartsMembers(fields: seq<Option<string>>)
    ensures forall x :: x in PresentParts(fields) <==> Some(x) in fields && x != ""
  {
    if fields != [] {
      PresentPartsMembers(fields[1..]);
      assert forall i :: 1 <= i < |fields| ==> fields[i] == fields[1..][i - 1];
    }
  }

  /** Filtering keeps the first field's value, if any, in front of the rest. */
  lemma PresentPartsCons(f: Option<string>, rest: seq<Option<string>>)
    ensures PresentParts([f] + rest) == Part(f) + PresentParts(rest)
  {
    assert ([f] + rest)[1..] == rest;
  }

  /** Filtering keeps the order of the fields: the parts of two field lists
      one after the other are the parts of the first, then of the second. */
  lemma {:induction false} PresentPartsAppend(xs: seq<Option<string>>, ys: seq<Option<string>>)
    ensures PresentParts(xs + ys) == PresentParts(xs) + PresentParts(ys)
  {
    if xs != [] {
      PresentPartsAppend(xs[1..], ys);
      assert xs + ys == [xs[0]] + (xs[1..] + ys);
      PresentPartsCons(xs[0], xs[1..] + ys);
      PresentPartsCons(xs[0], xs[1..]);
      assert [xs[0]] + xs[1..] == xs;
    } else {
      assert xs + ys == ys;
    }
  }

  lemma PresentPartsOfTwo(a: Option<string>, b: Option<string>)
    ensures PresentParts([a, b]) == Part(a) + Part(b)
  {
    PresentPartsCons(b, []);
    assert [b] + [] == [b];
    PresentPartsCons(a, [b]);
    assert [a] + [b] == [a, b];
  }

  /** Filtering keeps each field's value in field order, repeats included:
      four fields give their present values one after the other. */
  lemma PresentPartsOfFour(a: Option<string>, b: Option<string>, c: Option<string>, d: Option<string>)
    ensures PresentParts([a, b, c, d]) == Part(a) + Part(b) + (Part(c) + Part(d))
  {
    assert PresentParts([a, b, c, d]) == PresentParts([a, b]) + PresentParts([c, d]) by {
      assert [a, b] + [c, d] == [a, b, c, d];
      PresentPartsAppend([a, b], [c, d]);
    }
    PresentPartsOfTwo(a, b);
    PresentPartsOfTwo(c, d);
  }

  /** The properties of a Photon feature the label is made of. */
  datatype Place = Place(name: Option<string>, city: Option<string>, state: Option<string>, country: Option<string>)

  /** Joining the deduplicated present parts gives the empty text exactly
      when no field is present. */
  lemma JoinedPartsEmpty(fields: seq<Option<string>>)
    ensures Join(DedupAfter(PresentParts(fields), {}), ", ") == ""
            <==> forall i :: 0 <= i < |fields| ==> !Truthy(fields[i])
  {
    var present := PresentParts(fields);
    var parts := DedupAfter(present, {});
    PresentPartsMembers(fields);
    if parts != [] {
      assert parts[0] in present;
      var i :| 0 <= i < |fields| && fields[i] == Some(parts[0]);
      assert Truthy(fields[i]);
    }
    forall i | 0 <= i < |fields| && Truthy(fields[i]) ensures parts != [] {
      assert fields[i].value in present;
    }
  }

  /** A location label: the present parts, each once, at its first
      occurrence, joined by ", "; it is empty exactly when no field is
      present. */
  function LocationLabel(p: Place): (r: string)
    ensures r == "" <==> !Truthy(p.name) && !Truthy(p.city) && !Truthy(p.state) && !Truthy(p.country)
  {
    var fields := [p.name, p.city, p.state, p.country];
    JoinedPartsEmpty(fields);
    assert fields[0] == p.name && fields[1] == p.city && fields[2] == p.state && fields[3] == p.country;
    Join(DedupAfter(PresentParts(fields), {}), ", ")
  }

  /** The parts of a label are the non-empty fields taken in the order name,
      city, state, country, each kept once at its first occurrence. */
  lemma LocationLabelParts(p: Place)
    ensures var present := Part(p.name) + Part(p.city) + (Part(p.state) + Part(p.country));
            var parts := DedupAfter(present, {});
            && LocationLabel(p) == Join(parts, ", ")
            && (forall i, j :: 0 <= i < j < |parts| ==> parts[i] != parts[j])
            && (forall x :: x in parts <==> x in present)
            && (forall x :: x in parts <==> x != "" && Some(x) in [p.name, p.city, p.state, p.country])
            && (forall i, j :: 0 <= i < j < |parts| ==> FirstIndex(present, parts[i]) < FirstIndex(present, parts[j]))
  {
    PresentPartsOfFour(p.name, p.city, p.state, p.country);
    PresentPartsMembers([p.name, p.city, p.state, p.country]);
  }

  /** A city named like its place appears once: "Paris", "Paris", absent,
      "France" is labelled "Paris, France". */
  lemma CityNamedLikePlace()
    ensures LocationLabel(Place(Some("Paris"), Some("Paris"), None, Some("France"))) == "Paris, France"
  {
    var fields := [Some("Paris"), Some("Paris"), None, Some("France")];
    assert PresentParts(fields[3..]) == ["France"];
    assert PresentParts(fields[2..]) == ["France"];
    assert PresentParts(fields) == ["Paris", "Paris", "France"];
    assert DedupAfter([], {"Paris", "France"}) == [];
    assert DedupAfter(["France"], {"Paris"}) == ["France"];
    assert DedupAfter(["Paris", "France"], {"Paris"}) == ["France"];
    assert DedupAfter(["Paris", "Paris", "France"], {}) == ["Paris", "France"];
    assert Join(["Paris", "France"], ", ") == "Paris, France";
  }

  /** `searchLocations`: nothing for a query shorter than 3 characters (no
      request is made) or when the request fails; otherwise one label per
      feature returned. */
  function SearchLocations(query: string, reply: Option<seq<Place>>): (r: seq<string>)
    ensures |query| < 3 || reply.None? ==> r == []
    ensures |query| >= 3 && reply.Some? ==>
              |r| == |reply.value| && forall i :: 0 <= i < |r| ==> r[i] == LocationLabel(reply.value[i])
  {
    if |query| < 3 || reply.None? then []
    else seq(|reply.value|, i requires 0 <= i < |reply.value| => LocationLabel(reply.value[i]))
  }

  /** A tag of the StackExchange reply's `items`. */
  datatype Tag = Tag(name: string)

  /** `searchSkills`: nothing without a query or when the request fails;
      otherwise the names of the tags returned, in order. */
  function SearchSkills(query: string, reply: Option<seq<Tag>>): (r: seq<string>)
    ensures query == "" || reply.None? ==> r == []
    ensures query != "" && reply.Some? ==>
              |r| == |reply.value| && forall i :: 0 <= i < |r| ==> r[i] == reply.value[i].name
  {
    if query == "" || reply.None? then []
    else seq(|reply.value|, i requires 0 <= i < |reply.value| => reply.value[i].name)
  }
}

=== FILE: feed_service.dfy ===
/** The feed service: posts, comments and likes, the like toggle, and the
    post view with its engagement counts and the viewer's "liked" flag. */
module FeedService {
  import opened Common

  datatype ProfileRow = ProfileRow(headline: Option<string>, avatarUrl: Option<string>)
  datatype UserRow = UserRow(name: string, profile: Option<ProfileRow>)
  datatype Post = Post(userId: int, content: string, imageUrl: Option<string>, createdAt: int)
  datatype Comment = Comment(postId: int, userId: int, content: string, createdAt: int)
  /** A row of `post_likes`; the table has a unique constraint on (post_id, user_id). */
  datatype PostLike = PostLike(postId: int, userId: int)

  datatype UserView = UserView(id: int, name: string, headline: Option<string>, avatarUrl: Option<string>)
  datatype PostView = PostView(postId: int, content: string, imageUrl: Option<string>, createdAt: int,
                               user: UserView, likesCount: nat, commentsCount: nat, isLiked: bool)
  datatype CommentView = CommentView(id: int, postId: int, userId: int, userName: string,
                                     userAvatar: Option<string>, content: string, createdAt: int)

  type LikeTable = map<int, PostLike>

  /** The unique constraint of `post_likes`: at most one row per (post, user). */
  ghost predicate UniquePairs(likes: LikeTable) {
    forall a, b :: a in likes && b in likes && likes[a] == likes[b] ==> a == b
  }

  /** `existsByPostIdAndUserId`. */
  predicate HasLike(likes: LikeTable, postId: int, userId: int) {
    exists id :: id in likes && likes[id] == PostLike(postId, userId)
  }

  /** The like rows that reference a post. */
  function LikesOf(likes: LikeTable, postId: int): set<int> {
    set id | id in likes && likes[id].postId == postId
  }

  /** `countByPostId` on the like table. */
  function LikeCount(likes: LikeTable, postId: int): nat {
    |LikesOf(likes, postId)|
  }

  /** `countByPostId` on the comment table. */
  function CommentCount(comments: map<int, Comment>, postId: int): nat {
    |set id | id in comments && comments[id].postId == postId|
  }

  /** The like table after `likePost(postId, userId)`: the rows of that pair
      are deleted if there are any, otherwise one row is inserted under the
      next identity value. */
  function ToggleLike(likes: LikeTable, postId: int, userId: int, freshId: int): (r: LikeTable)
    ensures HasLike(r, postId, userId) <==> !HasLike(likes, postId, userId)
  {
    if HasLike(likes, postId, userId) then
      map id | id in likes && likes[id] != PostLike(postId, userId) :: likes[id]
    else
      var added := likes[freshId := PostLike(postId, userId)];
      assert added[freshId] == PostLike(postId, userId);
      added
  }

  /** After a toggle the pair is liked exactly when it was not, and every
      other (post, user) pair is liked exactly as before. */
  lemma ToggleLikeFlips(likes: LikeTable, postId: int, userId: int, freshId: int, p: int, u: int)
    requires freshId !in likes
    ensures HasLike(ToggleLike(likes, postId, userId, freshId), p, u)
        == (if p == postId && u == userId then !HasLike(likes, p, u) else HasLike(likes, p, u))
  {
    var t := ToggleLike(likes, postId, userId, freshId);
    if HasLike(t, p, u) {
      var id :| id in t && t[id] == PostLike(p, u);
    }
    if HasLike(likes, p, u) && (p != postId || u != userId) {
      var id :| id in likes && likes[id] == PostLike(p, u);
      assert id in t;
    }
    if !HasLike(likes, postId, userId) {
      assert t[freshId] == PostLike(postId, userId);
    }
  }

  /** The toggle keeps at most one like per (post, user) pair. */
  lemma ToggleLikeKeepsUnique(likes: LikeTable, postId: int, userId: int, freshId: int)
    requires UniquePairs(likes) && freshId !in likes
    ensures UniquePairs(ToggleLike(likes, postId, userId, freshId))
  {
  }

  /** Toggling the same pair twice leaves the like table as it was when the
      first toggle inserted; when it deleted, the same set of (post, user)
      pairs is liked again, under a new row id. */
  lemma ToggleLikeTwice(likes: LikeTable, postId: int, userId: int, id1: int, id2: int)
    requires UniquePairs(likes) && id1 !in likes && id2 !in likes && id1 != id2
    ensures !HasLike(likes, postId, userId) ==>
      ToggleLike(ToggleLike(likes, postId, userId, id1), postId, userId, id2) == likes
    ensures forall p, u :: HasLike(ToggleLike(ToggleLike(likes, postId, userId, id1), postId, userId, id2), p, u)
                        == HasLike(likes, p, u)
  {
    var once := ToggleLike(likes, postId, userId, id1);
    var twice := ToggleLike(once, postId, userId, id2);
    var pair := PostLike(postId, userId);
    if HasLike(likes, postId, userId) {
      forall p, u ensures HasLike(twice, p, u) == HasLike(likes, p, u) {
        ToggleLikeFlips(likes, postId, userId, id1, p, u);
        ToggleLikeFlips(once, postId, userId, id2, p, u);
      }
    } else {
      assert once == likes[id1 := pair];
      assert HasLike(once, postId, userId) by { assert once[id1] == pair; }
      forall k | k in likes ensures k in twice && twice[k] == likes[k] {
        assert likes[k] != pair;
      }
      assert forall k :: k in twice ==> k in likes;
      assert twice == likes;
    }
  }

  /** The toggle moves the like count of the toggled post by exactly one (up
      on an insert, down on a delete) and leaves every other post's count
      alone. */
  lemma ToggleLikeCount(likes: LikeTable, postId: int, userId: int, freshId: int, q: int)
    requires UniquePairs(likes) && freshId !in likes
    ensures LikeCount(ToggleLike(likes, postId, userId, freshId), q)
        == if q != postId then LikeCount(likes, q)
           else if HasLike(likes, postId, userId) then LikeCount(likes, q) - 1
           else LikeCount(likes, q) + 1
  {
    var pair := PostLike(postId, userId);
    if HasLike(likes, postId, userId) {
      var w :| w in likes && likes[w] == pair;
      LikesAfterUnlike(likes, pair, w, q);
    } else {
      assert ToggleLike(likes, postId, userId, freshId) == likes[freshId := pair];
      LikesAfterLike(likes, pair, freshId, q);
    }
  }

  /** Deleting the only row of a pair takes that row out of its post's likes
      and no other. */
  lemma LikesAfterUnlike(likes: LikeTable, pair: PostLike, w: int, q: int)
    requires UniquePairs(likes) && w in likes && likes[w] == pair
    ensures LikesOf(map id | id in likes && likes[id] != pair :: likes[id], q)
         == if q == pair.postId then LikesOf(likes, q) - {w} else LikesOf(likes, q)
  {
    var t := map id | id in likes && likes[id] != pair :: likes[id];
    forall k | k in LikesOf(likes, q) && k != w
      ensures k in LikesOf(t, q)
    {
      assert likes[k] != pair;
    }
  }

  /** Adding a row under a fresh id adds it to its post's likes and no other. */
  lemma LikesAfterLike(likes: LikeTable, pair: PostLike, freshId: int, q: int)
    requires freshId !in likes
    ensures LikesOf(likes[freshId := pair], q)
         == if q == pair.postId then LikesOf(likes, q) + {freshId} else LikesOf(likes, q)
  {
  }

  /** `mapToPostDTO`: the post's own fields, the author (falling back to the
      post's userId and "Unknown User" when the author row is missing, and to
      null headline and avatar when the profile is missing), the like and
      comment counts and whether `viewer` liked the post. `author` is the
      post's loaded `user` association. */
  function PostViewOf(postId: int, post: Post, author: Option<UserRow>, likes: LikeTable,
                      comments: map<int, Comment>, viewer: int): (v: PostView)
    ensures v.postId == postId && v.content == post.content && v.imageUrl == post.imageUrl
            && v.createdAt == post.createdAt
    ensures v.user.id == post.userId
    ensures v.user.name == (if author.Some? then author.value.name else "Unknown User")
    ensures author.None? || author.value.profile.None? ==> v.user.headline.None? && v.user.avatarUrl.None?
    ensures author.Some? && author.value.profile.Some? ==>
              v.user.headline == author.value.profile.value.headline
              && v.user.avatarUrl == author.value.profile.value.avatarUrl
    ensures v.likesCount == |LikesOf(likes, postId)| && v.commentsCount == CommentCount(comments, postId)
    ensures v.isLiked <==> exists k :: k in likes && likes[k] == PostLike(postId, viewer)
  {
    var profile := if author.Some? then author.value.profile else None;
    PostView(postId, post.content, post.imageUrl, post.createdAt,
             // the loaded author's id is the post's user_id join column
             UserView(post.userId,
                      if author.Some? then author.value.name else "Unknown User",
                      if profile.Some? then profile.value.headline else None,
                      if profile.Some? then profile.value.avatarUrl else None),
             LikeCount(likes, postId), CommentCount(comments, postId),
             HasLike(likes, postId, viewer))
  }

  /** Liking through the toggle and then viewing the post: the toggling
      user's flag is flipped and the count moved by one; any other viewer's
      flag is unchanged. */
  lemma ToggleLikeView(likes: LikeTable, comments: map<int, Comment>, postId: int, post: Post,
                       author: Option<UserRow>, userId: int, freshId: int, viewer: int)
    requires UniquePairs(likes) && freshId !in likes
    ensures var before := PostViewOf(postId, post, author, likes, comments, viewer);
            var after := PostViewOf(postId, post, author, ToggleLike(likes, postId, userId, freshId), comments, viewer);
            && after.isLiked == (if viewer == userId then !before.isLiked else before.isLiked)
            && after.likesCount == (if HasLike(likes, postId, userId) then before.likesCount - 1 else before.likesCount + 1)
            && after.commentsCount == before.commentsCount
            && after.user == before.user
  {
    ToggleLikeFlips(likes, postId, userId, freshId, postId, viewer);
    ToggleLikeCount(likes, postId, userId, freshId, postId);
  }

  /** `mapToCommentDTO`: the user name falls back to "User" and the avatar to
      null when the comment's user (or profile) is not loaded. */
  function CommentViewOf(commentId: int, c: Comment, user: Option<UserRow>): (v: CommentView)
    ensures v.userName == (if user.Some? then user.value.name else "User")
    ensures user.None? ==> v.userAvatar.None?
    ensures v.id == commentId && v.postId == c.postId && v.userId == c.userId && v.content == c.content
  {
    var profile := if user.Some? then user.value.profile else None;
    CommentView(commentId, c.postId, c.userId,
                if user.Some? then user.value.name else "User",
                if profile.Some? then profile.value.avatarUrl else None,
                c.content, c.createdAt)
  }

  /** The post view in a user's own post list is built with the author as
      viewer, so its flag reports the author's own like. */
  lemma UserPostsReportOwnLike(likes: LikeTable, comments: map<int, Comment>, postId: int,
                               post: Post, author: Option<UserRow>)
    ensures PostViewOf(postId, post, author, likes, comments, post.userId).isLiked
        == HasLike(likes, postId, post.userId)
  {
  }

  class FeedServiceImpl {
    var posts: map<int, Post>
    var comments: map<int, Comment>
    var likes: LikeTable
    var users: map<int, UserRow>
    var nextPostId: int
    var nextCommentId: int
    var nextLikeId: int

    ghost predicate Valid()
      reads this
    {
      && KeysBelow(posts, nextPostId)
      && KeysBelow(comments, nextCommentId)
      && KeysBelow(likes, nextLikeId)
      && UniquePairs(likes)
    }

    constructor (users: map<int, UserRow>)
      ensures Valid()
      ensures posts == map[] && comments == map[] && likes == map[] && this.users == users
    {
      posts, comments, likes := map[], map[], map[];
      this.users := users;
      nextPostId, nextCommentId, nextLikeId := 1, 1, 1;
    }

    /** The author association of a post, resolved through the user table. */
    function AuthorOf(post: Post): Option<UserRow>
      reads this
    {
      if post.userId in users then Some(users[post.userId]) else None
    }

    /** The comment's loaded `user` association. */
    function CommenterOf(c: Comment): Option<UserRow>
      reads this
    {
      if c.userId in users then Some(users[c.userId]) else None
    }

    /** `likePost`: delete the (post, user) like if it exists, else insert one. */
    method LikePost(postId: int, userId: int)
      requires Valid()
      modifies this
      ensures Valid()
      ensures likes == ToggleLike(old(likes), postId, userId, old(nextLikeId))
      ensures HasLike(likes, postId, userId) == !old(HasLike(likes, postId, userId))
      ensures posts == old(posts) && comments == old(comments) && users == old(users)
      ensures nextPostId == old(nextPostId) && nextCommentId == old(nextCommentId)
    {
      ToggleLikeKeepsUnique(likes, postId, userId, nextLikeId);
      ToggleLikeFlips(likes, postId, userId, nextLikeId, postId, userId);
      if HasLike(likes, postId, userId) {
        likes := map id | id in likes && likes[id] != PostLike(postId, userId) :: likes[id];
      } else {
        likes := likes[nextLikeId := PostLike(postId, userId)];
        nextLikeId := nextLikeId + 1;
      }
    }

    /** `createPost`: store a post by the caller with the request's content
      and image, and return its view for the caller. The saved entity's
      `user` association is not loaded in the same persistence context, so
      the view's author is the fallback. */
    method CreatePost(currentUserId: int, content: string, imageUrl: Option<string>, now: int)
      returns (view: PostView)
      requires Valid()
      modifies this
      ensures Valid()
      ensures old(nextPostId) !in old(posts)
      ensures posts == old(posts)[old(nextPostId) := Post(currentUserId, content, imageUrl, now)]
      ensures view == PostViewOf(old(nextPostId), posts[old(nextPostId)], None, likes, comments, currentUserId)
      ensures view.user.id == currentUserId && view.content == content && view.imageUrl == imageUrl
      ensures comments == old(comments) && likes == old(likes) && users == old(users)
    {
      var id := nextPostId;
      posts := posts[id := Post(currentUserId, content, imageUrl, now)];
      nextPostId := nextPostId + 1;
      view := PostViewOf(id, posts[id], None, likes, comments, currentUserId);
    }

    /** `addComment`: store the comment and return its view; the fresh
      entity's user association is not loaded, so the name is "User". */
    method AddComment(postId: int, userId: int, content: string, now: int)
      returns (view: CommentView)
      requires Valid()
      modifies this
      ensures Valid()
      ensures old(nextCommentId) !in old(comments)
      ensures comments == old(comments)[old(nextCommentId) := Comment(postId, userId, content, now)]
      ensures view == CommentViewOf(old(nextCommentId), Comment(postId, userId, content, now), None)
      ensures CommentCount(comments, postId) == old(CommentCount(comments, postId)) + 1
      ensures posts == old(posts) && likes == old(likes) && users == old(users)
    {
      var id := nextCommentId;
      var c := Comment(postId, userId, content, now);
      var updated := comments[id := c];
      assert (set k | k in updated && updated[k].postId == postId)
          == (set k | k in comments && comments[k].postId == postId) + {id};
      comments := updated;
      nextCommentId := nextCommentId + 1;
      view := CommentViewOf(id, c, None);
    }

    /** `getFeed`: the feed query joins the author row, so only posts whose
      author exists appear; each is viewed by `viewer`. */
    function GetFeed(viewer: int): (feed: map<int, PostView>)
      reads this
      ensures forall id :: id in feed <==> id in posts && posts[id].userId in users
      ensures forall id :: id in feed ==>
                (feed[id].isLiked == HasLike(likes, id, viewer) && feed[id].likesCount == LikeCount(likes, id))
      ensures forall id :: id in feed ==>
                feed[id] == PostViewOf(id, posts[id], AuthorOf(posts[id]), likes, comments, viewer)
    {
      map id | id in posts && posts[id].userId in users
             :: PostViewOf(id, posts[id], AuthorOf(posts[id]), likes, comments, viewer)
    }

    /** `getUserPosts`: the user's posts, each viewed by that same user. */
    function GetUserPosts(userId: int): (views: map<int, PostView>)
      reads this
      ensures forall id :: id in views <==> id in posts && posts[id].userId == userId
      ensures forall id :: id in views ==>
                (views[id].isLiked == HasLike(likes, id, userId) && views[id].user.id == userId)
      ensures forall id :: id in views ==>
                views[id] == PostViewOf(id, posts[id], AuthorOf(posts[id]), likes, comments, userId)
    {
      map id | id in posts && posts[id].userId == userId
             :: PostViewOf(id, posts[id], AuthorOf(posts[id]), likes, comments, userId)
    }

    /** `getComments`: the views of the post's comments. */
    function GetComments(postId: int): (views: map<int, CommentView>)
      reads this
      ensures forall id :: id in views <==> id in comments && comments[id].postId == postId
      ensures forall id :: id in views ==> views[id] == CommentViewOf(id, comments[id], CommenterOf(comments[id]))
    {
      map id | id in comments && comments[id].postId == postId
             :: CommentViewOf(id, comments[id], CommenterOf(comments[id]))
    }
  }
}

=== FILE: feed_slice.dfy ===
/** The client's feed store: page loading with de-duplication, the
    optimistic like and comment counters, post creation and the loading and
    error flags. */
module FeedSlice {
  import opened Common
  import FeedService

  /** A post as the client holds it (the fields the reducers read or write). */
  datatype ClientPost = ClientPost(postId: int, content: string, likesCount: int, commentsCount: int, isLiked: bool)

  /** The `data` of a feed response: a page of posts and whether it is the last. */
  datatype FeedPage = FeedPage(content: Option<seq<ClientPost>>, last: Option<bool>)

  function Ids(posts: seq<ClientPost>): set<int> {
    set i | 0 <= i < |posts| :: posts[i].postId
  }

  /** `payload.data?.content || []`. */
  function PageContent(data: Option<FeedPage>): seq<ClientPost> {
    if data.Some? && data.value.content.Some? then data.value.content.value else []
  }

  /** `!payload.data?.last`. */
  predicate MoreAfter(data: Option<FeedPage>) {
    !(data.Some? && data.value.last == Some(true))
  }

  /** `incoming.filter(p => !seen.has(p.postId))`: the returned posts
      with an unseen id, in their order. */
  function Unseen(incoming: seq<ClientPost>, seen: set<int>): (r: seq<ClientPost>)
    ensures |r| <= |incoming|
    ensures SubsequenceOf(r, incoming)
    ensures forall i :: 0 <= i < |r| ==> r[i].postId !in seen && r[i] in incoming
    ensures forall p :: p in incoming && p.postId !in seen ==> p in r
  {
    if incoming == [] then []
    else
      var rest := Unseen(incoming[1..], seen);
      if incoming[0].postId in seen then rest
      else
        assert ([incoming[0]] + rest)[1..] == rest;
        [incoming[0]] + rest
  }

  /** A later page: the posts already held, in order, then the returned posts
      whose id is not among them. Nothing held is lost, only posts with new
      ids are added, and every returned post is either already held (by id)
      or added. */
  function MergePage(existing: seq<ClientPost>, incoming: seq<ClientPost>): (r: seq<ClientPost>)
    ensures |existing| <= |r| && r[..|existing|] == existing
    ensures r[|existing|..] == Unseen(incoming, Ids(existing))
    ensures forall i :: |existing| <= i < |r| ==> r[i].postId !in Ids(existing)
    ensures forall p :: p in incoming ==> p.postId in Ids(existing) || p in r
  {
    existing + Unseen(incoming, Ids(existing))
  }

  /** The index of the first post with that id (`posts.find`). */
  function FindPost(posts: seq<ClientPost>, postId: int): (r: Option<nat>)
    ensures r.Some? ==> r.value < |posts| && posts[r.value].postId == postId
                        && forall j :: 0 <= j < r.value ==> posts[j].postId != postId
    ensures r.None? ==> forall j :: 0 <= j < |posts| ==> posts[j].postId != postId
  {
    if posts == [] then None
    else if posts[0].postId == postId then Some(0)
    else
      var r := FindPost(posts[1..], postId);
      if r.Some? then Some(r.value + 1) else None
  }

  /** The optimistic like toggle: unlike with the count lowered but never
      below 0, or like with the count raised. */
  function ToggledLike(p: ClientPost): (r: ClientPost)
    ensures r.isLiked == !p.isLiked
    ensures r.likesCount == if p.isLiked then (if p.likesCount - 1 > 0 then p.likesCount - 1 else 0) else p.likesCount + 1
    ensures r.likesCount >= 0 || !p.isLiked
    ensures r.postId == p.postId && r.commentsCount == p.commentsCount && r.content == p.content
  {
    if p.isLiked then p.(likesCount := if p.likesCount - 1 > 0 then p.likesCount - 1 else 0, isLiked := false)
    else p.(likesCount := p.likesCount + 1, isLiked := true)
  }

  /** On a post whose count includes its own like, two toggles restore it. */
  lemma ToggledLikeTwice(p: ClientPost)
    requires p.likesCount >= (if p.isLiked then 1 else 0)
    ensures ToggledLike(ToggledLike(p)) == p
  {
  }

  /** A post held by the client that mirrors the server's view of it, for the
      liking user, still mirrors it after the optimistic toggle and the
      server's like toggle: the client's floor at 0 never bites. */
  lemma OptimisticLikeMatchesServer(p: ClientPost, likes: FeedService.LikeTable,
                                    comments: map<int, FeedService.Comment>, post: FeedService.Post,
                                    author: Option<FeedService.UserRow>, userId: int, freshId: int)
    requires FeedService.UniquePairs(likes) && freshId !in likes
    requires var v := FeedService.PostViewOf(p.postId, post, author, likes, comments, userId);
             p.likesCount == v.likesCount && p.isLiked == v.isLiked
    ensures var v := FeedService.PostViewOf(p.postId, post, author,
                        FeedService.ToggleLike(likes, p.postId, userId, freshId), comments, userId);
            ToggledLike(p).likesCount == v.likesCount && ToggledLike(p).isLiked == v.isLiked
  {
    FeedService.ToggleLikeView(likes, comments, p.postId, post, author, userId, freshId, userId);
    if p.isLiked {
      var w :| w in likes && likes[w] == FeedService.PostLike(p.postId, userId);
      assert w in FeedService.LikesOf(likes, p.postId);
    }
  }

  /** The page counter after a fulfilled fetch, as written: set to 1 after
      page 0 or raised by one otherwise, then raised by one more. */
  function PageAfterFetch(page: int, requestedPage: int): (r: int)
    ensures requestedPage == 0 ==> r == 2
    ensures requestedPage != 0 ==> r == page + 2
  {
    (if requestedPage == 0 then 1 else page + 1) + 1
  }

  /** The counter as evidently intended: the page to request next. */
  function IntendedPageAfterFetch(page: int, requestedPage: int): (r: int)
    ensures requestedPage == page ==> r == page + 1
  {
    requestedPage + 1
  }

  /** Requesting page `page` after the first page skips page 1: the counter
      is 2 where the next page to load is 1. */
  lemma PageCounterSkipsAPage()
    ensures PageAfterFetch(0, 0) == 2
    ensures IntendedPageAfterFetch(0, 0) == 1
    ensures forall page :: page >= 1 ==> PageAfterFetch(page, page) == IntendedPageAfterFetch(page, page) + 1
  {
  }

  class FeedState {
    var posts: seq<ClientPost>
    var userPosts: seq<ClientPost>
    var loading: bool
    var error: Option<string>
    var hasMore: bool
    var page: int

    /** The initial state. */
    constructor ()
      ensures posts == [] && userPosts == [] && !loading && error.None? && hasMore && page == 0
    {
      posts, userPosts, loading, error, hasMore, page := [], [], false, None, true, 0;
    }

    /** `clearFeed`. */
    method ClearFeed()
      modifies this
      ensures posts == [] && page == 0 && hasMore
      ensures userPosts == old(userPosts) && loading == old(loading) && error == old(error)
    {
      posts := [];
      page := 0;
      hasMore := true;
    }

    /** `fetchFeed.pending` and `fetchUserPosts.pending`. */
    method Pending()
      modifies this
      ensures loading && error.None?
      ensures posts == old(posts) && userPosts == old(userPosts) && hasMore == old(hasMore) && page == old(page)
    {
      loading := true;
      error := None;
    }

    /** `fetchFeed.rejected` and `fetchUserPosts.rejected`. */
    method Rejected(payload: Option<string>)
      modifies this
      ensures !loading && error == payload
      ensures posts == old(posts) && userPosts == old(userPosts) && hasMore == old(hasMore) && page == old(page)
    {
      loading := false;
      error := payload;
    }

    /** `fetchFeed.fulfilled`: page 0 replaces the posts, a later page is
      merged; `requestedPage` is `meta.arg?.page`, 0 when absent. The page
      counter becomes the next page to request, as evidently intended (the
      code as written is `PageAfterFetch`; see `PageCounterSkipsAPage`). */
    method FetchFeedFulfilled(data: Option<FeedPage>, requestedPage: Option<int>)
      modifies this
      ensures !loading
      ensures requestedPage.GetOr(0) == 0 ==> posts == PageContent(data)
      ensures requestedPage.GetOr(0) != 0 ==> posts == MergePage(old(posts), PageContent(data))
      ensures page == IntendedPageAfterFetch(old(page), requestedPage.GetOr(0))
      ensures hasMore == MoreAfter(data)
      ensures userPosts == old(userPosts) && error == old(error)
    {
      loading := false;
      var newPosts := PageContent(data);
      var requested := requestedPage.GetOr(0);
      if requested == 0 {
        posts := newPosts;
      } else {
        posts := posts + Unseen(newPosts, Ids(posts));
      }
      hasMore := MoreAfter(data);
      page := requested + 1;
    }

    /** `createPost.fulfilled`: the created post, when present, goes first. */
    method CreatePostFulfilled(data: Option<ClientPost>)
      modifies this
      ensures posts == if data.Some? then [data.value] + old(posts) else old(posts)
      ensures userPosts == old(userPosts) && loading == old(loading) && error == old(error)
      ensures hasMore == old(hasMore) && page == old(page)
    {
      if data.Some? {
        posts := [data.value] + posts;
      }
    }

    /** `likePost.fulfilled`: toggle the first post with that id, if any. */
    method LikePostFulfilled(postId: int)
      modifies this
      ensures var i := FindPost(old(posts), postId);
              posts == if i.Some? then old(posts)[i.value := ToggledLike(old(posts)[i.value])] else old(posts)
      ensures |posts| == |old(posts)|
      ensures forall j :: 0 <= j < |posts| && old(posts)[j].postId != postId ==> posts[j] == old(posts)[j]
      ensures userPosts == old(userPosts) && loading == old(loading) && error == old(error)
      ensures hasMore == old(hasMore) && page == old(page)
    {
      var i := FindPost(posts, postId);
      if i.Some? {
        posts := posts[i.value := ToggledLike(posts[i.value])];
      }
    }

    /** `addComment.fulfilled`: one more comment on the first post with that id. */
    method AddCommentFulfilled(postId: int)
      modifies this
      ensures var i := FindPost(old(posts), postId);
              && |posts| == |old(posts)|
              && (i.Some? ==> posts == old(posts)[i.value := old(posts)[i.value].(commentsCount := old(posts)[i.value].commentsCount + 1)])
              && (i.None? ==> posts == old(posts))
      ensures userPosts == old(userPosts) && loading == old(loading) && error == old(error)
      ensures hasMore == old(hasMore) && page == old(page)
    {
      var i := FindPost(posts, postId);
      if i.Some? {
        var p := posts[i.value];
        posts := posts[i.value := p.(commentsCount := p.commentsCount + 1)];
      }
    }

    /** `fetchUserPosts.fulfilled`. */
    method FetchUserPostsFulfilled(data: Option<FeedPage>)
      modifies this
      ensures !loading && userPosts == PageContent(data)
      ensures posts == old(posts) && error == old(error) && hasMore == old(hasMore) && page == old(page)
    {
      loading := false;
      userPosts := PageContent(data);
    }
  }
}

=== FILE: job_service.dfy ===
/** `JobServiceImpl`: job creation with company resolution, listing with a
    single filter, partial update, close and delete. */
module JobService {
  import opened Common
  import opened Text
  import opened JobTables

  /** `findByName`: the companies with exactly that name. */
  function CompaniesNamed(companies: map<int, Company>, name: string): set<int> {
    set id | id in companies && companies[id].name == Some(name)
  }

  /** The company a new job is attached to, and the company table afterwards:
      an explicit company id must exist; otherwise a non-empty company name
      selects the one company of that name, or creates it (under
      `freshId`) when there is none. */
  ghost function ResolveCompany(companies: map<int, Company>, request: CreateJobRequest, freshId: int)
    : (r: Result<(int, map<int, Company>), ServiceError>)
    requires freshId !in companies
    ensures request.companyId.Some? ==>
      (r.Err? <==> request.companyId.value !in companies)
      && (r.Ok? ==> r.value == (request.companyId.value, companies))
    ensures request.companyId.Some? && request.companyId.value !in companies ==> r == Err(CompanyNotFound)
    ensures request.companyId.None? && !Truthy(request.companyName) ==> r == Err(CompanyRequired)
    ensures (request.companyId.None? && Truthy(request.companyName)
             && |CompaniesNamed(companies, request.companyName.value)| > 1) ==> r == Err(CompanyNameNotUnique)
    ensures request.companyId.None? && Truthy(request.companyName) ==>
      var named := CompaniesNamed(companies, request.companyName.value);
      && (r.Err? <==> |named| > 1)
      && (r.Ok? ==> r.value.0 in r.value.1 && r.value.1[r.value.0].name == request.companyName)
      && (|named| == 0 ==> r == Ok((freshId, companies[freshId := AutoCreated(request.companyName.value)])))
      && (|named| == 1 ==> r.Ok? && r.value.0 in named && r.value.1 == companies)
  {
    if request.companyId.Some? then
      if request.companyId.value in companies then Ok((request.companyId.value, companies))
      else Err(CompanyNotFound)
    else if Truthy(request.companyName) then
      var named := CompaniesNamed(companies, request.companyName.value);
      if |named| == 0 then Ok((freshId, companies[freshId := AutoCreated(request.companyName.value)]))
      else if |named| == 1 then
        assert exists id :: id in named by { var w := OneMember(named); }
        var id :| id in named;
        Ok((id, companies))
      else Err(CompanyNameNotUnique)
    else Err(CompanyRequired)
  }

  /** The company `createJob` saves for a name it does not know. */
  function AutoCreated(name: string): Company {
    Company(Some(name), Some("Auto-created company"), None, None, None, None, None)
  }

  /** The filter `getAllJobs` applies. */
  datatype JobFilter =
    | ByStatus(status: string)
    | ByLocation(location: string)
    | ByEmploymentType(employmentType: string)
    | ByExperienceLevel(experienceLevel: string)
    | Unfiltered

  /** The first non-null parameter, in the order status, location,
      employment type, experience level, selects the filter. */
  function FilterOf(status: Option<string>, location: Option<string>, employmentType: Option<string>,
                    experienceLevel: Option<string>): (r: JobFilter)
    ensures r.ByStatus? <==> status.Some?
    ensures r.ByLocation? <==> status.None? && location.Some?
    ensures r.ByEmploymentType? <==> status.None? && location.None? && employmentType.Some?
    ensures r.ByExperienceLevel? <==> status.None? && location.None? && employmentType.None? && experienceLevel.Some?
    ensures r.ByStatus? ==> status == Some(r.status)
    ensures r.ByLocation? ==> location == Some(r.location)
    ensures r.ByEmploymentType? ==> employmentType == Some(r.employmentType)
    ensures r.ByExperienceLevel? ==> experienceLevel == Some(r.experienceLevel)
  {
    if status.Some? then ByStatus(status.value)
    else if location.Some? then ByLocation(location.value)
    else if employmentType.Some? then ByEmploymentType(employmentType.value)
    else if experienceLevel.Some? then ByExperienceLevel(experienceLevel.value)
    else Unfiltered
  }

  /** The derived finder queries: equality on one column. A status filter
      compares the stored enum constant with the one of that name, the query
      `findByStatus` evidently means; as declared, with a String parameter,
      it is refused (see `GetAllJobsAsWritten`). */
  predicate Admits(f: JobFilter, job: Job)
    ensures f.ByStatus? ==> (Admits(f, job) <==> job.posting.status == JobStatus(f.status))
    ensures f.Unfiltered? ==> Admits(f, job)
    ensures f.ByLocation? && Admits(f, job) ==> job.posting.location.Some?
    ensures f.ByEmploymentType? && Admits(f, job) ==> job.posting.employmentType.Some?
    ensures f.ByExperienceLevel? && Admits(f, job) ==> job.posting.experienceLevel.Some?
  {
    match f
    case ByStatus(s) => job.posting.status.name == s
    case ByLocation(l) => job.posting.location == Some(l)
    case ByEmploymentType(t) => job.posting.employmentType == Some(t)
    case ByExperienceLevel(x) => job.posting.experienceLevel == Some(x)
    case Unfiltered => true
  }

  /** Only the first non-null filter matters: the later parameters are
      ignored, and with no filter every job is admitted. */
  lemma OnlyFirstFilterApplies(s: Option<string>, l: Option<string>, t: Option<string>, x: Option<string>,
                               l2: Option<string>, t2: Option<string>, x2: Option<string>, job: Job)
    ensures s.Some? ==> FilterOf(s, l, t, x) == FilterOf(s, l2, t2, x2)
    ensures s.None? && l.Some? ==> FilterOf(s, l, t, x) == FilterOf(None, l, t2, x2)
    ensures s.None? && l.None? && t.Some? ==> FilterOf(s, l, t, x) == FilterOf(None, None, t, x2)
    ensures s.None? && l.None? && t.None? && x.None? ==> Admits(FilterOf(s, l, t, x), job)
  {
  }

  /** `findByJobTitleContainingIgnoreCaseOrDescriptionContainingIgnoreCase`:
      the empty keyword finds every job with a title or a description, and a
      title or description that contains the keyword as written is found. */
  predicate MatchesKeyword(job: Job, keyword: string)
    ensures keyword == "" ==>
              (MatchesKeyword(job, keyword) <==> job.posting.jobTitle.Some? || job.posting.description.Some?)
    ensures job.posting.jobTitle.Some? && Includes(job.posting.jobTitle.value, keyword) ==> MatchesKeyword(job, keyword)
    ensures job.posting.description.Some? && Includes(job.posting.description.value, keyword) ==> MatchesKeyword(job, keyword)
  {
    || (job.posting.jobTitle.Some? && IncludesIgnoringCase(job.posting.jobTitle.value, keyword))
    || (job.posting.description.Some? && IncludesIgnoringCase(job.posting.description.value, keyword))
  }

  /** The job after `closeJob`: the update that sets only the status, to
      CLOSED; nothing but the posting changes. */
  function Closed(job: Job): (r: Job)
    ensures r.posting == UpdatePosting(job.posting, NoJobChanges.(status := Some(CLOSED)))
    ensures r.(posting := job.posting) == job
  {
    job.(posting := job.posting.(status := CLOSED))
  }

  /** Closing twice is closing once, and an update that carries a status can
      still move a closed job to any status. */
  lemma CloseLaws(job: Job, u: UpdateJobRequest)
    ensures Closed(Closed(job)) == Closed(job)
    ensures Closed(job).posting.status == CLOSED
    ensures u.status.Some? ==> UpdatePosting(Closed(job).posting, u).status == u.status.value
  {
  }

  class JobServiceImpl {
    const store: JobStore

    constructor (store: JobStore)
      ensures this.store == store
    {
      this.store := store;
    }

    /** `createJob`: resolve the company, then store the job with the caller
      as recruiter, the request's fields, `isRemote` defaulting to false and
      status ACTIVE. A failed resolution stores nothing. */
    method CreateJob(request: CreateJobRequest, userId: int) returns (r: Result<JobResponse, ServiceError>)
      requires store.Valid()
      modifies store
      ensures store.Valid()
      ensures var res := ResolveCompany(old(store.companies), request, old(store.nextCompanyId));
        && (res.Err? ==> r == Err(res.error) && store.jobs == old(store.jobs) && store.companies == old(store.companies))
        && (res.Ok? ==>
              var job := Job(userId, res.value.0, res.value.1[res.value.0].name, NewPosting(request));
              && store.companies == res.value.1
              && old(store.nextJobId) !in old(store.jobs)
              && store.jobs == old(store.jobs)[old(store.nextJobId) := job]
              && r == Ok(JobResponseOf(old(store.nextJobId), job, store.companies)))
      ensures store.applications == old(store.applications)
    {
      var companyId: int;
      if request.companyId.Some? {
        if request.companyId.value !in store.companies {
          return Err(CompanyNotFound);
        }
        companyId := request.companyId.value;
      } else if Truthy(request.companyName) {
        var name := request.companyName.value;
        var named := CompaniesNamed(store.companies, name);
        if |named| == 0 {
          companyId := store.nextCompanyId;
          store.companies := store.companies[companyId := AutoCreated(name)];
          store.nextCompanyId := store.nextCompanyId + 1;
        } else if |named| == 1 {
          ghost var w := OneMember(named);
          companyId :| companyId in named;
          ghost var chosen := ResolveCompany(old(store.companies), request, old(store.nextCompanyId)).value.0;
          OnlyMember(named, companyId, chosen);
        } else {
          return Err(CompanyNameNotUnique);
        }
      } else {
        return Err(CompanyRequired);
      }
      var job := Job(userId, companyId, store.companies[companyId].name, NewPosting(request));
      var id := store.nextJobId;
      store.jobs := store.jobs[id := job];
      store.nextJobId := store.nextJobId + 1;
      r := Ok(JobResponseOf(id, job, store.companies));
    }

    /** `getAllJobs` as written: `findByStatus` takes a String while the
        `status` attribute holds a `JobStatus`, so the persistence layer
        refuses the argument and a status filter ends in an error reply
        instead of a list; the other filters behave as in `GetAllJobs`. */
    function GetAllJobsAsWritten(status: Option<string>, location: Option<string>, employmentType: Option<string>,
                                 experienceLevel: Option<string>): (r: Result<map<int, JobResponse>, ServiceError>)
      reads store
      ensures r.Err? <==> status.Some?
      ensures r.Err? ==> r.error == QueryArgumentRejected
      ensures r.Ok? ==> r.value == GetAllJobs(None, location, employmentType, experienceLevel)
    {
      if status.Some? then Err(QueryArgumentRejected)
      else Ok(GetAllJobs(status, location, employmentType, experienceLevel))
    }

    /** Filtering by the status a stored job has: as written the listing
        fails, while the intended status query lists that job. */
    lemma StatusFilterFailsAsWritten(id: int)
      requires id in store.jobs
      ensures var status := Some(store.jobs[id].posting.status.name);
              && GetAllJobsAsWritten(status, None, None, None).Err?
              && id in GetAllJobs(status, None, None, None)
    {
    }

    /** `getAllJobs`, with the status query as intended: the responses of
        the jobs the selected filter admits. */
    function GetAllJobs(status: Option<string>, location: Option<string>, employmentType: Option<string>,
                        experienceLevel: Option<string>): (r: map<int, JobResponse>)
      reads store
      ensures forall id :: id in r <==>
                (id in store.jobs && Admits(FilterOf(status, location, employmentType, experienceLevel), store.jobs[id]))
      ensures forall id :: id in r ==> r[id] == JobResponseOf(id, store.jobs[id], store.companies)
    {
      var f := FilterOf(status, location, employmentType, experienceLevel);
      map id | id in store.jobs && Admits(f, store.jobs[id]) :: JobResponseOf(id, store.jobs[id], store.companies)
    }

    /** `getJobById`. */
    function GetJobById(jobId: int): (r: Result<JobResponse, ServiceError>)
      reads store
      ensures r.Err? <==> jobId !in store.jobs
      ensures r.Err? ==> r.error == NotFound("Job", jobId)
      ensures r.Ok? ==> r.value.jobId == jobId && r.value.posting == store.jobs[jobId].posting
      ensures r.Ok? ==> r.value == JobResponseOf(jobId, store.jobs[jobId], store.companies)
    {
      if jobId in store.jobs then Ok(JobResponseOf(jobId, store.jobs[jobId], store.companies))
      else Err(NotFound("Job", jobId))
    }

    /** `updateJob`: overwrite the non-null fields of an existing job. */
    method UpdateJob(jobId: int, request: UpdateJobRequest) returns (r: Result<JobResponse, ServiceError>)
      requires store.Valid()
      modifies store
      ensures store.Valid()
      ensures jobId !in old(store.jobs) ==> r == Err(NotFound("Job", jobId)) && store.jobs == old(store.jobs)
      ensures jobId in old(store.jobs) ==>
        var job := old(store.jobs)[jobId].(posting := UpdatePosting(old(store.jobs)[jobId].posting, request));
        store.jobs == old(store.jobs)[jobId := job] && r == Ok(JobResponseOf(jobId, job, store.companies))
      ensures store.companies == old(store.companies) && store.applications == old(store.applications)
    {
      if jobId !in store.jobs {
        return Err(NotFound("Job", jobId));
      }
      var job := store.jobs[jobId];
      job := job.(posting := UpdatePosting(job.posting, request));
      store.jobs := store.jobs[jobId := job];
      r := Ok(JobResponseOf(jobId, job, store.companies));
    }

    /** `deleteJob`: an unknown id fails; otherwise the job is removed, and
      with it its applications (the job's application list cascades all
      operations, removal included). */
    method DeleteJob(jobId: int) returns (r: Result<(), ServiceError>)
      requires store.Valid()
      modifies store
      ensures store.Valid()
      ensures jobId !in old(store.jobs) ==>
        r == Err(NotFound("Job", jobId)) && store.jobs == old(store.jobs) && store.applications == old(store.applications)
      ensures jobId in old(store.jobs) ==>
        && r == Ok(())
        && store.jobs == old(store.jobs) - {jobId}
        && store.applications == map id | id in old(store.applications) && old(store.applications)[id].jobId != jobId
                                        :: old(store.applications)[id]
      ensures store.companies == old(store.companies)
    {
      if jobId !in store.jobs {
        return Err(NotFound("Job", jobId));
      }
      store.jobs := store.jobs - {jobId};
      store.applications := map id | id in store.applications && store.applications[id].jobId != jobId
                                   :: store.applications[id];
      r := Ok(());
    }

    /** `getJobsByRecruiter`. */
    function GetJobsByRecruiter(recruiterId: int): (r: map<int, JobResponse>)
      reads store
      ensures forall id :: id in r <==> id in store.jobs && store.jobs[id].recruiterId == recruiterId
      ensures forall id :: id in r ==> r[id].recruiterId == recruiterId
      ensures forall id :: id in r ==> r[id] == JobResponseOf(id, store.jobs[id], store.companies)
    {
      map id | id in store.jobs && store.jobs[id].recruiterId == recruiterId
             :: JobResponseOf(id, store.jobs[id], store.companies)
    }

    /** `searchJobs`: jobs whose title or description contains the keyword,
      ignoring case. */
    function SearchJobs(keyword: string): (r: map<int, JobResponse>)
      reads store
      ensures forall id :: id in r <==> id in store.jobs && MatchesKeyword(store.jobs[id], keyword)
      ensures forall id :: id in r ==> r[id] == JobResponseOf(id, store.jobs[id], store.companies)
    {
      map id | id in store.jobs && MatchesKeyword(store.jobs[id], keyword)
             :: JobResponseOf(id, store.jobs[id], store.companies)
    }

    /** `closeJob`: set an existing job's status to CLOSED. */
    method CloseJob(jobId: int) returns (r: Result<JobResponse, ServiceError>)
      requires store.Valid()
      modifies store
      ensures store.Valid()
      ensures jobId !in old(store.jobs) ==> r == Err(NotFound("Job", jobId)) && store.jobs == old(store.jobs)
      ensures jobId in old(store.jobs) ==>
        store.jobs == old(store.jobs)[jobId := Closed(old(store.jobs)[jobId])]
        && r == Ok(JobResponseOf(jobId, store.jobs[jobId], store.companies))
      ensures store.companies == old(store.companies) && store.applications == old(store.applications)
    {
      if jobId !in store.jobs {
        return Err(NotFound("Job", jobId));
      }
      var job := Closed(store.jobs[jobId]);
      store.jobs := store.jobs[jobId := job];
      r := Ok(JobResponseOf(jobId, job, store.companies));
    }
  }

  /** A member of a one-element set. */
  lemma OneMember(s: set<int>) returns (x: int)
    requires |s| == 1
    ensures x in s
  {
    if forall y :: y !in s { assert false; }
    x :| x in s;
  }

  /** A set with one element has no other member. */
  lemma OnlyMember(s: set<int>, x: int, y: int)
    requires |s| == 1 && x in s && y in s
    ensures x == y
  {
    assert |s - {x}| == 0;
    assert y in s - {x} || y == x;
  }
}

=== FILE: job_slice.dfy ===
/** The client's job store: the job list, the user's applications, the
    loading and error flags and the application-status machine. */
module JobSlice {
  import opened Common

  /** How a job's `skillsRequired` arrives: JSON text, an array, or null. */
  datatype SkillsField = SkillsText(text: string) | SkillsList(items: seq<string>) | SkillsNull

  /** A job as the client holds it (the fields the job list reads). */
  datatype ClientJob = ClientJob(
    jobId: int, jobTitle: Option<string>, companyName: Option<string>,
    location: Option<string>, isRemote: bool, skillsRequired: SkillsField)

  /** An application as the client holds it. */
  datatype ClientApplication = ClientApplication(applicationId: int, jobId: int, candidateId: int, status: string)

  /** `applicationStatus`: 'idle' | 'loading' | 'succeeded' | 'failed'. */
  datatype ApplyStatus = Idle | Loading | Succeeded | Failed

  /** The events that move `applicationStatus`. */
  datatype ApplyEvent = ApplyPending | ApplyFulfilled | ApplyRejected | Reset

  /** The status an event leaves behind; no event looks at the status before it. */
  function NextApplyStatus(e: ApplyEvent): ApplyStatus {
    match e
    case ApplyPending => Loading
    case ApplyFulfilled => Succeeded
    case ApplyRejected => Failed
    case Reset => Idle
  }

  /** Only `resetApplicationStatus` returns to idle, only a pending apply
      reaches loading, and a settled apply is succeeded or failed. */
  lemma ApplyStatusMachine(e: ApplyEvent)
    ensures NextApplyStatus(e) == Idle <==> e == Reset
    ensures NextApplyStatus(e) == Loading <==> e == ApplyPending
    ensures e == ApplyFulfilled || e == ApplyRejected ==> NextApplyStatus(e) in {Succeeded, Failed}
  {
  }

  class JobState {
    var jobs: seq<ClientJob>
    var userApplications: seq<ClientApplication>
    var loading: bool
    var error: Option<string>
    var applicationStatus: ApplyStatus

    /** The initial state. */
    constructor ()
      ensures jobs == [] && userApplications == [] && !loading && error.None? && applicationStatus == Idle
    {
      jobs, userApplications, loading, error, applicationStatus := [], [], false, None, Idle;
    }

    /** `clearJobError`: only the error is cleared. */
    method ClearJobError()
      modifies this
      ensures error.None?
      ensures jobs == old(jobs) && userApplications == old(userApplications)
      ensures loading == old(loading) && applicationStatus == old(applicationStatus)
    {
      error := None;
    }

    /** `resetApplicationStatus`. */
    method ResetApplicationStatus()
      modifies this
      ensures applicationStatus == NextApplyStatus(Reset)
      ensures jobs == old(jobs) && userApplications == old(userApplications)
      ensures loading == old(loading) && error == old(error)
    {
      applicationStatus := Idle;
    }

    /** `fetchJobs.pending`. */
    method FetchJobsPending()
      modifies this
      ensures loading && error.None?
      ensures jobs == old(jobs) && userApplications == old(userApplications)
      ensures applicationStatus == old(applicationStatus)
    {
      loading := true;
      error := None;
    }

    /** `fetchJobs.fulfilled`: the payload replaces the job list. */
    method FetchJobsFulfilled(payload: seq<ClientJob>)
      modifies this
      ensures !loading && jobs == payload
      ensures error == old(error) && userApplications == old(userApplications)
      ensures applicationStatus == old(applicationStatus)
    {
      loading := false;
      jobs := payload;
    }

    /** `fetchJobs.rejected`. */
    method FetchJobsRejected(payload: Option<string>)
      modifies this
      ensures !loading && error == payload
      ensures jobs == old(jobs) && userApplications == old(userApplications)
      ensures applicationStatus == old(applicationStatus)
    {
      loading := false;
      error := payload;
    }

    /** `fetchUserApplications.fulfilled`: the payload replaces the list; its
      pending and rejected cases change nothing and are not modelled. */
    method FetchUserApplicationsFulfilled(payload: seq<ClientApplication>)
      modifies this
      ensures userApplications == payload
      ensures jobs == old(jobs) && loading == old(loading) && error == old(error)
      ensures applicationStatus == old(applicationStatus)
    {
      userApplications := payload;
    }

    /** `applyForJob.pending`. */
    method ApplyPending()
      modifies this
      ensures applicationStatus == NextApplyStatus(ApplyEvent.ApplyPending) && error.None?
      ensures jobs == old(jobs) && userApplications == old(userApplications) && loading == old(loading)
    {
      applicationStatus := Loading;
      error := None;
    }

    /** `applyForJob.fulfilled`: the new application is pushed after the
      earlier ones. */
    method ApplyFulfilled(payload: ClientApplication)
      modifies this
      ensures applicationStatus == NextApplyStatus(ApplyEvent.ApplyFulfilled)
      ensures userApplications == old(userApplications) + [payload]
      ensures jobs == old(jobs) && loading == old(loading) && error == old(error)
    {
      applicationStatus := Succeeded;
      userApplications := userApplications + [payload];
    }

    /** `applyForJob.rejected`. */
    method ApplyRejected(payload: Option<string>)
      modifies this
      ensures applicationStatus == NextApplyStatus(ApplyEvent.ApplyRejected) && error == payload
      ensures jobs == old(jobs) && userApplications == old(userApplications) && loading == old(loading)
    {
      applicationStatus := Failed;
      error := payload;
    }
  }
}

=== FILE: job_tables.dfy ===
/** The tables of the job service (jobs, companies, applications), shared by
    the job, application and company services, with the record shapes of the
    entities, the request and response shapes and the field-copying rules
    between them. */
module JobTables {
  import opened Common

  /** A `JobStatus` enum constant, identified by its name. */
  datatype JobStatus = JobStatus(name: string)
  const ACTIVE := JobStatus("ACTIVE")
  const CLOSED := JobStatus("CLOSED")

  /** An `ApplicationStatus` enum constant, identified by its name. */
  datatype ApplicationStatus = ApplicationStatus(name: string)
  const PENDING := ApplicationStatus("PENDING")

  /** The thirteen fields of a job that `updateJob` may overwrite. Salary
      amounts and timestamps are kept as opaque numbers that are only copied. */
  datatype Posting = Posting(
    jobTitle: Option<string>, description: Option<string>, requirements: Option<string>,
    responsibilities: Option<string>, employmentType: Option<string>, experienceLevel: Option<string>,
    salaryMin: Option<int>, salaryMax: Option<int>, location: Option<string>, isRemote: bool,
    skillsRequired: Option<string>, status: JobStatus, expiresAt: Option<int>)

  /** A row of `jobs` (its key is the job id). */
  datatype Job = Job(recruiterId: int, companyId: int, companyName: Option<string>, posting: Posting)

  /** A row of `companies`. */
  datatype Company = Company(
    name: Option<string>, description: Option<string>, website: Option<string>, logoUrl: Option<string>,
    industry: Option<string>, size: Option<string>, location: Option<string>)

  /** A row of `applications`; the table is unique on (job_id, candidate_id). */
  datatype Application = Application(
    jobId: int, candidateId: int, resumeUrl: Option<string>, coverLetter: Option<string>,
    status: ApplicationStatus)

  datatype CreateJobRequest = CreateJobRequest(
    recruiterId: Option<int>, companyId: Option<int>, companyName: Option<string>,
    jobTitle: Option<string>, description: Option<string>, requirements: Option<string>,
    responsibilities: Option<string>, employmentType: Option<string>, experienceLevel: Option<string>,
    salaryMin: Option<int>, salaryMax: Option<int>, location: Option<string>, isRemote: Option<bool>,
    skillsRequired: Option<string>, expiresAt: Option<int>)

  /** `UpdateJobRequest`: a null field means "keep". */
  datatype UpdateJobRequest = UpdateJobRequest(
    jobTitle: Option<string>, description: Option<string>, requirements: Option<string>,
    responsibilities: Option<string>, employmentType: Option<string>, experienceLevel: Option<string>,
    salaryMin: Option<int>, salaryMax: Option<int>, location: Option<string>, isRemote: Option<bool>,
    skillsRequired: Option<string>, status: Option<JobStatus>, expiresAt: Option<int>)

  /** `CreateCompanyRequest` and `UpdateCompanyRequest` have the same seven fields. */
  datatype CompanyRequest = CompanyRequest(
    name: Option<string>, description: Option<string>, website: Option<string>, logoUrl: Option<string>,
    industry: Option<string>, size: Option<string>, location: Option<string>)

  datatype CreateApplicationRequest = CreateApplicationRequest(
    jobId: int, candidateId: int, resumeUrl: Option<string>, coverLetter: Option<string>)

  datatype JobResponse = JobResponse(
    jobId: int, recruiterId: int, companyId: int, companyName: Option<string>,
    companyLogoUrl: Option<string>, posting: Posting)

  datatype CompanyResponse = CompanyResponse(companyId: int, company: Company)

  datatype ApplicationResponse = ApplicationResponse(
    applicationId: int, jobId: int, jobTitle: Option<string>, candidateId: int,
    candidateName: string, candidateEmail: string, resumeUrl: Option<string>,
    coverLetter: Option<string>, status: ApplicationStatus)

  /** The exceptions the services throw. */
  datatype ServiceError =
    | NotFound(entity: string, id: int)   // "<Entity> not found with id: <id>"
    | CompanyNotFound                      // "Company not found"
    | CompanyRequired                      // "Company ID or Company Name is required"
    | CompanyNameNotUnique                 // `findByName` matched more than one row
    | AlreadyApplied                       // "You have already applied for this job"
    | QueryArgumentRejected                // a finder argument whose type the column does not have

  /** At most one application per (job, candidate). */
  ghost predicate OnePerJobAndCandidate(applications: map<int, Application>) {
    forall a, b ::
      (a in applications && b in applications
       && applications[a].jobId == applications[b].jobId
       && applications[a].candidateId == applications[b].candidateId) ==> a == b
  }

  /** The posting of a new job: the request's fields, `isRemote` false when
      the request omits it, and status ACTIVE. */
  function NewPosting(r: CreateJobRequest): (p: Posting)
    ensures p.status == ACTIVE
    ensures p.isRemote == (r.isRemote == Some(true))
    ensures && p.jobTitle == r.jobTitle && p.description == r.description
            && p.requirements == r.requirements && p.responsibilities == r.responsibilities
            && p.employmentType == r.employmentType && p.experienceLevel == r.experienceLevel
            && p.salaryMin == r.salaryMin && p.salaryMax == r.salaryMax && p.location == r.location
            && p.skillsRequired == r.skillsRequired && p.expiresAt == r.expiresAt
  {
    Posting(r.jobTitle, r.description, r.requirements, r.responsibilities, r.employmentType,
            r.experienceLevel, r.salaryMin, r.salaryMax, r.location, r.isRemote.GetOr(false),
            r.skillsRequired, ACTIVE, r.expiresAt)
  }

  /** `updateJob`'s setters: every field of the updated posting is the old
      one where the request field is null and the request's value where it
      is not. */
  function UpdatePosting(p: Posting, u: UpdateJobRequest): (r: Posting)
    ensures && KeptOrSet(p.jobTitle, u.jobTitle, r.jobTitle)
            && KeptOrSet(p.description, u.description, r.description)
            && KeptOrSet(p.requirements, u.requirements, r.requirements)
            && KeptOrSet(p.responsibilities, u.responsibilities, r.responsibilities)
            && KeptOrSet(p.employmentType, u.employmentType, r.employmentType)
            && KeptOrSet(p.experienceLevel, u.experienceLevel, r.experienceLevel)
            && KeptOrSet(p.salaryMin, u.salaryMin, r.salaryMin)
            && KeptOrSet(p.salaryMax, u.salaryMax, r.salaryMax)
            && KeptOrSet(p.location, u.location, r.location)
            && KeptOrSet(Some(p.isRemote), u.isRemote, Some(r.isRemote))
            && KeptOrSet(p.skillsRequired, u.skillsRequired, r.skillsRequired)
            && KeptOrSet(Some(p.status), u.status, Some(r.status))
            && KeptOrSet(p.expiresAt, u.expiresAt, r.expiresAt)
  {
    Posting(Patch(p.jobTitle, u.jobTitle), Patch(p.description, u.description),
            Patch(p.requirements, u.requirements), Patch(p.responsibilities, u.responsibilities),
            Patch(p.employmentType, u.employmentType), Patch(p.experienceLevel, u.experienceLevel),
            Patch(p.salaryMin, u.salaryMin), Patch(p.salaryMax, u.salaryMax),
            Patch(p.location, u.location), u.isRemote.GetOr(p.isRemote),
            Patch(p.skillsRequired, u.skillsRequired), u.status.GetOr(p.status),
            Patch(p.expiresAt, u.expiresAt))
  }

  const NoJobChanges := UpdateJobRequest(None, None, None, None, None, None, None, None, None, None, None, None, None)

  /** Two updates in a row: the later one's non-null fields win, the earlier
      one's fill the rest. */
  function ThenJobUpdate(first: UpdateJobRequest, second: UpdateJobRequest): UpdateJobRequest {
    UpdateJobRequest(Patch(first.jobTitle, second.jobTitle), Patch(first.description, second.description),
                     Patch(first.requirements, second.requirements), Patch(first.responsibilities, second.responsibilities),
                     Patch(first.employmentType, second.employmentType), Patch(first.experienceLevel, second.experienceLevel),
                     Patch(first.salaryMin, second.salaryMin), Patch(first.salaryMax, second.salaryMax),
                     Patch(first.location, second.location), Patch(first.isRemote, second.isRemote),
                     Patch(first.skillsRequired, second.skillsRequired), Patch(first.status, second.status),
                     Patch(first.expiresAt, second.expiresAt))
  }

  /** An update with every field null changes nothing; applying the same
      update twice is the same as once; two updates in a row are one update
      in which the later non-null fields win. */
  lemma UpdatePostingLaws(p: Posting, u: UpdateJobRequest, v: UpdateJobRequest)
    ensures UpdatePosting(p, NoJobChanges) == p
    ensures UpdatePosting(UpdatePosting(p, u), u) == UpdatePosting(p, u)
    ensures UpdatePosting(UpdatePosting(p, u), v) == UpdatePosting(p, ThenJobUpdate(u, v))
  {
  }

  /** The field `now` was `before` when the request field `update` is null,
      and is the request's value otherwise. */
  predicate KeptOrSet<T(==)>(before: Option<T>, update: Option<T>, now: Option<T>) {
    (update.None? ==> now == before) && (update.Some? ==> now == update)
  }

  /** The company fields a `CompanyRequest` sets at creation. */
  function NewCompany(r: CompanyRequest): Company {
    Company(r.name, r.description, r.website, r.logoUrl, r.industry, r.size, r.location)
  }

  /** `updateCompany`'s setters: every field of the updated company is the
      old one where the request field is null and the request's value where
      it is not. */
  function UpdateCompany(c: Company, u: CompanyRequest): (r: Company)
    ensures && KeptOrSet(c.name, u.name, r.name)
            && KeptOrSet(c.description, u.description, r.description)
            && KeptOrSet(c.website, u.website, r.website)
            && KeptOrSet(c.logoUrl, u.logoUrl, r.logoUrl)
            && KeptOrSet(c.industry, u.industry, r.industry)
            && KeptOrSet(c.size, u.size, r.size)
            && KeptOrSet(c.location, u.location, r.location)
  {
    Company(Patch(c.name, u.name), Patch(c.description, u.description), Patch(c.website, u.website),
            Patch(c.logoUrl, u.logoUrl), Patch(c.industry, u.industry), Patch(c.size, u.size),
            Patch(c.location, u.location))
  }

  /** An all-null update keeps the company; updating with a full request
      gives the company a creation from that request would; updates are
      idempotent. */
  lemma UpdateCompanyLaws(c: Company, u: CompanyRequest)
    ensures UpdateCompany(c, CompanyRequest(None, None, None, None, None, None, None)) == c
    ensures UpdateCompany(UpdateCompany(c, u), u) == UpdateCompany(c, u)
    ensures u.name.Some? && u.description.Some? && u.website.Some? && u.logoUrl.Some?
            && u.industry.Some? && u.size.Some? && u.location.Some?
            ==> UpdateCompany(c, u) == NewCompany(u)
  {
  }

  /** The job response: the job's own fields, with company name and logo
      looked up in the company table (null when that company is absent). */
  function JobResponseOf(jobId: int, job: Job, companies: map<int, Company>): (r: JobResponse)
    ensures r.jobId == jobId && r.recruiterId == job.recruiterId && r.companyId == job.companyId
    ensures r.posting == job.posting
    ensures job.companyId !in companies ==> r.companyName.None? && r.companyLogoUrl.None?
    ensures job.companyId in companies ==>
              r.companyName == companies[job.companyId].name && r.companyLogoUrl == companies[job.companyId].logoUrl
  {
    var company := if job.companyId in companies then Some(companies[job.companyId]) else None;
    JobResponse(jobId, job.recruiterId, job.companyId,
                if company.Some? then company.value.name else None,
                if company.Some? then company.value.logoUrl else None,
                job.posting)
  }

  /** The response follows the company row, not the name copied into the job
      at creation: after a rename every job of that company reports the new
      name. */
  lemma JobResponseFollowsCompany(jobId: int, job: Job, companies: map<int, Company>, u: CompanyRequest)
    requires job.companyId in companies && u.name.Some?
    ensures JobResponseOf(jobId, job, companies[job.companyId := UpdateCompany(companies[job.companyId], u)]).companyName
            == u.name
  {
  }

  /** The application response: the job title when the job exists, and fixed
      placeholder candidate details. */
  function ApplicationResponseOf(applicationId: int, a: Application, jobs: map<int, Job>): (r: ApplicationResponse)
    ensures r.applicationId == applicationId && r.jobId == a.jobId && r.candidateId == a.candidateId
    ensures r.status == a.status && r.resumeUrl == a.resumeUrl && r.coverLetter == a.coverLetter
    ensures a.jobId !in jobs ==> r.jobTitle.None?
    ensures a.jobId in jobs ==> r.jobTitle == jobs[a.jobId].posting.jobTitle
    ensures r.candidateName == "Candidate Name" && r.candidateEmail == "candidate@email.com"
  {
    ApplicationResponse(applicationId, a.jobId,
                        if a.jobId in jobs then jobs[a.jobId].posting.jobTitle else None,
                        a.candidateId, "Candidate Name", "candidate@email.com",
                        a.resumeUrl, a.coverLetter, a.status)
  }

  /** The three tables of the job service's database and their identity
      counters. */
  class JobStore {
    var jobs: map<int, Job>
    var companies: map<int, Company>
    var applications: map<int, Application>
    var nextJobId: int
    var nextCompanyId: int
    var nextApplicationId: int

    ghost predicate Valid()
      reads this
    {
      && KeysBelow(jobs, nextJobId)
      && KeysBelow(companies, nextCompanyId)
      && KeysBelow(applications, nextApplicationId)
      && OnePerJobAndCandidate(applications)
    }

    constructor ()
      ensures Valid()
      ensures jobs == map[] && companies == map[] && applications == map[]
    {
      jobs, companies, applications := map[], map[], map[];
      nextJobId, nextCompanyId, nextApplicationId := 1, 1, 1;
    }
  }
}

=== FILE: jobs_page.dfy ===
/** The job board page: whether a job was applied for, the bookmark
    toggle, the skills parse and the search/location/type filter. JSON
    parsing is a parameter that either yields a list of skills or throws
    (`None`). */
module JobsPage {
  import opened Common
  import opened Text
  import opened JobSlice

  /** `userApplications.some(app => app.jobId === jobId)`: some listed
      application is for that job; with no applications no job is applied
      for. */
  predicate IsJobApplied(applications: seq<ClientApplication>, jobId: int)
    ensures IsJobApplied(applications, jobId) <==> exists a :: a in applications && a.jobId == jobId
    ensures applications == [] ==> !IsJobApplied(applications, jobId)
  {
    exists i :: 0 <= i < |applications| && applications[i].jobId == jobId
  }

  /** After a fulfilled apply pushes an application, its job counts as
      applied for, and no other job changes. */
  lemma AppliedAfterPush(applications: seq<ClientApplication>, a: ClientApplication, jobId: int)
    ensures IsJobApplied(applications + [a], jobId) <==> IsJobApplied(applications, jobId) || a.jobId == jobId
  {
    var t := applications + [a];
    if a.jobId == jobId {
      assert t[|applications|].jobId == jobId;
    }
    if IsJobApplied(applications, jobId) {
      var i :| 0 <= i < |applications| && applications[i].jobId == jobId;
      assert t[i].jobId == jobId;
    }
  }

  /** `toggleSaveJob`: drop a saved id, or append an unsaved one. */
  function ToggleSaved(saved: seq<int>, jobId: int): (r: seq<int>)
    ensures jobId in r <==> jobId !in saved
    ensures forall other :: other != jobId ==> (other in r <==> other in saved)
  {
    if jobId in saved then RemoveAll(saved, jobId) else saved + [jobId]
  }

  /** Toggling twice restores an unsaved id's list exactly, and a saved id's
      list up to order. */
  lemma ToggleSavedTwice(saved: seq<int>, jobId: int)
    ensures jobId !in saved ==> ToggleSaved(ToggleSaved(saved, jobId), jobId) == saved
    ensures forall x :: x in ToggleSaved(ToggleSaved(saved, jobId), jobId) <==> x in saved
  {
    if jobId !in saved {
      assert jobId in saved + [jobId];
      RemoveAllAppended(saved, jobId);
    }
  }

  lemma {:induction false} RemoveAllAppended(s: seq<int>, x: int)
    requires x !in s
    ensures RemoveAll(s + [x], x) == s
  {
    if s != [] {
      assert (s + [x])[1..] == s[1..] + [x];
      RemoveAllAppended(s[1..], x);
    }
  }

  /** `parseSkills`: JSON text is parsed, and malformed text gives no skills;
      an array is used as is; null gives no skills. */
  function ParseSkills(field: SkillsField, parse: string -> Option<seq<string>>): (r: seq<string>)
    ensures field.SkillsList? ==> r == field.items
    ensures field.SkillsText? && parse(field.text).None? ==> r == []
    ensures field.SkillsNull? ==> r == []
  {
    match field
    case SkillsText(text) => parse(text).GetOr([])
    case SkillsList(items) => items
    case SkillsNull => []
  }

  /** The skills the filter reads: the same as `parseSkills` except that
      malformed JSON text throws. */
  function FilterSkills(field: SkillsField, parse: string -> Option<seq<string>>): Option<seq<string>> {
    match field
    case SkillsText(text) => parse(text)
    case SkillsList(items) => Some(items)
    case SkillsNull => Some([])
  }

  /** The filter and `parseSkills` agree except on malformed text, where the
      filter throws. */
  lemma FilterSkillsAgreesWithParse(field: SkillsField, parse: string -> Option<seq<string>>)
    ensures FilterSkills(field, parse).None? <==> field.SkillsText? && parse(field.text).None?
    ensures FilterSkills(field, parse).Some? ==> FilterSkills(field, parse).value == ParseSkills(field, parse)
  {
  }

  predicate FieldMatches(field: Option<string>, query: string) {
    field.Some? && IncludesIgnoringCase(field.value, query)
  }

  /** `matchesSearch`: the title, the company name or some skill contains the
      query, ignoring case. */
  predicate MatchesSearch(job: ClientJob, skills: seq<string>, query: string)
    ensures query == "" ==> (MatchesSearch(job, skills, query) <==> job.jobTitle.Some? || job.companyName.Some? || skills != [])
    ensures job.jobTitle.Some? && Includes(job.jobTitle.value, query) ==> MatchesSearch(job, skills, query)
  {
    assert query == "" && skills != [] ==> IncludesIgnoringCase(skills[0], query);
    FieldMatches(job.jobTitle, query) || FieldMatches(job.companyName, query)
    || exists i :: 0 <= i < |skills| && IncludesIgnoringCase(skills[i], query)
  }

  /** `matchesLocation`: an empty query, or the location contains it. */
  predicate MatchesLocation(job: ClientJob, query: string) {
    query == "" || FieldMatches(job.location, query)
  }

  /** `matchesType`: "all" accepts every job and "remote" the remote ones. */
  predicate MatchesType(job: ClientJob, jobType: string) {
    jobType == "all" || (jobType == "remote" && job.isRemote)
  }

  predicate Admits(job: ClientJob, skills: seq<string>, query: string, location: string, jobType: string) {
    MatchesSearch(job, skills, query) && MatchesLocation(job, location) && MatchesType(job, jobType)
  }

  /** The filter's verdict on one job: `None` when reading its skills throws. */
  function Verdict(job: ClientJob, parse: string -> Option<seq<string>>, query: string, location: string, jobType: string): Option<bool> {
    var skills := FilterSkills(job.skillsRequired, parse);
    if skills.None? then None else Some(Admits(job, skills.value, query, location, jobType))
  }

  /** `filteredJobs`: the admitted jobs in their order, or `None` when some
      job's skills text is malformed. */
  function FilteredJobs(jobs: seq<ClientJob>, parse: string -> Option<seq<string>>,
                        query: string, location: string, jobType: string): (r: Option<seq<ClientJob>>)
    ensures r.None? <==> exists i :: 0 <= i < |jobs| && Verdict(jobs[i], parse, query, location, jobType).None?
    ensures r.Some? ==> SubsequenceOf(r.value, jobs)
    ensures r.Some? ==> forall j :: j in r.value ==> Verdict(j, parse, query, location, jobType) == Some(true)
    ensures r.Some? ==> forall j :: j in jobs && Verdict(j, parse, query, location, jobType) == Some(true) ==> j in r.value
  {
    if jobs == [] then Some([])
    else
      var v := Verdict(jobs[0], parse, query, location, jobType);
      var rest := FilteredJobs(jobs[1..], parse, query, location, jobType);
      if v.None? then None
      else if rest.None? then
        assert forall i :: 0 <= i < |jobs| - 1 ==> jobs[1..][i] == jobs[i + 1];
        None
      else
        assert forall i :: 1 <= i < |jobs| ==> jobs[i] == jobs[1..][i - 1];
        Some(if v.value then [jobs[0]] + rest.value else rest.value)
  }

  /** An empty location query and the type "all" reject nothing; "remote"
      keeps exactly the remote jobs, and any other type keeps none. */
  lemma LocationAndTypeFilters(job: ClientJob, jobType: string)
    ensures MatchesLocation(job, "")
    ensures MatchesType(job, "all")
    ensures MatchesType(job, "remote") <==> job.isRemote
    ensures jobType != "all" && jobType != "remote" ==> !MatchesType(job, jobType)
  {
  }

  /** An empty search keeps every job with a title or a company name. */
  lemma EmptySearchKeepsNamedJobs(job: ClientJob, skills: seq<string>)
    requires job.jobTitle.Some? || job.companyName.Some?
    ensures MatchesSearch(job, skills, "")
  {
    if job.jobTitle.Some? {
      IncludesEmpty(Lower(job.jobTitle.value));
    } else {
      IncludesEmpty(Lower(job.companyName.value));
    }
  }
}

=== FILE: profile_page.dfy ===
/** The profile page: the skills text it reads back from the profile
    service, and the handlers that edit skills, experience, education,
    headline, location and bio through the service's single-field
    endpoints. Each handler is given whether its request succeeds, and
    returns the body it sent. */
module ProfilePage {
  import opened Common
  import opened Text
  import SetProfile

  /** `parts.map(s => s.trim())`. */
  function TrimAll(parts: seq<string>): (r: seq<string>)
    ensures |r| == |parts| && forall i :: 0 <= i < |r| ==> r[i] == Trim(parts[i])
  {
    if parts == [] then [] else [Trim(parts[0])] + TrimAll(parts[1..])
  }

  /** `.filter(Boolean)` on strings: the empty entries dropped. */
  function NonEmpty(parts: seq<string>): (r: seq<string>)
    ensures "" !in r
    ensures SubsequenceOf(r, parts)
    ensures "" !in parts ==> r == parts
  {
    if parts == [] then []
    else if parts[0] == "" then NonEmpty(parts[1..])
    else [parts[0]] + NonEmpty(parts[1..])
  }

  /** A skill as this page and the wizard store it: trimmed, not empty and
      free of commas. */
  predicate StorableSkill(s: string) {
    s != "" && Trimmed(s) && ',' !in s
  }

  /** `data.skills ? data.skills.split(",").map(s => s.trim()).filter(Boolean) : []`. */
  function ParseSkills(text: Option<string>): (r: seq<string>)
    ensures !Truthy(text) ==> r == []
  {
    if Truthy(text) then NonEmpty(TrimAll(Split(text.value, ','))) else []
  }

  /** Every skill read back is storable: trimmed, not empty, comma-free. */
  lemma ParsedSkillsAreStorable(text: Option<string>)
    ensures forall i :: 0 <= i < |ParseSkills(text)| ==> StorableSkill(ParseSkills(text)[i])
  {
    if Truthy(text) {
      var parts := Split(text.value, ',');
      var trimmed := TrimAll(parts);
      var r := NonEmpty(trimmed);
      SubsequenceMembers(r, trimmed);
      forall i | 0 <= i < |r| ensures StorableSkill(r[i]) {
        assert r[i] in trimmed;
        var k :| 0 <= k < |parts| && trimmed[k] == r[i];
        assert ',' !in parts[k];
      }
    }
  }

  /** Trimming entries that are already trimmed changes nothing. */
  lemma {:induction false} TrimAllOfTrimmed(parts: seq<string>)
    requires forall i :: 0 <= i < |parts| ==> Trimmed(parts[i])
    ensures TrimAll(parts) == parts
  {
    if parts != [] {
      TrimOfTrimmed(parts[0]);
      TrimAllOfTrimmed(parts[1..]);
    }
  }

  /** The ","-joined text this page writes parses back to the same list
      when every skill is storable. */
  lemma CommaJoinRoundTrip(skills: seq<string>)
    requires forall i :: 0 <= i < |skills| ==> StorableSkill(skills[i])
    ensures ParseSkills(Some(Join(skills, ","))) == skills
  {
    if skills != [] {
      var text := Join(skills, ",");
      SplitJoin(skills, ',');
      assert Split(text, ',') == skills;
      JoinStartsWithFirst(skills, ",");
      assert Truthy(Some(text));
      TrimAllOfTrimmed(skills);
      assert "" !in skills;
    }
  }

  lemma {:induction false} JoinStartsWithFirst(parts: seq<string>, sep: string)
    requires parts != [] && parts[0] != ""
    ensures Join(parts, sep) != "" && Join(parts, sep)[0] == parts[0][0]
  {
    if |parts| > 1 {
      assert Join(parts, sep) == parts[0] + (sep + Join(parts[1..], sep));
    }
  }

  /** Every part with a space in front. */
  function Spaced(parts: seq<string>): (r: seq<string>)
    ensures |r| == |parts|
  {
    if parts == [] then [] else [" " + parts[0]] + Spaced(parts[1..])
  }

  /** A string that does not start with the separator keeps its first
      character in its first piece. */
  lemma SplitAfterNonSeparator(c: char, x: string, sep: char)
    requires c != sep
    ensures Split([c] + x, sep) == [[c] + Split(x, sep)[0]] + Split(x, sep)[1..]
  {
    assert ([c] + x)[1..] == x;
  }

  /** Splitting a ", "-joined text on "," gives the first part and then the
      others, each with its leading space. */
  lemma {:induction false} SplitSpacedJoin(parts: seq<string>)
    requires parts != []
    requires forall i :: 0 <= i < |parts| ==> ',' !in parts[i]
    ensures Split(Join(parts, ", "), ',') == [parts[0]] + Spaced(parts[1..])
  {
    if |parts| == 1 {
      SplitNoSeparator(parts[0], ',');
    } else {
      var tail := Join(parts[1..], ", ");
      SplitSpacedJoin(parts[1..]);
      var st := Split(tail, ',');
      assert st == [parts[1]] + Spaced(parts[2..]) by {
        assert parts[1..][0] == parts[1] && parts[1..][1..] == parts[2..];
      }
      assert Join(parts, ", ") == parts[0] + [','] + (" " + tail);
      SplitPiece(parts[0], ',', " " + tail);
      SplitAfterNonSeparator(' ', tail, ',');
      assert Split(" " + tail, ',') == [" " + parts[1]] + Spaced(parts[2..]);
      assert Spaced(parts[1..]) == [" " + parts[1]] + Spaced(parts[2..]) by {
        assert parts[1..][1..] == parts[2..];
      }
    }
  }

  /** `trim` removes the added spaces again. */
  lemma {:induction false} TrimAllSpaced(parts: seq<string>)
    requires forall i :: 0 <= i < |parts| ==> parts[i] != "" && Trimmed(parts[i])
    ensures TrimAll(Spaced(parts)) == parts
  {
    if parts != [] {
      TrimLeadingSpace(parts[0]);
      TrimAllSpaced(parts[1..]);
    }
  }

  /** The ", "-joined text the set-up wizard submits parses back, on this
      page, to the wizard's list when no skill holds a comma. */
  lemma WizardSkillsReadBack(skills: seq<string>)
    requires SetProfile.CleanSkills(skills)
    requires forall i :: 0 <= i < |skills| ==> ',' !in skills[i]
    ensures ParseSkills(Some(Join(skills, ", "))) == skills
  {
    if skills != [] {
      var text := Join(skills, ", ");
      SplitSpacedJoin(skills);
      JoinStartsWithFirst(skills, ", ");
      assert Truthy(Some(text));
      TrimOfTrimmed(skills[0]);
      TrimAllSpaced(skills[1..]);
      assert TrimAll([skills[0]] + Spaced(skills[1..])) == [skills[0]] + skills[1..] by {
        assert ([skills[0]] + Spaced(skills[1..]))[1..] == Spaced(skills[1..]);
      }
      assert [skills[0]] + skills[1..] == skills;
      assert "" !in skills;
    }
  }

  /** A skill holding a comma does not survive: "C,C++" is read back as two
      skills. */
  lemma CommaInSkillSplits()
    ensures ParseSkills(Some(Join(["C,C++"], ","))) == ["C", "C++"]
  {
    SplitNoSeparator("C++", ',');
    SplitPiece("C", ',', "C++");
    assert "C" + [','] + "C++" == "C,C++";
    TrimOfTrimmed("C");
    TrimOfTrimmed("C++");
    assert TrimAll(["C", "C++"]) == ["C", "C++"];
  }

  datatype ExperienceEntry = ExperienceEntry(
    id: string, title: string, company: string, location: string,
    startDate: string, endDate: string, description: string)

  datatype EducationEntry = EducationEntry(
    id: string, school: string, degree: string, field: string, startDate: string, endDate: string)

  /** The profile fields the page shows and edits. */
  datatype ShownProfile = ShownProfile(headline: string, location: string, website: string, about: string)

  /** `list.filter(e => e.id !== id)`. */
  function WithoutId<T(==)>(list: seq<T>, idOf: T -> string, id: string): (r: seq<T>)
    ensures forall i :: 0 <= i < |r| ==> idOf(r[i]) != id
    ensures forall i :: 0 <= i < |list| && idOf(list[i]) != id ==> list[i] in r
    ensures SubsequenceOf(r, list)
  {
    if list == [] then []
    else if idOf(list[0]) == id then WithoutId(list[1..], idOf, id)
    else
      var rest := WithoutId(list[1..], idOf, id);
      assert forall i :: 1 <= i < |list| ==> list[i] == list[1..][i - 1];
      [list[0]] + rest
  }

  function ExperienceId(e: ExperienceEntry): string { e.id }
  function EducationId(e: EducationEntry): string { e.id }

  const EmptyExperience := ExperienceEntry("", "", "", "", "", "", "")
  const EmptyEducation := EducationEntry("", "", "", "", "", "")

  class ProfilePageState {
    /** `fetchedData?.id` and the store's `userProfile?.id`. */
    var fetchedId: Option<int>
    var storedId: Option<int>
    var skills: seq<string>
    var experiences: seq<ExperienceEntry>
    var education: seq<EducationEntry>
    var profile: ShownProfile
    var editedProfile: ShownProfile
    var editedAbout: string
    var newSkill: string
    var newExperience: ExperienceEntry
    var newEducation: EducationEntry

    /** `activeProfileId = fetchedData?.id || userProfile?.id`. */
    function ActiveId(): Option<int>
      reads this
    {
      if fetchedId.Some? && fetchedId.value != 0 then fetchedId else storedId
    }

    /** `!!activeProfileId`: present and not 0. */
    predicate HasActiveId()
      reads this
    {
      ActiveId().Some? && ActiveId().value != 0
    }

    /** `loadProfile`'s updates from a fetched profile: the skills text is
      parsed, the JSON lists are taken as parsed (absent or malformed gives
      an empty list), and each shown field keeps its value when the fetched
      one is empty. */
    method LoadProfile(id: Option<int>, skillsText: Option<string>,
                       parsedExperience: Option<seq<ExperienceEntry>>, parsedEducation: Option<seq<EducationEntry>>,
                       headline: Option<string>, location: Option<string>, bio: Option<string>)
      modifies this
      ensures fetchedId == id && skills == ParseSkills(skillsText)
      ensures experiences == parsedExperience.GetOr([]) && education == parsedEducation.GetOr([])
      ensures profile.headline == (if Truthy(headline) then headline.value else old(profile.headline))
      ensures profile.location == (if Truthy(location) then location.value else old(profile.location))
      ensures profile.about == (if Truthy(bio) then bio.value else old(profile.about))
      ensures profile.website == old(profile.website)
      ensures storedId == old(storedId) && editedProfile == old(editedProfile) && editedAbout == old(editedAbout)
      ensures newSkill == old(newSkill) && newExperience == old(newExperience) && newEducation == old(newEducation)
    {
      var parsed := ParseSkills(skillsText);
      fetchedId := id;
      skills := parsed;
      experiences := parsedExperience.GetOr([]);
      education := parsedEducation.GetOr([]);
      profile := ShownProfile(
        if Truthy(headline) then headline.value else profile.headline,
        if Truthy(location) then location.value else profile.location,
        profile.website,
        if Truthy(bio) then bio.value else profile.about);
    }

    /** `handleAddSkill`: nothing for an empty skill, a listed skill or no
      active profile; otherwise the list with the skill appended is sent
      joined by ",", and kept when the request succeeds. */
    method HandleAddSkill(ok: bool) returns (sent: Option<string>)
      modifies this
      ensures var adds := old(newSkill) != "" && old(HasActiveId()) && old(newSkill) !in old(skills);
              && (sent == if adds then Some(Join(old(skills) + [old(newSkill)], ",")) else None)
              && (skills == if adds && ok then old(skills) + [old(newSkill)] else old(skills))
              && (newSkill == if adds && ok then "" else old(newSkill))
      ensures fetchedId == old(fetchedId) && storedId == old(storedId) && profile == old(profile)
      ensures experiences == old(experiences) && education == old(education)
      ensures editedProfile == old(editedProfile) && editedAbout == old(editedAbout)
      ensures newExperience == old(newExperience) && newEducation == old(newEducation)
    {
      if newSkill == "" || !HasActiveId() {
        return None;
      }
      if newSkill in skills {
        return None;
      }
      var updated := skills + [newSkill];
      sent := Some(Join(updated, ","));
      if ok {
        skills := updated;
        newSkill := "";
      }
    }

    /** `handleDeleteSkill`: with an active profile, the list without every
      occurrence of the skill is sent joined by ",", and kept when the
      request succeeds. */
    method HandleDeleteSkill(skill: string, ok: bool) returns (sent: Option<string>)
      modifies this
      ensures sent == if old(HasActiveId()) then Some(Join(RemoveAll(old(skills), skill), ",")) else None
      ensures skills == if old(HasActiveId()) && ok then RemoveAll(old(skills), skill) else old(skills)
      ensures fetchedId == old(fetchedId) && storedId == old(storedId) && profile == old(profile)
      ensures experiences == old(experiences) && education == old(education) && newSkill == old(newSkill)
      ensures editedProfile == old(editedProfile) && editedAbout == old(editedAbout)
      ensures newExperience == old(newExperience) && newEducation == old(newEducation)
    {
      if !HasActiveId() {
        return None;
      }
      var updated := RemoveAll(skills, skill);
      sent := Some(Join(updated, ","));
      if ok {
        skills := updated;
      }
    }

    /** `handleAddExperience`: with an active profile, the new entry, under
      the fresh id, goes in front of the list; the list is sent, and kept
      (with the input reset) when the request succeeds. */
    method HandleAddExperience(freshId: string, ok: bool) returns (sent: Option<seq<ExperienceEntry>>)
      modifies this
      ensures var updated := [old(newExperience).(id := freshId)] + old(experiences);
              && (sent == if old(HasActiveId()) then Some(updated) else None)
              && (experiences == if old(HasActiveId()) && ok then updated else old(experiences))
              && (newExperience == if old(HasActiveId()) && ok then EmptyExperience else old(newExperience))
      ensures fetchedId == old(fetchedId) && storedId == old(storedId) && profile == old(profile)
      ensures skills == old(skills) && education == old(education) && newSkill == old(newSkill)
      ensures editedProfile == old(editedProfile) && editedAbout == old(editedAbout)
      ensures newEducation == old(newEducation)
    {
      if !HasActiveId() {
        return None;
      }
      var updated := [newExperience.(id := freshId)] + experiences;
      sent := Some(updated);
      if ok {
        experiences := updated;
        newExperience := EmptyExperience;
      }
    }

    /** `handleDeleteExperience`: with an active profile, the list without
      the entries of that id is sent, and kept when the request succeeds. */
    method HandleDeleteExperience(id: string, ok: bool) returns (sent: Option<seq<ExperienceEntry>>)
      modifies this
      ensures sent == if old(HasActiveId()) then Some(WithoutId(old(experiences), ExperienceId, id)) else None
      ensures experiences == if old(HasActiveId()) && ok then WithoutId(old(experiences), ExperienceId, id) else old(experiences)
      ensures fetchedId == old(fetchedId) && storedId == old(storedId) && profile == old(profile)
      ensures skills == old(skills) && education == old(education) && newSkill == old(newSkill)
      ensures editedProfile == old(editedProfile) && editedAbout == old(editedAbout)
      ensures newExperience == old(newExperience) && newEducation == old(newEducation)
    {
      if !HasActiveId() {
        return None;
      }
      var updated := WithoutId(experiences, ExperienceId, id);
      sent := Some(updated);
      if ok {
        experiences := updated;
      }
    }

    /** `handleAddEducation`: as `handleAddExperience`, for the education list. */
    method HandleAddEducation(freshId: string, ok: bool) returns (sent: Option<seq<EducationEntry>>)
      modifies this
      ensures var updated := [old(newEducation).(id := freshId)] + old(education);
              && (sent == if old(HasActiveId()) then Some(updated) else None)
              && (education == if old(HasActiveId()) && ok then updated else old(education))
              && (newEducation == if old(HasActiveId()) && ok then EmptyEducation else old(newEducation))
      ensures fetchedId == old(fetchedId) && storedId == old(storedId) && profile == old(profile)
      ensures skills == old(skills) && experiences == old(experiences) && newSkill == old(newSkill)
      ensures editedProfile == old(editedProfile) && editedAbout == old(editedAbout)
      ensures newExperience == old(newExperience)
    {
      if !HasActiveId() {
        return None;
      }
      var updated := [newEducation.(id := freshId)] + education;
      sent := Some(updated);
      if ok {
        education := updated;
        newEducation := EmptyEducation;
      }
    }

    /** `handleDeleteEducation`: as `handleDeleteExperience`, for the
      education list. */
    method HandleDeleteEducation(id: string, ok: bool) returns (sent: Option<seq<EducationEntry>>)
      modifies this
      ensures sent == if old(HasActiveId()) then Some(WithoutId(old(education), EducationId, id)) else None
      ensures education == if old(HasActiveId()) && ok then WithoutId(old(education), EducationId, id) else old(education)
      ensures fetchedId == old(fetchedId) && storedId == old(storedId) && profile == old(profile)
      ensures skills == old(skills) && experiences == old(experiences) && newSkill == old(newSkill)
      ensures editedProfile == old(editedProfile) && editedAbout == old(editedAbout)
      ensures newExperience == old(newExperience) && newEducation == old(newEducation)
    {
      if !HasActiveId() {
        return None;
      }
      var updated := WithoutId(education, EducationId, id);
      sent := Some(updated);
      if ok {
        education := updated;
      }
    }

    /** `handleSaveProfile`: with an active profile, a headline update is
      sent only when the headline changed, then a location update only when
      the location changed; a failed request stops the handler, and when
      none fails the edited fields are shown. */
    method HandleSaveProfile(headlineOk: bool, locationOk: bool)
      returns (sentHeadline: Option<string>, sentLocation: Option<string>)
      modifies this
      ensures var active := old(HasActiveId());
              var headlineChanged := old(editedProfile.headline) != old(profile.headline);
              var locationChanged := old(editedProfile.location) != old(profile.location);
              var headlineDone := !headlineChanged || headlineOk;
              && (sentHeadline == if active && headlineChanged then Some(old(editedProfile.headline)) else None)
              && (sentLocation == if active && headlineDone && locationChanged then Some(old(editedProfile.location)) else None)
              && (profile == if active && headlineDone && (!locationChanged || locationOk) then old(editedProfile) else old(profile))
      ensures fetchedId == old(fetchedId) && storedId == old(storedId) && editedProfile == old(editedProfile)
      ensures skills == old(skills) && experiences == old(experiences) && education == old(education)
      ensures editedAbout == old(editedAbout) && newSkill == old(newSkill)
      ensures newExperience == old(newExperience) && newEducation == old(newEducation)
    {
      sentHeadline, sentLocation := None, None;
      if !HasActiveId() {
        return;
      }
      if editedProfile.headline != profile.headline {
        sentHeadline := Some(editedProfile.headline);
        if !headlineOk {
          return;
        }
      }
      if editedProfile.location != profile.location {
        sentLocation := Some(editedProfile.location);
        if !locationOk {
          return;
        }
      }
      profile := editedProfile;
    }

    /** `handleSaveAbout`: with an active profile the edited bio is sent, and
      shown when the request succeeds. */
    method HandleSaveAbout(ok: bool) returns (sent: Option<string>)
      modifies this
      ensures sent == if old(HasActiveId()) then Some(old(editedAbout)) else None
      ensures profile == if old(HasActiveId()) && ok then old(profile).(about := old(editedAbout)) else old(profile)
      ensures fetchedId == old(fetchedId) && storedId == old(storedId) && editedProfile == old(editedProfile)
      ensures skills == old(skills) && experiences == old(experiences) && education == old(education)
      ensures editedAbout == old(editedAbout) && newSkill == old(newSkill)
      ensures newExperience == old(newExperience) && newEducation == old(newEducation)
    {
      if !HasActiveId() {
        return None;
      }
      sent := Some(editedAbout);
      if ok {
        profile := profile.(about := editedAbout);
      }
    }
  }
}

=== FILE: profile_service.dfy ===
/** `ProfileServiceImpl`: one profile per user, single-field setters that
    overwrite even with null, a null-skipping partial update, deletion and
    the search dispatch. */
module ProfileService {
  import opened Common
  import opened Text

  /** A row of `profiles` (its key is the profile id). */
  datatype Profile = Profile(
    userId: int, headline: Option<string>, bio: Option<string>, skills: Option<string>,
    experience: Option<string>, education: Option<string>, location: Option<string>,
    avatarUrl: Option<string>, bannerUrl: Option<string>)

  /** The fields that have a single-field setter endpoint. */
  datatype ProfileField = Skills | Experience | Education | Headline | Bio | Location | AvatarUrl | BannerUrl

  /** `ProfileUpdateDTO`: a null field means "keep"; it has no skills field. */
  datatype ProfileUpdate = ProfileUpdate(
    headline: Option<string>, bio: Option<string>, experience: Option<string>, education: Option<string>,
    location: Option<string>, avatarUrl: Option<string>, bannerUrl: Option<string>)

  datatype ProfileError =
    | ProfileNotFound(id: int)            // "Profile not found with id: <id>"
    | ProfileNotFoundForUser(userId: int) // "Profile not found with userID: <userId>"
    | ProfileExists                       // "Profile already exists for this user"

  function FieldOf(p: Profile, f: ProfileField): Option<string> {
    match f
    case Skills => p.skills
    case Experience => p.experience
    case Education => p.education
    case Headline => p.headline
    case Bio => p.bio
    case Location => p.location
    case AvatarUrl => p.avatarUrl
    case BannerUrl => p.bannerUrl
  }

  /** The setter of one field: the DTO's value is stored as given, null included. */
  function WithField(p: Profile, f: ProfileField, value: Option<string>): (r: Profile)
    ensures r.userId == p.userId
  {
    match f
    case Skills => p.(skills := value)
    case Experience => p.(experience := value)
    case Education => p.(education := value)
    case Headline => p.(headline := value)
    case Bio => p.(bio := value)
    case Location => p.(location := value)
    case AvatarUrl => p.(avatarUrl := value)
    case BannerUrl => p.(bannerUrl := value)
  }

  /** A single-field setter changes exactly its field, to exactly the given
      value, and every other field keeps its value. */
  lemma WithFieldChangesOnlyThatField(p: Profile, f: ProfileField, value: Option<string>, g: ProfileField)
    ensures FieldOf(WithField(p, f, value), g) == if g == f then value else FieldOf(p, g)
  {
  }

  /** The request value `updateProfile` has for a field (none for skills). */
  function UpdateValue(u: ProfileUpdate, f: ProfileField): Option<string> {
    match f
    case Skills => None
    case Experience => u.experience
    case Education => u.education
    case Headline => u.headline
    case Bio => u.bio
    case Location => u.location
    case AvatarUrl => u.avatarUrl
    case BannerUrl => u.bannerUrl
  }

  /** `updateProfile`'s setters: a field whose request value is null is
      kept and the others take the request's value; skills and the owner
      are never touched. */
  function PatchProfile(p: Profile, u: ProfileUpdate): (r: Profile)
    ensures forall f :: FieldOf(r, f) == Patch(FieldOf(p, f), UpdateValue(u, f))
    ensures r.skills == p.skills && r.userId == p.userId
  {
    p.(headline := Patch(p.headline, u.headline), bio := Patch(p.bio, u.bio),
       experience := Patch(p.experience, u.experience), education := Patch(p.education, u.education),
       location := Patch(p.location, u.location), avatarUrl := Patch(p.avatarUrl, u.avatarUrl),
       bannerUrl := Patch(p.bannerUrl, u.bannerUrl))
  }

  /** A null-skipping update is the same as calling the single setter of each
      field the request carries, in any order. */
  lemma PatchProfileIsSetterSequence(p: Profile, u: ProfileUpdate)
    ensures PatchProfile(p, u)
         == SetIfPresent(SetIfPresent(SetIfPresent(SetIfPresent(SetIfPresent(SetIfPresent(SetIfPresent(p,
              Headline, u.headline), Bio, u.bio), Experience, u.experience), Education, u.education),
              Location, u.location), AvatarUrl, u.avatarUrl), BannerUrl, u.bannerUrl)
  {
  }

  function SetIfPresent(p: Profile, f: ProfileField, value: Option<string>): Profile {
    if value.Some? then WithField(p, f, value) else p
  }

  /** At most one profile per user. */
  ghost predicate OnePerUser(profiles: map<int, Profile>) {
    forall a, b :: (a in profiles && b in profiles && profiles[a].userId == profiles[b].userId) ==> a == b
  }

  /** The search `searchProfiles` runs: an exact match on both columns when
      both parameters are given, a substring match on the one given, or every
      profile. */
  predicate SearchAdmits(p: Profile, skills: Option<string>, location: Option<string>)
    ensures SearchAdmits(p, skills, location) ==> IntendedSearchAdmits(p, skills, location)
    ensures skills.None? || location.None? ==>
              (SearchAdmits(p, skills, location) <==> IntendedSearchAdmits(p, skills, location))
  {
    assert skills.Some? && p.skills == skills ==> Includes(p.skills.value, skills.value) by {
      if skills.Some? && p.skills == skills { IncludesItself(skills.value); }
    }
    assert location.Some? && p.location == location ==> Includes(p.location.value, location.value) by {
      if location.Some? && p.location == location { IncludesItself(location.value); }
    }
    if skills.Some? && location.Some? then p.skills == skills && p.location == location
    else if skills.Some? then p.skills.Some? && Includes(p.skills.value, skills.value)
    else if location.Some? then p.location.Some? && Includes(p.location.value, location.value)
    else true
  }

  /** The search with both parameters as evidently intended: the profiles
      both single-parameter searches find. */
  predicate IntendedSearchAdmits(p: Profile, skills: Option<string>, location: Option<string>) {
    (skills.None? || (p.skills.Some? && Includes(p.skills.value, skills.value)))
    && (location.None? || (p.location.Some? && Includes(p.location.value, location.value)))
  }

  /** The intended search is the conjunction of the single-parameter
      searches, and agrees with the code whenever at most one parameter is
      given. */
  lemma IntendedSearchIsIntersection(p: Profile, skills: Option<string>, location: Option<string>)
    ensures IntendedSearchAdmits(p, skills, location)
        <==> SearchAdmits(p, skills, None) && SearchAdmits(p, None, location)
    ensures skills.None? || location.None? ==>
              (IntendedSearchAdmits(p, skills, location) <==> SearchAdmits(p, skills, location))
  {
  }

  /** As written, searching by skill and location together misses a profile
      that each single search finds: skills "Java, React" in "NY" matches the
      skill "Java" and the location "NY" but not both. */
  lemma SearchBothIsNotIntersection()
    ensures var p := Profile(1, None, None, Some("Java, React"), None, None, Some("NY"), None, None);
            && SearchAdmits(p, Some("Java"), None)
            && SearchAdmits(p, None, Some("NY"))
            && !SearchAdmits(p, Some("Java"), Some("NY"))
            && IntendedSearchAdmits(p, Some("Java"), Some("NY"))
  {
    var p := Profile(1, None, None, Some("Java, React"), None, None, Some("NY"), None, None);
    assert OccursAt("Java, React", "Java", 0);
    assert OccursAt("NY", "NY", 0);
  }

  class ProfileServiceImpl {
    var profiles: map<int, Profile>
    var nextId: int

    ghost predicate Valid()
      reads this
    {
      KeysBelow(profiles, nextId) && OnePerUser(profiles)
    }

    constructor ()
      ensures Valid() && profiles == map[]
    {
      profiles := map[];
      nextId := 1;
    }

    predicate HasProfile(userId: int)
      reads this
    {
      exists id :: id in profiles && profiles[id].userId == userId
    }

    /** `addProfile`: a user who already has a profile is refused; otherwise
      the profile is stored under a new id. */
    method AddProfile(profile: Profile) returns (r: Result<int, ProfileError>)
      requires Valid()
      modifies this
      ensures Valid()
      ensures old(HasProfile(profile.userId)) ==> r == Err(ProfileExists) && profiles == old(profiles)
      ensures !old(HasProfile(profile.userId)) ==>
        && r == Ok(old(nextId)) && old(nextId) !in old(profiles)
        && profiles == old(profiles)[old(nextId) := profile]
      ensures HasProfile(profile.userId)
    {
      if exists id :: id in profiles && profiles[id].userId == profile.userId {
        return Err(ProfileExists);
      }
      r := Ok(nextId);
      profiles := profiles[nextId := profile];
      assert profiles[nextId] == profile;
      nextId := nextId + 1;
    }

    /** The single-field setters (`updateSkills`, `updateExperience`,
      `updateEducation`, `updateHeadline`, `updateBio`, `updateLocation`,
      `updateAvatar`, `updateBanner`): an unknown id fails; otherwise the
      field takes the DTO's value, null included. */
    method UpdateField(id: int, field: ProfileField, value: Option<string>) returns (r: Result<Profile, ProfileError>)
      requires Valid()
      modifies this
      ensures Valid()
      ensures id !in old(profiles) ==> r == Err(ProfileNotFound(id)) && profiles == old(profiles)
      ensures id in old(profiles) ==>
        && profiles == old(profiles)[id := WithField(old(profiles)[id], field, value)]
        && r == Ok(profiles[id])
    {
      if id !in profiles {
        return Err(ProfileNotFound(id));
      }
      var p := WithField(profiles[id], field, value);
      profiles := profiles[id := p];
      r := Ok(p);
    }

    /** `updateProfile`: an unknown id fails; otherwise the non-null fields
      of the request overwrite the profile's. */
    method UpdateProfile(id: int, u: ProfileUpdate) returns (r: Result<Profile, ProfileError>)
      requires Valid()
      modifies this
      ensures Valid()
      ensures id !in old(profiles) ==> r == Err(ProfileNotFound(id)) && profiles == old(profiles)
      ensures id in old(profiles) ==>
        && profiles == old(profiles)[id := PatchProfile(old(profiles)[id], u)]
        && r == Ok(profiles[id])
        && profiles[id].skills == old(profiles)[id].skills
    {
      if id !in profiles {
        return Err(ProfileNotFound(id));
      }
      var p := PatchProfile(profiles[id], u);
      profiles := profiles[id := p];
      r := Ok(p);
    }

    /** `getProfile`. */
    function GetProfile(id: int): (r: Result<Profile, ProfileError>)
      reads this
      ensures r.Err? <==> id !in profiles
      ensures r.Err? ==> r.error == ProfileNotFound(id)
      ensures r.Ok? ==> r.value == profiles[id]
    {
      if id in profiles then Ok(profiles[id]) else Err(ProfileNotFound(id))
    }

    /** `getProfileByUserId`: the user's one profile, or not-found. */
    method GetProfileByUserId(userId: int) returns (r: Result<Profile, ProfileError>)
      requires Valid()
      ensures r.Err? <==> !HasProfile(userId)
      ensures r.Err? ==> r.error == ProfileNotFoundForUser(userId)
      ensures r.Ok? ==> exists id :: id in profiles && profiles[id] == r.value && r.value.userId == userId
    {
      if exists id :: id in profiles && profiles[id].userId == userId {
        var id :| id in profiles && profiles[id].userId == userId;
        r := Ok(profiles[id]);
      } else {
        r := Err(ProfileNotFoundForUser(userId));
      }
    }

    /** `deleteProfile`: an unknown id fails; otherwise only that profile is
      removed. */
    method DeleteProfile(id: int) returns (r: Result<(), ProfileError>)
      requires Valid()
      modifies this
      ensures Valid()
      ensures id !in old(profiles) ==> r == Err(ProfileNotFound(id)) && profiles == old(profiles)
      ensures id in old(profiles) ==> r == Ok(()) && profiles == old(profiles) - {id}
    {
      if id !in profiles {
        return Err(ProfileNotFound(id));
      }
      profiles := profiles - {id};
      r := Ok(());
    }

    /** `searchProfiles`, and through it `getBySkill`, `getByLocation` and
      `getAllProfiles`, with both parameters searching as evidently intended
      (the code as written is `SearchAdmits`; see `SearchBothIsNotIntersection`). */
    function SearchProfiles(skills: Option<string>, location: Option<string>): (r: map<int, Profile>)
      reads this
      ensures forall id :: id in r <==> id in profiles && IntendedSearchAdmits(profiles[id], skills, location)
      ensures skills.None? || location.None? ==>
                forall id :: id in r <==> id in profiles && SearchAdmits(profiles[id], skills, location)
      ensures skills.None? && location.None? ==> r == profiles
      ensures forall id :: id in r ==> r[id] == profiles[id]
    {
      map id | id in profiles && IntendedSearchAdmits(profiles[id], skills, location) :: profiles[id]
    }
  }
}

=== FILE: set_profile.dfy ===
/** The profile set-up wizard: per-step validation, moving between steps,
    the skill, experience and education lists, and the profile it submits. */
module SetProfile {
  import opened Common
  import opened Text

  datatype ExperienceInput = ExperienceInput(title: string, company: string, duration: string)
  datatype EducationInput = EducationInput(degree: string, school: string, year: string)

  /** The wizard's form; `userId` is `user?.id`, absent before sign-in. */
  datatype ProfileForm = ProfileForm(
    userId: Option<int>, headline: string, bio: string, skills: seq<string>,
    experience: seq<ExperienceInput>, education: seq<EducationInput>,
    location: string, avatarUrl: string)

  /** The body posted to the profile service's add endpoint. The experience
      and education lists stand for their JSON text. */
  datatype ProfilePayload = ProfilePayload(
    userId: Option<int>, headline: string, bio: string, skills: string,
    experience: seq<ExperienceInput>, education: seq<EducationInput>,
    location: string, avatarUrl: string)

  /** `!s.trim()`. */
  predicate Blank(s: string) {
    Trim(s) == ""
  }

  /** `validateStep`: the message of the first rule the step breaks, or
      `None` when the step may be left. In terms of content, step 0 needs a
      headline and a bio with a non-space character (the headline is
      reported first), step 1 such a location, steps 2 to 4 a non-empty
      list, and any other step nothing. */
  function ValidateStep(form: ProfileForm, step: int): (r: Option<string>)
    ensures r.None? <==>
      && (step == 0 ==> !AllSpace(form.headline) && !AllSpace(form.bio))
      && (step == 1 ==> !AllSpace(form.location))
      && (step == 2 ==> form.skills != [])
      && (step == 3 ==> form.experience != [])
      && (step == 4 ==> form.education != [])
    ensures step == 0 && AllSpace(form.headline) ==> r == Some("Please enter your professional headline")
  {
    BlankIffAllSpace(form.headline);
    BlankIffAllSpace(form.bio);
    BlankIffAllSpace(form.location);
    if step == 0 then
      if Blank(form.headline) then Some("Please enter your professional headline")
      else if Blank(form.bio) then Some("Please write a short bio about yourself")
      else None
    else if step == 1 then
      if Blank(form.location) then Some("Please enter your location") else None
    else if step == 2 then
      if |form.skills| == 0 then Some("Please add at least one skill") else None
    else if step == 3 then
      if |form.experience| == 0 then Some("Please add at least one work experience") else None
    else if step == 4 then
      if |form.education| == 0 then Some("Please add at least one education entry") else None
    else None
  }

  /** The skills list as the wizard keeps it: every entry trimmed and
      non-empty, and no entry twice. */
  predicate CleanSkills(skills: seq<string>) {
    && (forall i :: 0 <= i < |skills| ==> skills[i] != "" && Trimmed(skills[i]))
    && (forall i, j :: 0 <= i < j < |skills| ==> skills[i] != skills[j])
  }

  /** `addSkill`'s list: the trimmed input is appended when it is non-blank
      and not yet listed. */
  function AddSkill(skills: seq<string>, input: string): (r: seq<string>)
    ensures r == skills || r == skills + [Trim(input)]
    ensures r != skills <==> Trim(input) != "" && Trim(input) !in skills
    ensures Trim(input) != "" ==> Trim(input) in r
  {
    var t := Trim(input);
    if t != "" && t !in skills then skills + [t] else skills
  }

  /** Adding and removing skills keeps the list clean. */
  lemma {:induction false} SkillEditsKeepClean(skills: seq<string>, input: string, gone: string)
    requires CleanSkills(skills)
    ensures CleanSkills(AddSkill(skills, input))
    ensures CleanSkills(RemoveAll(skills, gone))
  {
    var r := AddSkill(skills, input);
    if r != skills {
      assert r[|skills|] == Trim(input);
    }
    RemoveKeepsClean(skills, gone);
  }

  lemma {:induction false} RemoveKeepsClean(skills: seq<string>, gone: string)
    requires CleanSkills(skills)
    ensures CleanSkills(RemoveAll(skills, gone))
  {
    if skills != [] {
      CleanTail(skills);
      RemoveKeepsClean(skills[1..], gone);
      if skills[0] != gone {
        CleanCons(skills[0], RemoveAll(skills[1..], gone));
      }
    }
  }

  /** The tail of a clean list is clean and does not hold its head. */
  lemma CleanTail(skills: seq<string>)
    requires CleanSkills(skills) && skills != []
    ensures CleanSkills(skills[1..]) && skills[0] !in skills[1..]
  {
    var t := skills[1..];
    forall i, j | 0 <= i < j < |t|
      ensures t[i] != t[j]
    {
      assert t[i] == skills[i + 1] && t[j] == skills[j + 1];
    }
    forall k | 0 <= k < |t|
      ensures t[k] != skills[0]
    {
      assert t[k] == skills[k + 1];
    }
  }

  /** A clean entry put in front of a clean list without it keeps it clean. */
  lemma CleanCons(x: string, rest: seq<string>)
    requires CleanSkills(rest) && x != "" && Trimmed(x) && x !in rest
    ensures CleanSkills([x] + rest)
  {
    var r := [x] + rest;
    forall i, j | 0 <= i < j < |r|
      ensures r[i] != r[j]
    {
      assert r[j] == rest[j - 1];
      if i > 0 {
        assert r[i] == rest[i - 1];
      }
    }
  }

  /** `list.filter((_, i) => i !== index)`: the entry at `index` dropped,
      or the list unchanged when there is none. */
  function RemoveAt<T>(list: seq<T>, index: int): (r: seq<T>)
    ensures 0 <= index < |list| ==> |r| == |list| - 1
    ensures !(0 <= index < |list|) ==> r == list
    ensures 0 <= index < |list| ==>
              forall j :: 0 <= j < |r| ==> r[j] == (if j < index then list[j] else list[j + 1])
  {
    if 0 <= index < |list| then
      var r := list[..index] + list[index + 1..];
      assert forall j :: index <= j < |r| ==> r[j] == list[j + 1];
      r
    else list
  }

  /** `addExperience`'s list: the entry is appended only when its title and
      company are not blank. */
  function AddExperience(list: seq<ExperienceInput>, e: ExperienceInput): (r: seq<ExperienceInput>)
    ensures r == list + [e] <==> !AllSpace(e.title) && !AllSpace(e.company)
    ensures r == list || r == list + [e]
  {
    BlankIffAllSpace(e.title);
    BlankIffAllSpace(e.company);
    if !Blank(e.title) && !Blank(e.company) then list + [e] else list
  }

  /** `addEducation`'s list: the entry is appended only when its degree and
      school are not blank. */
  function AddEducation(list: seq<EducationInput>, e: EducationInput): (r: seq<EducationInput>)
    ensures r == list + [e] <==> !AllSpace(e.degree) && !AllSpace(e.school)
    ensures r == list || r == list + [e]
  {
    BlankIffAllSpace(e.degree);
    BlankIffAllSpace(e.school);
    if !Blank(e.degree) && !Blank(e.school) then list + [e] else list
  }

  /** The body `handleSubmit` posts: skills joined by ", ". */
  function PayloadOf(form: ProfileForm): (p: ProfilePayload)
    ensures p.skills == Join(form.skills, ", ")
    ensures p.experience == form.experience && p.education == form.education
    ensures p.userId == form.userId && p.headline == form.headline && p.bio == form.bio
    ensures p.location == form.location && p.avatarUrl == form.avatarUrl
  {
    ProfilePayload(form.userId, form.headline, form.bio, Join(form.skills, ", "),
                   form.experience, form.education, form.location, form.avatarUrl)
  }

  const EmptyExperience := ExperienceInput("", "", "")
  const EmptyEducation := EducationInput("", "", "")

  class ProfileWizard {
    var form: ProfileForm
    var activeStep: int
    var skillInput: string
    var expInput: ExperienceInput
    var eduInput: EducationInput
    var error: Option<string>
    var loading: bool
    var success: bool

    ghost predicate Valid()
      reads this
    {
      CleanSkills(form.skills)
    }

    /** The initial state for the signed-in user. */
    constructor (userId: Option<int>)
      ensures Valid()
      ensures form == ProfileForm(userId, "", "", [], [], [], "", "")
      ensures activeStep == 0 && skillInput == "" && error.None? && !loading && !success
    {
      form := ProfileForm(userId, "", "", [], [], [], "", "");
      activeStep := 0;
      skillInput := "";
      expInput := EmptyExperience;
      eduInput := EmptyEducation;
      error := None;
      loading := false;
      success := false;
    }

    /** `handleNext`: the step advances exactly when it validates; the error
      shows the broken rule, if any. */
    method HandleNext()
      modifies this
      ensures error == ValidateStep(form, old(activeStep))
      ensures error.None? ==> activeStep == old(activeStep) + 1
      ensures error.Some? ==> activeStep == old(activeStep)
      ensures form == old(form) && skillInput == old(skillInput) && loading == old(loading)
      ensures expInput == old(expInput) && eduInput == old(eduInput) && success == old(success)
    {
      error := ValidateStep(form, activeStep);
      if error.None? {
        activeStep := activeStep + 1;
      }
    }

    /** `handleBack`: one step back and no error. */
    method HandleBack()
      modifies this
      ensures activeStep == old(activeStep) - 1 && error.None?
      ensures form == old(form) && skillInput == old(skillInput) && loading == old(loading)
      ensures expInput == old(expInput) && eduInput == old(eduInput) && success == old(success)
    {
      activeStep := activeStep - 1;
      error := None;
    }

    /** `addSkill`: the input is cleared only when the skill was added. */
    method AddSkillFromInput()
      requires Valid()
      modifies this
      ensures Valid()
      ensures form == old(form).(skills := AddSkill(old(form.skills), old(skillInput)))
      ensures skillInput == if form.skills == old(form.skills) then old(skillInput) else ""
      ensures activeStep == old(activeStep) && error == old(error) && loading == old(loading)
      ensures expInput == old(expInput) && eduInput == old(eduInput) && success == old(success)
    {
      SkillEditsKeepClean(form.skills, skillInput, "");
      var skills := AddSkill(form.skills, skillInput);
      if skills != form.skills {
        form := form.(skills := skills);
        skillInput := "";
      }
    }

    /** `removeSkill`: every entry equal to the argument goes. */
    method RemoveSkill(skill: string)
      requires Valid()
      modifies this
      ensures Valid()
      ensures form == old(form).(skills := RemoveAll(old(form.skills), skill))
      ensures activeStep == old(activeStep) && error == old(error) && loading == old(loading)
      ensures skillInput == old(skillInput) && expInput == old(expInput) && eduInput == old(eduInput)
      ensures success == old(success)
    {
      SkillEditsKeepClean(form.skills, "", skill);
      form := form.(skills := RemoveAll(form.skills, skill));
    }

    /** `addExperience`: the input is reset only when the entry was added. */
    method AddExperienceFromInput()
      requires Valid()
      modifies this
      ensures Valid()
      ensures form == old(form).(experience := AddExperience(old(form.experience), old(expInput)))
      ensures expInput == if form.experience == old(form.experience) then old(expInput) else EmptyExperience
      ensures activeStep == old(activeStep) && error == old(error) && loading == old(loading)
      ensures skillInput == old(skillInput) && eduInput == old(eduInput) && success == old(success)
    {
      var list := AddExperience(form.experience, expInput);
      if list != form.experience {
        form := form.(experience := list);
        expInput := EmptyExperience;
      }
    }

    /** `removeExperience`. */
    method RemoveExperience(index: int)
      requires Valid()
      modifies this
      ensures Valid()
      ensures form == old(form).(experience := RemoveAt(old(form.experience), index))
      ensures activeStep == old(activeStep) && error == old(error) && loading == old(loading)
      ensures skillInput == old(skillInput) && expInput == old(expInput) && eduInput == old(eduInput)
      ensures success == old(success)
    {
      form := form.(experience := RemoveAt(form.experience, index));
    }

    /** `addEducation`: the input is reset only when the entry was added. */
    method AddEducationFromInput()
      requires Valid()
      modifies this
      ensures Valid()
      ensures form == old(form).(education := AddEducation(old(form.education), old(eduInput)))
      ensures eduInput == if form.education == old(form.education) then old(eduInput) else EmptyEducation
      ensures activeStep == old(activeStep) && error == old(error) && loading == old(loading)
      ensures skillInput == old(skillInput) && expInput == old(expInput) && success == old(success)
    {
      var list := AddEducation(form.education, eduInput);
      if list != form.education {
        form := form.(education := list);
        eduInput := EmptyEducation;
      }
    }

    /** `removeEducation`. */
    method RemoveEducation(index: int)
      requires Valid()
      modifies this
      ensures Valid()
      ensures form == old(form).(education := RemoveAt(old(form.education), index))
      ensures activeStep == old(activeStep) && error == old(error) && loading == old(loading)
      ensures skillInput == old(skillInput) && expInput == old(expInput) && eduInput == old(eduInput)
      ensures success == old(success)
    {
      form := form.(education := RemoveAt(form.education, index));
    }

    /** `handleSubmit`: nothing while a submission is under way; otherwise the
      form is posted, and the reply (`Err` with the message shown) decides
      between success and an error. */
    method HandleSubmit(reply: Result<(), string>) returns (sent: Option<ProfilePayload>)
      requires Valid()
      modifies this
      ensures Valid()
      ensures old(loading) ==> sent.None? && loading && error == old(error) && success == old(success)
      ensures !old(loading) ==>
        && sent == Some(PayloadOf(form)) && !loading
        && error == (if reply.Err? then Some(reply.error) else None)
        && success == (old(success) || reply.Ok?)
      ensures form == old(form) && activeStep == old(activeStep)
      ensures skillInput == old(skillInput) && expInput == old(expInput) && eduInput == old(eduInput)
    {
      if loading {
        return None;
      }
      loading := true;
      error := None;
      sent := Some(PayloadOf(form));
      if reply.Ok? {
        success := true;
      } else {
        error := Some(reply.error);
      }
      loading := false;
    }
  }
}

=== FILE: text.dfy ===
/** The JavaScript string operations the client relies on: `trim`,
    `toLowerCase`/`toUpperCase` (ASCII letters only), `includes`,
    `split` on one character and `join`. */
module Text {

  /** The white-space and line-terminator characters `String.prototype.trim`
      removes (the other Unicode space separators are not listed). */
  predicate IsSpace(c: char) {
    c == ' ' || c == '\t' || c == '\n' || c == '\r' || c == '\U{B}' || c == '\U{C}'
    || c == '\U{A0}' || c == '\U{2028}' || c == '\U{2029}' || c == '\U{FEFF}'
  }

  /** Every character of `s` is white space (a blank string). */
  predicate AllSpace(s: string) {
    forall i :: 0 <= i < |s| ==> IsSpace(s[i])
  }

  /** Neither end of `s` is white space. */
  predicate Trimmed(s: string) {
    s == [] || (!IsSpace(s[0]) && !IsSpace(s[|s| - 1]))
  }

  /** `s` without its leading white space. */
  function TrimStart(s: string): string {
    if s != [] && IsSpace(s[0]) then TrimStart(s[1..]) else s
  }

  /** `s` without its trailing white space. */
  function TrimEnd(s: string): string {
    if s != [] && IsSpace(s[|s| - 1]) then TrimEnd(s[..|s| - 1]) else s
  }

  /** `TrimStart` keeps a suffix of `s`. */
  lemma {:induction false} TrimStartSuffix(s: string)
    ensures |TrimStart(s)| <= |s| && TrimStart(s) == s[|s| - |TrimStart(s)|..]
  {
    if s != [] && IsSpace(s[0]) {
      TrimStartSuffix(s[1..]);
    }
  }

  /** `TrimStart` leaves no white space in front. */
  lemma {:induction false} TrimStartNoLead(s: string)
    ensures TrimStart(s) == [] || !IsSpace(TrimStart(s)[0])
  {
    if s != [] && IsSpace(s[0]) {
      TrimStartNoLead(s[1..]);
    }
  }

  /** What `TrimStart` drops is white space. */
  lemma {:induction false} TrimStartDropsSpace(s: string)
    ensures |TrimStart(s)| <= |s| && AllSpace(s[..|s| - |TrimStart(s)|])
  {
    if s != [] && IsSpace(s[0]) {
      var t := s[1..];
      TrimStartDropsSpace(t);
      var k := |t| - |TrimStart(t)|;
      var front, rest := s[..k + 1], t[..k];
      forall i | 0 <= i < |front|
        ensures IsSpace(front[i])
      {
        if i > 0 {
          assert front[i] == rest[i - 1];
        }
      }
    }
  }

  /** `TrimStart` keeps a suffix, drops only white space, and leaves no
      white space in front. */
  lemma TrimStartShape(s: string)
    ensures |TrimStart(s)| <= |s| && TrimStart(s) == s[|s| - |TrimStart(s)|..]
    ensures TrimStart(s) == [] || !IsSpace(TrimStart(s)[0])
    ensures AllSpace(s[..|s| - |TrimStart(s)|])
  {
    TrimStartSuffix(s);
    TrimStartNoLead(s);
    TrimStartDropsSpace(s);
  }

  /** `TrimEnd` keeps a prefix of `s`. */
  lemma {:induction false} TrimEndPrefix(s: string)
    ensures |TrimEnd(s)| <= |s| && TrimEnd(s) == s[..|TrimEnd(s)|]
  {
    if s != [] && IsSpace(s[|s| - 1]) {
      TrimEndPrefix(s[..|s| - 1]);
    }
  }

  /** `TrimEnd` leaves no white space at the end. */
  lemma {:induction false} TrimEndNoTrail(s: string)
    ensures TrimEnd(s) == [] || !IsSpace(TrimEnd(s)[|TrimEnd(s)| - 1])
  {
    if s != [] && IsSpace(s[|s| - 1]) {
      TrimEndNoTrail(s[..|s| - 1]);
    }
  }

  /** What `TrimEnd` drops is white space. */
  lemma {:induction false} TrimEndDropsSpace(s: string)
    ensures |TrimEnd(s)| <= |s| && AllSpace(s[|TrimEnd(s)|..])
  {
    if s != [] && IsSpace(s[|s| - 1]) {
      var t := s[..|s| - 1];
      TrimEndDropsSpace(t);
      var back, rest := s[|TrimEnd(t)|..], t[|TrimEnd(t)|..];
      forall i | 0 <= i < |back|
        ensures IsSpace(back[i])
      {
        if i < |rest| {
          assert back[i] == rest[i];
        }
      }
    }
  }

  /** `TrimEnd` keeps a prefix, drops only white space, and leaves no white
      space at the end. */
  lemma TrimEndShape(s: string)
    ensures |TrimEnd(s)| <= |s| && TrimEnd(s) == s[..|TrimEnd(s)|]
    ensures TrimEnd(s) == [] || !IsSpace(TrimEnd(s)[|TrimEnd(s)| - 1])
    ensures AllSpace(s[|TrimEnd(s)|..])
  {
    TrimEndPrefix(s);
    TrimEndNoTrail(s);
    TrimEndDropsSpace(s);
  }

  /** `s.trim()`: `s` without the white space at either end. */
  function Trim(s: string): (r: string)
    ensures Trimmed(r)
    ensures forall c :: c in r ==> c in s
  {
    var a := TrimStart(s);
    TrimStartShape(s);
    TrimEndShape(a);
    var r := TrimEnd(a);
    var i := |s| - |a|;
    assert r == s[i..i + |r|];
    assert forall k :: 0 <= k < |r| ==> r[k] == s[i + k];
    r
  }

  /** `trim` drops only white space, and only at the ends. */
  lemma TrimDropsOnlySpace(s: string)
    ensures exists i :: 0 <= i <= |s| - |Trim(s)| && Trim(s) == s[i..i + |Trim(s)|]
                        && AllSpace(s[..i]) && AllSpace(s[i + |Trim(s)|..])
  {
    var a := TrimStart(s);
    TrimStartShape(s);
    TrimEndShape(a);
    var r := TrimEnd(a);
    var i := |s| - |a|;
    assert r == s[i..i + |r|];
    assert s[i + |r|..] == a[|r|..];
  }

  /** `!s.trim()`: the string is empty or only white space. */
  lemma {:induction false} BlankIffAllSpace(s: string)
    ensures Trim(s) == "" <==> AllSpace(s)
  {
    var a := TrimStart(s);
    var k := |s| - |a|;
    TrimStartShape(s);
    TrimEndShape(a);
    if TrimEnd(a) == [] {
      assert a[0..] == a;
      assert s == s[..k] + a;
      AllSpaceConcat(s[..k], a);
    }
  }

  lemma AllSpaceConcat(x: string, y: string)
    requires AllSpace(x) && AllSpace(y)
    ensures AllSpace(x + y)
  {
  }

  /** Trimming a string that already has no white space at its ends keeps it. */
  lemma TrimOfTrimmed(s: string)
    requires Trimmed(s)
    ensures Trim(s) == s
  {
    assert TrimStart(s) == s;
  }

  /** Trimming is idempotent. */
  lemma TrimIdempotent(s: string)
    ensures Trim(Trim(s)) == Trim(s)
  {
    TrimOfTrimmed(Trim(s));
  }

  /** A space in front of a trimmed, non-empty string is removed by `trim`. */
  lemma {:induction false} TrimLeadingSpace(s: string)
    requires s != [] && Trimmed(s)
    ensures Trim(" " + s) == s
  {
    assert (" " + s)[1..] == s;
    assert TrimStart(" " + s) == TrimStart(s) == s;
  }

  function LowerChar(c: char): char {
    if 'A' <= c <= 'Z' then (c as int + 32) as char else c
  }

  function UpperChar(c: char): char {
    if 'a' <= c <= 'z' then (c as int - 32) as char else c
  }

  /** `s.toLowerCase()` for ASCII letters. */
  function Lower(s: string): (r: string)
    ensures |r| == |s| && forall i :: 0 <= i < |s| ==> r[i] == LowerChar(s[i])
  {
    seq(|s|, i requires 0 <= i < |s| => LowerChar(s[i]))
  }

  /** `s.toUpperCase()` for ASCII letters. */
  function Upper(s: string): (r: string)
    ensures |r| == |s| && forall i :: 0 <= i < |s| ==> r[i] == UpperChar(s[i])
  {
    seq(|s|, i requires 0 <= i < |s| => UpperChar(s[i]))
  }

  /** `sub` occurs in `s` at position `i`. */
  predicate OccursAt(s: string, sub: string, i: int) {
    0 <= i && i + |sub| <= |s| && s[i..i + |sub|] == sub
  }

  /** `s.includes(sub)`: `sub` occurs somewhere in `s`. */
  predicate Includes(s: string, sub: string)
    ensures Includes(s, sub) <==> exists i :: OccursAt(s, sub, i)
  {
    if |sub| <= |s| && s[..|sub|] == sub then
      assert OccursAt(s, sub, 0);
      true
    else if s == [] then
      false
    else
      var b := Includes(s[1..], sub);
      if b then
        var j :| OccursAt(s[1..], sub, j);
        assert s[1..][j..j + |sub|] == s[j + 1..j + 1 + |sub|];
        assert OccursAt(s, sub, j + 1);
        true
      else
        assert !OccursAt(s, sub, 0);
        assert forall i :: OccursAt(s, sub, i) && i > 0 ==> OccursAt(s[1..], sub, i - 1) by {
          forall i | OccursAt(s, sub, i) && i > 0
            ensures OccursAt(s[1..], sub, i - 1)
          {
            assert s[1..][i - 1..i - 1 + |sub|] == s[i..i + |sub|];
          }
        }
        false
  }

  /** The empty string is included in every string. */
  lemma IncludesEmpty(s: string)
    ensures Includes(s, "")
  {
    assert OccursAt(s, "", 0);
  }

  /** Every text includes itself. */
  lemma IncludesItself(s: string)
    ensures Includes(s, s)
  {
    assert OccursAt(s, s, 0);
  }

  /** Lowering both sides keeps every occurrence. */
  lemma LowerKeepsOccurrence(s: string, sub: string)
    ensures Includes(s, sub) ==> Includes(Lower(s), Lower(sub))
  {
    if Includes(s, sub) {
      var i :| OccursAt(s, sub, i);
      var ls, lsub := Lower(s), Lower(sub);
      forall k | 0 <= k < |sub| ensures ls[i + k] == lsub[k] {
        assert s[i..i + |sub|][k] == sub[k];
      }
      assert ls[i..i + |sub|] == lsub;
      assert OccursAt(ls, lsub, i);
    }
  }

  /** A needle that occurs is no longer than the text. */
  lemma OccurrenceFits(s: string, sub: string)
    ensures Includes(s, sub) ==> |sub| <= |s|
  {
    if Includes(s, sub) {
      var i :| OccursAt(s, sub, i);
    }
  }

  /** Case-insensitive `includes`, as `a.toLowerCase().includes(b.toLowerCase())`:
      weaker than `includes`, never true of a needle longer than the text,
      and always true of the empty needle. */
  predicate IncludesIgnoringCase(s: string, sub: string)
    ensures Includes(s, sub) ==> IncludesIgnoringCase(s, sub)
    ensures IncludesIgnoringCase(s, sub) ==> |sub| <= |s|
    ensures sub == "" ==> IncludesIgnoringCase(s, sub)
  {
    LowerKeepsOccurrence(s, sub);
    OccurrenceFits(Lower(s), Lower(sub));
    IncludesEmpty(Lower(s));
    Includes(Lower(s), Lower(sub))
  }

  /** `s.split(sep)` for a one-character separator: the pieces between
      separators, in order, empty pieces included. */
  function Split(s: string, sep: char): (parts: seq<string>)
    ensures |parts| >= 1
    ensures forall k :: 0 <= k < |parts| ==> sep !in parts[k]
  {
    if s == [] then [""]
    else if s[0] == sep then [""] + Split(s[1..], sep)
    else
      var rest := Split(s[1..], sep);
      [[s[0]] + rest[0]] + rest[1..]
  }

  /** The summed length of the parts. */
  function TotalLength(parts: seq<string>): nat {
    if parts == [] then 0 else |parts[0]| + TotalLength(parts[1..])
  }

  /** `parts.join(sep)`: the parts with one separator between neighbours,
      so as long as the parts together plus one separator fewer than there
      are parts, and beginning with the first part. */
  function Join(parts: seq<string>, sep: string): (r: string)
    ensures parts != [] ==> |r| + |sep| == TotalLength(parts) + |parts| * |sep|
    ensures parts != [] ==> r[..|parts[0]|] == parts[0]
  {
    if |parts| == 0 then ""
    else if |parts| == 1 then parts[0]
    else
      assert (|parts| - 1) * |sep| + |sep| == |parts| * |sep|;
      parts[0] + sep + Join(parts[1..], sep)
  }

  /** Joining the pieces of a split with the separator gives the text back:
      `split` loses nothing. */
  lemma {:induction false} JoinSplit(s: string, sep: char)
    ensures Join(Split(s, sep), [sep]) == s
  {
    if s != [] {
      var rest := Split(s[1..], sep);
      JoinSplit(s[1..], sep);
      if s[0] == sep {
        assert ([""] + rest)[1..] == rest;
        assert s == [sep] + s[1..];
      } else {
        JoinAfterHead(s[0], rest, [sep]);
        assert s == [s[0]] + s[1..];
      }
    }
  }

  /** A character put in front of the first part is put in front of the join. */
  lemma JoinAfterHead(c: char, parts: seq<string>, sep: string)
    requires parts != []
    ensures Join([[c] + parts[0]] + parts[1..], sep) == [c] + Join(parts, sep)
  {
    var q := [[c] + parts[0]] + parts[1..];
    assert q[1..] == parts[1..];
  }

  /** A separator-free piece followed by the separator splits off as one part. */
  lemma {:induction false} SplitPiece(a: string, sep: char, rest: string)
    requires sep !in a
    ensures Split(a + [sep] + rest, sep) == [a] + Split(rest, sep)
  {
    if a == [] {
      assert a + [sep] + rest == [sep] + rest;
      assert ([sep] + rest)[1..] == rest;
    } else {
      var s := a + [sep] + rest;
      assert s[0] == a[0] && s[1..] == a[1..] + [sep] + rest;
      SplitPiece(a[1..], sep, rest);
      assert [a[0]] + a[1..] == a;
    }
  }

  /** A string without the separator splits into itself. */
  lemma {:induction false} SplitNoSeparator(a: string, sep: char)
    requires sep !in a
    ensures Split(a, sep) == [a]
  {
    if a != [] {
      SplitNoSeparator(a[1..], sep);
      assert [a[0]] + a[1..] == a;
    }
  }

  /** Splitting what `join` produced gives the parts back, provided no part
      contains the separator (and there is at least one part). */
  lemma {:induction false} SplitJoin(parts: seq<string>, sep: char)
    requires |parts| >= 1
    requires forall k :: 0 <= k < |parts| ==> sep !in parts[k]
    ensures Split(Join(parts, [sep]), sep) == parts
  {
    if |parts| == 1 {
      SplitNoSeparator(parts[0], sep);
    } else {
      SplitJoin(parts[1..], sep);
      SplitPiece(parts[0], sep, Join(parts[1..], [sep]));
      assert [parts[0]] + parts[1..] == parts;
    }
  }
}

=== FILE: user_menu.dfy ===
/** The account menu's avatar initials and display name. */
module UserMenu {
  import opened Common
  import opened Text

  /** `words.map(n => n[0]).join("")`: the first character of each word; an
      empty word contributes nothing (its `n[0]` is undefined). */
  function FirstLetters(words: seq<string>): (r: string)
    ensures |r| <= |words|
    ensures words != [] && words[0] != "" ==> r != [] && r[0] == words[0][0]
  {
    if words == [] then ""
    else (if words[0] == "" then "" else [words[0][0]]) + FirstLetters(words[1..])
  }

  /** The first `n` characters, or all of them when there are fewer. */
  function Prefix(s: string, n: nat): (r: string)
    ensures |r| <= n && |r| <= |s| && r == s[..|r|]
    ensures |s| >= n ==> |r| == n
  {
    if |s| <= n then s else s[..n]
  }

  /** `getInitials`: for a full name, the upper-cased first letters of its
      space-separated words, cut to two; else the upper-cased first two
      characters of the email; else "U". */
  function Initials(fullName: Option<string>, email: Option<string>): (r: string)
    ensures 1 <= |r| <= 2 || (Truthy(fullName) && r == "")
    ensures Truthy(fullName) ==> r == Prefix(Upper(FirstLetters(Split(fullName.value, ' '))), 2)
    ensures !Truthy(fullName) && Truthy(email) ==> r == Upper(Prefix(email.value, 2))
    ensures !Truthy(fullName) && !Truthy(email) ==> r == "U"
  {
    if Truthy(fullName) then Prefix(Upper(FirstLetters(Split(fullName.value, ' '))), 2)
    else if Truthy(email) then Upper(Prefix(email.value, 2))
    else "U"
  }

  /** The first piece of `s.split(sep)` starts with the first character of
      `s` when that is not the separator. */
  lemma FirstPieceStartsLikeText(s: string, sep: char)
    requires s != [] && s[0] != sep
    ensures Split(s, sep)[0] != "" && Split(s, sep)[0][0] == s[0]
  {
  }

  /** A full name that does not start with a space yields initials that start
      with its first letter, upper-cased. */
  lemma InitialsStartWithFirstLetter(fullName: string, email: Option<string>)
    requires fullName != "" && fullName[0] != ' '
    ensures Initials(Some(fullName), email) != ""
    ensures Initials(Some(fullName), email)[0] == UpperChar(fullName[0])
  {
    FirstPieceStartsLikeText(fullName, ' ');
  }

  /** The mock user "Demo User" is shown as "DU". */
  lemma DemoUserInitials()
    ensures Initials(Some("Demo User"), Some("user@example.com")) == "DU"
  {
    SplitNoSeparator("User", ' ');
    SplitPiece("Demo", ' ', "User");
    assert "Demo" + [' '] + "User" == "Demo User";
  }

  /** `getDisplayName`: the full name, else the email, else "User". */
  function DisplayName(fullName: Option<string>, email: Option<string>): (r: string)
    ensures r != ""
    ensures Truthy(fullName) ==> r == fullName.value
    ensures !Truthy(fullName) && Truthy(email) ==> r == email.value
    ensures !Truthy(fullName) && !Truthy(email) ==> r == "User"
  {
    if Truthy(fullName) then fullName.value
    else if Truthy(email) then email.value
    else "User"
  }
}
